=== FILE: README.md ===
# lodgify-calendar-embed, modelled in Dafny

This project models the decision logic of a small property-rental toolkit:

- **The access-code lambdas.** A booking webhook creates a 4-digit door code on a smart lock for each confirmed stay (`lambda_function.py`). A cancellation webhook deletes those codes, and a scheduled sweep removes expired ones (`lambda_delete_codes.py`). Behind both sit:
  - deriving the code from the guest's phone, or else from the booking id;
  - the idempotency table that makes a repeated webhook a no-op;
  - listing a lock's codes across pages;
  - the duplicate-code recovery and the booking-id fallback;
  - the rules that pick which listed codes a cancellation or a sweep may delete.
- **The calendar builder** (`build_calendar_data.py`). It reads the iCal feeds of each listing, unfolds and scans them into events, and normalises the dates. It applies the manual blocks and drops past events. It names and orders the properties.
- **The Notion sync** (`notion_sync_calendar.py`). It reads the exported feeds and decides, event by event, whether to create a page, update one or leave it alone. Afterwards it archives the pages whose events have disappeared.
- **The validator** (`validate_calendar_data.py`). It splits every month of every property into morning and afternoon halves. It reports a half that two stays both claim, or a stay that claims no half.

Network services (the lock service, the key-value table, Notion, e-mail) become objects or parameters whose answers are fixed in advance: `Gateway.Remote`, `Store.IdempotencyStore`, `Provisioning.Notifier`. Contracts can therefore say which requests an operation sends, in which order, and what it then writes. The one exception is a list of bookings, as "## Left out" says.

Files:

| file | module | contents |
|---|---|---|
| `common.dfy` | `Common` | `Option`, `Result`, sequence helpers |
| `strings.dfy` | `Strings` | digits, lower-casing, trimming, search, ordering, decimals |
| `dates.dfy` | `Dates` | calendar dates, day arithmetic, ISO and compact date formats |
| `access_codes.dfy` | `AccessCodes` | code derivation, phone masking, clock times, record matching, answer classification |
| `gateway.dfy` | `Gateway` | the lock service: paginated listing, create, delete |
| `store.dfy` | `Store` | the idempotency table |
| `provisioning.dfy` | `Provisioning` | `create_access_code` and the create lambda's handler |
| `cancellation.dfy` | `Cancellation` | the cancel lambda: matching, deletion, the expiry sweep, its handler |
| `ics.dfy` | `Ics` | line unfolding, the VEVENT scanner, calendar names, the written feed |
| `calendar_build.dfy` | `CalendarBuild` | name cleaning, normalisation, blocks, property ordering |
| `notion_sync.dfy` | `NotionSync` | page payloads, the update decision, the upsert loop, archiving |
| `validate.dfy` | `Validate` | months, half-day spans, the occupancy check |

## Model

| member | source | states |
|---|---|---|
| AccessCodes.FirstNonEmpty | lambda_function.py:228-237 | the result is the first candidate that is present and non-empty, and every earlier candidate is missing or empty; the result is empty only when all candidates are |
| AccessCodes.ExtractLastFour | lambda_function.py:160-168 | none exactly when the phone has fewer than four digits; otherwise four digits that end the phone's digit string |
| AccessCodes.MaskPhone | lambda_function.py:171-177 | as long as the phone's digits; a position is `*` exactly when it lies before the last four, and the last four are the phone's own digits |
| AccessCodes.LastFourPadded | lambda_function.py:606-608 | the booking-id code is always four digits |
| AccessCodes.ResolveAccessCode | lambda_function.py:601-610 | a phone with four digits gives its last four, tagged "phone"; otherwise a booking id with digits gives a "booking_id" code; there is no code exactly when neither has; every code is four digits |
| AccessCodes.BookingIdCodeShape | lambda_function.py:606-608 | the booking-id code ends with the id's last min(4, n) digits and is zero-padded on the left |
| AccessCodes.PhoneCodeIgnoresBookingId | lambda_function.py:601-604 | when the phone yields a code, the booking id does not matter |
| AccessCodes.ParseHHMM | lambda_function.py:87-98 | with a valid fallback the result is a valid clock time; a value without a colon gives the fallback |
| AccessCodes.TimeFromFields | lambda_function.py:92-96 | in-range fields make the time, and anything else gives the fallback, so the result stays valid |
| AccessCodes.ParseTwoFields | lambda_function.py:89-95 | two two-character fields around one colon are parsed field by field |
| AccessCodes.SplitTwoFields | lambda_function.py:89-90 | such text is already trimmed and its only colon is at index 2 |
| AccessCodes.IntOfPad2 | lambda_function.py:93-94 | a two-digit field reads back as its value |
| AccessCodes.ParseHHMMRoundTrip | lambda_function.py:87-98 | every valid clock time written as HH:MM parses back to itself, whatever the fallback |
| AccessCodes.ApplyTime | lambda_function.py:315-321 | the instant lies on the given day at the given hour and minute |
| AccessCodes.WindowPositive | lambda_function.py:739-743 | check-out is after check-in exactly when the departure day is later, or the days are equal and the check-out time is later |
| AccessCodes.TimesMatchSymmetric | lambda_function.py:446-452 | the tolerance comparison is symmetric |
| AccessCodes.RecordMatchesOwnWindow | lambda_function.py:455-466 | a record of the desired code matches it under any non-negative tolerance; moving either edge by more than the tolerance breaks the match |
| AccessCodes.FirstPresent | lambda_function.py:538-550 | the first present candidate, with every earlier one absent; none only when all are absent |
| AccessCodes.ExtractAccessCodeId | lambda_function.py:532-552 | the id is the first string in the order `access_code_id`, `id`, then the same keys of `access_code`, then of `data`; no body gives none |
| AccessCodes.ClassifyCreate | lambda_function.py:566-598 | a transport failure is an error and a 2xx is a creation carrying the id read from the body ("" when none); any other answer is a duplicate exactly when the error type says so, or when the flag is on, the status is 409 or 422 and the text contains "duplicate access code" in any case; the answer text is kept |
| AccessCodes.DuplicateTextInAnyCase | lambda_function.py:590-595 | the textual duplicate check ignores case |
| AccessCodes.AlreadyDeletedIsSuccess | lambda_function.py:429-434 | a 404, 410 or 422 answer saying "not" in any case counts as deleted; a 500 does not |
| AccessCodes.AggregateStatus | lambda_function.py:838-841 | 200 exactly when every item is below 300, else 207 |
| AccessCodes.OneFailureMakesMultiStatus | lambda_function.py:840 | one rejected item anywhere makes the batch 207 |
| Provisioning.CheckinTime | lambda_function.py:101 | the configured check-in time, or 12:30, is a valid clock time |
| Provisioning.CheckoutTime | lambda_function.py:102 | the configured check-out time, or 13:00, is a valid clock time |
| Provisioning.ParseLocal | lambda_function.py:280-298 | a missing or blank value has no date; a day is returned only for a known zone and the parsed text; an unknown zone is reported as such |
| Provisioning.FallbackCode | lambda_function.py:722 | the fallback code, when there is one, is four digits |
| Provisioning.Prefix20 | lambda_function.py:748 | the name sent is the first at most 20 characters of the guest name |
| Provisioning.PlanProvisioning | lambda_function.py:705-743 | the 400 answers in the source's order (property, lock mapping, code, dates present, dates parse, window); both dates are parsed before either is checked, so an unknown zone raises when either date parses; a plan carries the mapped lock, the resolved code and its source, the fallback, the truncated name and a positive window on the parsed days at the configured times |
| Provisioning.PlanRaisedExactly | lambda_function.py:729-737 | the zone error is raised exactly when validation reaches the dates, both are present and at least one of them parses, even if the other does not |
| Provisioning.SameDayStayUnderDefaults | lambda_function.py:21-22 | when the times in effect are the defaults 12:30 and 13:00, a same-day stay is accepted, with a 30-minute window |
| Provisioning.FindMatchingAccessCode | lambda_function.py:396-416 | without both target edges nothing is listed; without an API key the listing raises; otherwise one listing session runs and the result is the first entry within the tolerance, or none exactly when no entry matches |
| Provisioning.DeleteExistingCode | lambda_function.py:613-630 | the deletes sent are exactly `DeletesFrom` of the service as it was: a stored id is deleted directly, without a listing; otherwise the id of the first listed code matching the stored code and window is deleted, when it has one; at most one delete, always for the given lock; one listing session is opened exactly when the record has no id but both edges and a key is set; the listing raises exactly when such a lookup is needed and no key is set |
| Provisioning.DeletesFrom | lambda_function.py:613-630 | at most one delete, only with an API key and a stored record, for the given lock and a non-empty id |
| Provisioning.DeletesFromMeaning | lambda_function.py:617-628 | with a key, a stored id is what is deleted; for a record without an id, the delete, when there is one, is of the first listed code in the stored window with the stored code; nothing is deleted exactly when there is no key, no window to look up, no match, or a match without an id |
| Provisioning.AfterReplacement | lambda_function.py:613-630 | the service after `_delete_existing_code`: the same key and create count, one listing session more exactly when the stored code had to be looked up |
| Provisioning.CreationFrom | lambda_function.py:633-702 | the outcome of `_create_with_fallback` against the service's fixed answers: no key fails with the missing-key error; a new code is created; a refusal keeps the reply's text; a duplicate adopts the first matching listed code (its id, source "existing"); otherwise a differing booking-id code is tried on the next create reply, with the same recovery on the next listing session, and a final failure keeps the second reply's text |
| Provisioning.CreatesFrom | lambda_function.py:633-702 | the create requests sent: none without a key, the primary code first, and the booking-id code second exactly when the first was a duplicate without a listed match and the fallback differs |
| Provisioning.CreateWithFallback | lambda_function.py:633-702 | the outcome is `CreationFrom` of the service as it was, and the creates sent are exactly `CreatesFrom`: the primary code first, then the booking-id code only after an unrecovered duplicate; the listing match adopted is the first one in listing order |
| Provisioning.Notifier.constructor | lambda_function.py:503-505 | a new channel, configured or not, has sent nothing |
| Provisioning.Notifier.Send | lambda_function.py:503-529 | a notice is sent only when the channel is configured |
| Provisioning.ProvisionPlan | lambda_function.py:760-811 | answer, creation outcome and creates sent are those of `PlanOutcome` for the stored record and the service as they were: up to date with nothing sent, the missing-key error of a stale-code lookup, or `CreationFrom` on the service the replacement left, answered by `CreationAnswer`; the deletes sent are the outcome's, so a stale record's code is deleted first, by its stored id or else by the listed match, on the plan's lock; the record written holds the booking's ids, the plan's lock and window and the creation's id, code and source; the notice goes out only for a new code |
| Provisioning.PlanOutcome | lambda_function.py:760-811 | no creation exactly for the idempotent hit or the lookup error, and then no create and no delete is sent; otherwise the deletes are `DeletesFrom` of the stored record; the lookup error needs a stored record and a missing key; a creation is answered by `CreationAnswer`; without a key the creation is the missing-key failure |
| Provisioning.PlanOutcomeFirstCreate | lambda_function.py:633-643 | with a key, a plan that reaches the creation sends its own code first, and a first reply that is a new code or a refusal decides the creation |
| Provisioning.RedeliveryIsUpToDate | lambda_function.py:760-766 | a booking delivered again after its own code was created and recorded is answered "already up to date" and sends nothing, whatever the service would answer |
| Provisioning.CreateAndRecord | lambda_function.py:784-811 | the creation is `CreationFrom` of the service as it was and the creates sent `CreatesFrom`; the answer is `CreationAnswer` of it (502 with its message, "already exists", "created successfully"); a record exactly for a created or adopted code, built from the creation; the notice exactly for a new code on a configured channel |
| Provisioning.CreateAccessCode | lambda_function.py:705-811 | answer, creation, creates and deletes sent are `AccessCodeOutcome` of the booking, the stored record and the service as they were; a rejected or raising booking changes nothing; a planned one deletes a stale record's code first (its stored id, or the listed match), writes the record built from the creation and sends the notice only for a new code |
| Provisioning.AccessCodeOutcome | lambda_function.py:705-811 | a refused or raising booking creates nothing and sends no create and no delete; a planned one ends as `PlanOutcome` says |
| Provisioning.ProcessPayload | lambda_function.py:814-832 | answer, creation, creates and deletes sent are `BookingOutcome` of the booking, the stored record and the service as they were: a booking that is not booked or confirmed is skipped with 200 and changes nothing, any other ends as `create_access_code` ends; the table gains exactly the record of a created code |
| Provisioning.BookingOutcome | lambda_function.py:814-832 | a skipped booking answers 200, creates nothing and sends no create and no delete; any other ends as `AccessCodeOutcome` says |
| Provisioning.HandleEvent | lambda_function.py:835-847 | a non-object is answered 400; an object ends as `BookingOutcome` says for the stored record and the service as they were, answer, creation, creates and deletes; a list answers one item per booking, each as `_process_payload` answers that booking, with the aggregate status; an exception in an item is the invocation's answer |
| Provisioning.ProcessBatch | lambda_function.py:838-841 | every item in order, each answer the one `_process_payload` gives for that booking and its creation; an exception raised by one item ends the invocation with that exception; the status is the aggregate of the items |
| Gateway.ExtractCodesFromResponse | lambda_function.py:343-352 | an array is the batch with no pagination; an object gives `access_codes`, else `data`, else nothing, with its pagination; other JSON gives nothing |
| Gateway.NextCursor | lambda_function.py:388-392 | the listing continues exactly when the pagination is an object that has a next page and a non-empty cursor |
| Gateway.ReadPage | lambda_function.py:364-386 | a page yields nothing exactly when the answer (the GET's after a 404 or 405 POST) is not 2xx or not JSON |
| Gateway.WalkIsPrefixOfBatches | lambda_function.py:355-394 | a listing gathers a prefix of the batches the service would serve, in order, with nothing invented |
| Gateway.WalkSendsListRequests | lambda_function.py:361-367 | at most two requests per page, all for the listed device, and the first is the POST with the starting cursor |
| Gateway.LastPageIsRead | lambda_function.py:383-392 | a single page without a next cursor is gathered in full |
| Gateway.FindFirstMatch | lambda_function.py:403-416 | the first entry with the same code and both edges within the tolerance, which is `FirstMatch`; none exactly when no entry matches |
| Gateway.FirstMatch | lambda_function.py:396-416 | the entry returned is listed and matches; there is none exactly when no entry matches |
| Gateway.FirstMatchIsFirst | lambda_function.py:403-416 | the entry returned sits at the position of the first match |
| Gateway.Paginate | lambda_function.py:355-394 | the codes and requests of the loop are those of the listing defined page by page |
| Gateway.FetchPage | lambda_function.py:361-367 | one page costs the POST, then a GET when the POST answers 404 or 405 |
| Gateway.WalkStep | lambda_function.py:369-392 | one page of the listing in terms of what that page yields |
| Gateway.Remote.constructor | lambda_function.py:324-340 | a service with its fixed answers and nothing sent yet |
| Gateway.Remote.ListAccessCodes | lambda_function.py:355-394 | without an API key it raises and sends nothing; otherwise it returns the next session's listing and logs its requests |
| Gateway.Remote.Create | lambda_function.py:566-598 | without an API key nothing is sent; otherwise the payload is logged and the answer classified |
| Gateway.Remote.DeleteById | lambda_function.py:419-443 | a dry run succeeds without sending; without a key it fails; otherwise the target is logged and the answer decides success |
| Store.KeyOf | lambda_function.py:134 | a record's key is the booking id, or "None" for a missing id |
| Store.Lookup | lambda_function.py:128-137 | a read finds a record exactly when the table is configured, the id is present and stored; it is the stored record |
| Store.ReadAfterWrite | lambda_function.py:140-147 | a written record is what the next read of its id returns, and other ids read as before |
| Store.ReadAfterRemove | lambda_function.py:150-157 | a removed id reads as absent, and other ids read as before |
| Store.IdempotencyStore.constructor | lambda_function.py:122-125 | a table with the given records, each under its own id |
| Store.IdempotencyStore.Get | lambda_function.py:128-137 | the stored record of a present id, under its own id |
| Store.IdempotencyStore.Put | lambda_function.py:140-147 | the record replaces the one under its id, and every record stays under its own id; nothing is written without a table |
| Store.IdempotencyStore.Delete | lambda_function.py:150-157 | the id's record is removed; a missing id or a missing table changes nothing |
| Cancellation.KeywordInsideAction | lambda_delete_codes.py:340-345 | any cancel keyword inside the action makes the event a cancellation, because the match is on substrings |
| Cancellation.NoKeywordNoCancellation | lambda_delete_codes.py:340-345 | a status outside the cancelled set with an action free of every keyword is not a cancellation |
| Cancellation.Filter | lambda_delete_codes.py:453-474 | a pass keeps at most as many entries as the listing has |
| Cancellation.FilterKeeps | lambda_delete_codes.py:453-474 | a pass keeps exactly the entries with the code, an allowed kind and, in the window pass, an end within the tolerance of check-out and any parsed start within it of check-in |
| Cancellation.FilterIsSubsequence | lambda_delete_codes.py:453-474 | a pass keeps the listing's order |
| Cancellation.WindowMatchesAreCodeMatches | lambda_delete_codes.py:479-487 | every window match is also a code-only match |
| Cancellation.MatchesAreWindowMatchesFirst | lambda_delete_codes.py:449-489 | matches always have the code and an allowed kind; when any entry matches the window only window matches are returned; without the code-only switch only window matches are ever returned |
| Cancellation.FilterPass | lambda_delete_codes.py:453-474 | the loop keeps what the filter keeps |
| Cancellation.FilterCodesForBooking | lambda_delete_codes.py:449-489 | the window pass, then the code-only pass only when the first found nothing and the switch is on |
| Cancellation.DeleteTargets | lambda_delete_codes.py:546-552 | at most one delete per match |
| Cancellation.DeleteTargetsAreMatchIds | lambda_delete_codes.py:546-552 | the deletes go to the mapped lock, one for each matched entry with an id and for nothing else |
| Cancellation.Successes | lambda_delete_codes.py:551-552 | the count of successful deletes never exceeds the deletes asked for |
| Cancellation.DeleteLogAccumulates | lambda_delete_codes.py:546-552 | two runs of deletes one after the other log and count as one run |
| Cancellation.DeleteLogBound | lambda_delete_codes.py:422-446 | a run never counts more than it asked for; a dry run or a missing API key sends nothing |
| Cancellation.DeleteCounted | lambda_delete_codes.py:550-552 | one more delete asked for, and the count rises by one exactly when it succeeds |
| Cancellation.DeleteMatches | lambda_delete_codes.py:546-552 | the loop sends exactly the deletes of the matches that have an id, in order, and counts the successes; a dry run counts every one and sends none |
| Cancellation.CheckinTime | lambda_delete_codes.py:130 | the cancel lambda's check-in time is a valid clock time |
| Cancellation.CheckoutTime | lambda_delete_codes.py:131 | the cancel lambda's check-out time is a valid clock time |
| Cancellation.CancelTarget | lambda_delete_codes.py:512-527 | no code gives "Missing phone and booking id."; a target has the resolved code and the parsed days, read in the default zone; both dates are parsed before either is checked, so an unknown default zone raises when either date parses; the other refusals are the missing and the invalid dates |
| Cancellation.TargetRaisedExactly | lambda_delete_codes.py:512-524 | the zone error is raised exactly when the booking has a code, both dates are present and at least one of them parses |
| Cancellation.DeletedBody | lambda_delete_codes.py:557 | the body names the count in decimal and differs from the lambda's other 200 bodies |
| Cancellation.DeleteByListing | lambda_delete_codes.py:510-557 | refusals answer 400 before any listing; without an API key the listing raises; no match answers "No matching access code found" and deletes nothing; otherwise exactly the matches' deletes are sent, in order, on the mapped lock, the body reports the successes counted, and the record is removed exactly when one delete succeeded |
| Cancellation.DeleteByRecord | lambda_delete_codes.py:503-508 | a stored record with a code id sends one delete for that id, on the record's own lock or else the mapped one; the step settles the cancellation exactly when that delete is done, and then the record is removed |
| Cancellation.DeleteAtDevice | lambda_delete_codes.py:503-557 | the record step first; when it settles the cancellation the answer is "Deleted access code from idempotency record" and nothing is listed; otherwise the answer, deletes and record removal are those of the listing path |
| Cancellation.DeleteCodesForCancellation | lambda_delete_codes.py:490-557 | a missing property or lock mapping answers 400 and changes nothing; a record with a code id is deleted first, on its own lock or the mapped one, and when that delete is done the answer is "Deleted access code from idempotency record", the record is removed and nothing is listed; otherwise the answer is the listing path's; a dry run deletes nothing |
| Cancellation.SweepEligibleLater | lambda_delete_codes.py:561-583 | a code the sweep may remove now stays removable later |
| Cancellation.Least | lambda_delete_codes.py:564 | the least of a non-empty set of lock ids |
| Cancellation.SortedDistinct | lambda_delete_codes.py:564 | the lock ids are visited once each, in strictly increasing order |
| Cancellation.SweepTargets | lambda_delete_codes.py:568-588 | at most one delete per code examined |
| Cancellation.SweepTargetsAreEligible | lambda_delete_codes.py:570-588 | the sweep deletes exactly the codes that pass the kind filters, end no later than the cutoff and have an id, each on the lock it was listed for |
| Cancellation.SeenOnDevice | lambda_delete_codes.py:569-570 | every code recorded for a lock carries that lock's id |
| Cancellation.SweepTargetsAppend | lambda_delete_codes.py:568-588 | the deletes over two stretches of codes are those of the first, then those of the second |
| Cancellation.LockSweepTargets | lambda_delete_codes.py:570-588 | the sweep of one lock deletes at most one code per code listed |
| Cancellation.LockSweepTargetsSeen | lambda_delete_codes.py:570-588 | the sweep of one lock is the sweep over its codes as recorded on that lock |
| Cancellation.SweepDevice | lambda_delete_codes.py:570-588 | the inner loop sends exactly the one lock's eligible deletes, in order, and counts the successes |
| Cancellation.SweepLock | lambda_delete_codes.py:569-588 | one lock: the listing raises exactly without an API key and then nothing changes; otherwise one listing session is used, every code it yields is recorded with the lock and counted, and the deletes are the sweep's for those codes |
| Cancellation.ListedInOrderExtends | lambda_delete_codes.py:568-569 | listing the next lock in the next session keeps every lock's listing tied to its own session |
| Cancellation.SweepNext | lambda_delete_codes.py:568-588 | one turn of the lock loop: without an API key nothing changes; otherwise the lock's listing is appended, the codes recorded are still every listed code in order, and the delete log stays the sweep's for them |
| Cancellation.SweepLocks | lambda_delete_codes.py:568-588 | the loop fails exactly without an API key and a lock to list; otherwise each lock is listed once, in order, in consecutive sessions, the codes examined are all their listings' codes lock after lock, each counted, and the deletes are those of the codes examined |
| Cancellation.CleanupExpiredCodes | lambda_delete_codes.py:560-594 | an unknown default zone raises before any lock is listed, and nothing is listed or deleted; otherwise the locks are the mapped ones in strictly increasing order, each listed once; the codes examined are all their codes, counted; the deletes are exactly the eligible codes among them; the answer is 200 with the two counts, or the missing-key error when a lock exists and no key is set; a dry run deletes nothing |
| Cancellation.RouteOf | lambda_delete_codes.py:608-631 | a list is a batch and anything that is not an object is rejected; a cancel route carries the event's own booking |
| Cancellation.ModeWinsOverSource | lambda_delete_codes.py:611-620 | an explicit cancel mode wins over a scheduler source, and a scheduler event without a mode runs the sweep |
| Cancellation.ProcessPayload | lambda_delete_codes.py:597-605 | a non-cancellation is skipped with 200 and changes nothing; a cancellation is answered, deletes and updates the table as `delete_codes_for_cancellation` does (`PayloadOutcome`) |
| Cancellation.StepsChainAt | lambda_delete_codes.py:624-625 | every step of a list is one booking handled as `_process_payload` handles it, from the log and table the previous step left |
| Cancellation.StepsChainExtends | lambda_delete_codes.py:624-625 | handling the next booking of the list extends the chain of steps by one |
| Cancellation.BatchNext | lambda_delete_codes.py:624-625 | one turn of the list loop: the next booking is handled as `_process_payload` handles it and the chain of steps grows by that step |
| Cancellation.ProcessBatch | lambda_delete_codes.py:623-627 | the bookings are handled in order, each as `_process_payload` handles it on the log and table the previous one left; the answers are the items, with the aggregate status; an exception in an item is the invocation's answer |
| Cancellation.HandleEvent | lambda_delete_codes.py:608-631 | an invalid payload answers 400; a sweep route runs `cleanup_expired_codes` (`SweepOutcome`) and leaves the table alone; a cancel route is answered as `_process_payload` answers it; a list is handled as `ProcessBatch` handles it; a dry run never deletes |
| Strings.Digits | lambda_function.py:160-161 | only digits, never longer than the input, and a text of digits is kept whole |
| Strings.DigitsAppend | lambda_function.py:160-161 | the digits of a concatenation are the digits of each part, in order |
| Strings.Alnums | notion_sync_calendar.py:53-54 | only ASCII letters and digits, never longer than the input |
| Strings.Lower | lambda_function.py:593 | same length, every character lower-cased in place |
| Strings.LowerSlice | lambda_function.py:593 | lower-casing commutes with taking a slice |
| Strings.LowerIdempotent | lambda_function.py:593 | lower-casing twice is lower-casing once |
| Strings.ContainsLower | lambda_function.py:590-595 | a text that contains a word still contains it, lower-cased, once both are lower-cased |
| Strings.TrimStart | lambda_function.py:89 | the result is a suffix whose first character is not whitespace, and everything dropped is whitespace |
| Strings.TrimEnd | lambda_function.py:89 | the result is a prefix whose last character is not whitespace, and everything dropped is whitespace |
| Strings.Trim | lambda_function.py:89 | the stripped text neither starts nor ends with whitespace |
| Strings.TrimIdempotent | lambda_function.py:89 | stripping twice is stripping once |
| Strings.TrimOfTrimmed | lambda_function.py:89 | a text without surrounding whitespace is its own strip |
| Strings.IndexOf | build_calendar_data.py:144 | the first position of the character, or none when it does not occur |
| Strings.AfterFirstColon | build_calendar_data.py:144-150 | none exactly when the line has no colon; otherwise the text after its first colon |
| Strings.AfterPrefixWithColon | build_calendar_data.py:143-150 | after a prefix ending in its only colon, the value is what follows the prefix |
| Strings.StrLeTotal | lambda_delete_codes.py:564 | string order is total |
| Strings.StrLeAntisymmetric | lambda_delete_codes.py:564 | string order is antisymmetric |
| Strings.StrLeTransitive | lambda_delete_codes.py:564 | string order is transitive |
| Strings.NatToDecimal | lambda_delete_codes.py:557 | a count is written as a non-empty string of digits |
| Strings.DecimalRoundTrip | lambda_delete_codes.py:557 | a written count reads back as the count |
| Dates.DaysInMonth | validate_calendar_data.py:16-18 | 28 to 31 days, and 29 exactly for February of a leap year |
| Dates.NextDay | validate_calendar_data.py:21-22 | the next day is a calendar date after the given one |
| Dates.PrevDay | validate_calendar_data.py:18 | the previous day is a calendar date before the given one |
| Dates.NextDayIsAdjacent | validate_calendar_data.py:21-22 | no calendar date lies strictly between a day and the next |
| Dates.NextOfPrevDay | validate_calendar_data.py:18 | a day back and a day forward return to the same day |
| Dates.ParseIsoDate | build_calendar_data.py:175-178 | only a date Python can hold is returned |
| Dates.ParseDate | build_calendar_data.py:169-178 | a missing or empty value gives nothing; a parsed date is one Python can hold |
| Dates.IsoFormat | build_calendar_data.py:369-370 | the ISO form is ten characters |
| Dates.BasicFormat | build_calendar_data.py:172-173 | the compact form is eight characters |
| Dates.IsoFormatRoundTrip | build_calendar_data.py:394-395 | re-reading a date written with `isoformat()` gives the date back |
| Dates.BasicFormatRoundTrip | build_calendar_data.py:172-173 | reading the compact form of a date gives the date back |
| Dates.ImpossibleCompactDateRaises | build_calendar_data.py:172-173 | eight digits that name no calendar day raise `ValueError` rather than giving nothing |
| Ics.NormalizeBreaks | build_calendar_data.py:98 | no CR is left, and a text without CR is unchanged |
| Ics.SplitLines | build_calendar_data.py:98 | at least one piece, none holding a line break, and joining them gives the text back |
| Ics.SplitJoin | build_calendar_data.py:98 | splitting joined break-free parts gives the parts back |
| Ics.JoinLinesNoCR | build_calendar_data.py:98 | joining break-free parts leaves no CR |
| Ics.UnfoldStep | build_calendar_data.py:100-107 | one physical line adds at most one line and never leaves an empty line or a continuation behind |
| Ics.UnfoldFrom | build_calendar_data.py:99-108 | unfolding never yields more lines than it reads, and every result is a content line |
| Ics.UnfoldedLines | build_calendar_data.py:97-108 | no unfolded line is empty or starts with a space or a tab |
| Ics.UnfoldIcsLines | build_calendar_data.py:97-108 | the loop that extends the last line in place yields the unfolding defined line by line, all content lines |
| Ics.UnfoldAppend | build_calendar_data.py:99-108 | unfolding two runs of lines is unfolding the first, then the second |
| Ics.Continuations | build_calendar_data.py:103-105 | the lines written to carry the rest of a long line are continuations within the width |
| Ics.FoldLine | build_calendar_data.py:103-105 | folding gives physical lines within the width, free of breaks |
| Ics.FoldLines | build_calendar_data.py:103-105 | folding break-free lines gives break-free physical lines |
| Ics.UnfoldContinuations | build_calendar_data.py:103-105 | unfolding the continuations appends their text to the last line |
| Ics.UnfoldFoldLine | build_calendar_data.py:97-108 | unfolding a folded content line gives the line back |
| Ics.UnfoldFoldLines | build_calendar_data.py:97-108 | unfolding undoes folding for every width of at least 2 (section 3.1 of RFC 5545) |
| Ics.WrittenFeedUnfolds | build_calendar_data.py:97-108 | a folded feed joined with line breaks unfolds to its content lines |
| Ics.PropertyValue | build_calendar_data.py:148-150 | the value raises exactly when the line has no colon |
| Ics.ScanLineMeaning | build_calendar_data.py:132-150 | a turn raises only on a date line without a colon inside a component; it keeps at most the component it closes, and only a complete one; outside a component it ignores every line but `BEGIN:VEVENT` |
| Ics.ScanFrom | build_calendar_data.py:131-150 | the events kept only grow, stay complete, and no properties are held outside a component |
| Ics.ScanEvents | build_calendar_data.py:131-150 | every event kept has a uid, a start and an end |
| Ics.ScanLines | build_calendar_data.py:125-150 | the loop over `in_event` and `current` keeps the events of the line-by-line scan, all complete |
| Ics.ScanTurn | build_calendar_data.py:132-150 | one turn of the loop body is the turn the scan defines |
| Ics.CalendarNameOf | build_calendar_data.py:113-118 | a line names the calendar exactly when it starts with one of the three name properties |
| Ics.CalendarName | build_calendar_data.py:111-119 | the value of the first line that names the calendar; "" when none does |
| Ics.ParsedContent | build_calendar_data.py:122-152 | every event returned is complete |
| Ics.ParseIcsContent | build_calendar_data.py:122-152 | unfolding, scanning and naming give the parse the model defines |
| Ics.RawOfAll | build_calendar_data.py:152 | one scanned event per written event |
| Ics.ScanCons | build_calendar_data.py:131 | the scan of a line followed by others is that line's turn, then the rest |
| Ics.DateLineValue | build_calendar_data.py:148-150 | an all-day date line yields its stripped value |
| Ics.ScanUidLine | build_calendar_data.py:143-144 | inside a component a `UID:` line sets the uid |
| Ics.ScanSummaryLine | build_calendar_data.py:145-146 | inside a component a `SUMMARY:` line sets the summary |
| Ics.ScanDateLine | build_calendar_data.py:147-150 | inside a component a `DTSTART` line sets the start, and a `DTEND` line that is not a `DTSTART` line sets the end |
| Ics.ScanStartLine | build_calendar_data.py:147-148 | an all-day `DTSTART` line sets the start |
| Ics.ScanEndLine | build_calendar_data.py:149-150 | an all-day `DTEND` line sets the end |
| Ics.StepBegin | build_calendar_data.py:132-135 | `BEGIN:VEVENT` opens a component with no properties |
| Ics.StepUid | build_calendar_data.py:143-144 | a uid line sets the uid, whatever follows |
| Ics.StepSummary | build_calendar_data.py:145-146 | a summary line sets the summary, whatever follows |
| Ics.StepStart | build_calendar_data.py:147-148 | a start line sets the start, whatever follows |
| Ics.StepEnd | build_calendar_data.py:149-150 | an end line sets the end, whatever follows |
| Ics.StepClose | build_calendar_data.py:136-141 | `END:VEVENT` keeps a complete component and closes it |
| Ics.EventLinesNested | build_calendar_data.py:131 | the lines of a written event, one at a time |
| Ics.ScanEventLines | build_calendar_data.py:131-150 | scanning one written event keeps it, whatever follows |
| Ics.ScanEventsLines | build_calendar_data.py:131-150 | scanning written events keeps them in order |
| Ics.EventLinesAreContent | build_calendar_data.py:97-108 | every line of a written event is a content line free of breaks |
| Ics.EventsLinesAreContent | build_calendar_data.py:97-108 | every line of the written events is a content line free of breaks |
| Ics.FeedLinesAreContent | build_calendar_data.py:97-108 | every line of a written feed is a content line free of breaks |
| Ics.StepIgnored | build_calendar_data.py:142-143 | outside a component any line but `BEGIN:VEVENT` changes nothing |
| Ics.FeedLinesNested | build_calendar_data.py:131 | the lines of a written feed, one at a time |
| Ics.ScanAroundEvents | build_calendar_data.py:131-150 | the header and trailer lines of a feed leave the scan of its events as it is |
| Ics.ScanWrittenFeed | build_calendar_data.py:131-150 | the scan of a written feed keeps exactly its events, in order |
| Ics.FirstCharDiffers | build_calendar_data.py:132-137 | texts that differ in their first character differ |
| Ics.NotPrefix | build_calendar_data.py:143-150 | a text whose first character differs from a prefix's does not start with it |
| Ics.NameOfWrittenFeed | build_calendar_data.py:111-119 | the name read from a written feed is the name it was written under |
| Ics.ReadWrittenFeed | build_calendar_data.py:122-152 | whatever the fold width, a written feed parses to exactly its events, in order, and its name |
| CalendarBuild.RemoveAll | build_calendar_data.py:348 | removing every occurrence of a text never lengthens a name |
| CalendarBuild.RemoveAllAbsent | build_calendar_data.py:348 | a name without the removed text is left as it is |
| CalendarBuild.RemoveAllSkips | build_calendar_data.py:348 | a name that does not start with the removed text keeps its first character |
| CalendarBuild.NotContainsTail | build_calendar_data.py:348 | a text absent from a name is absent from its tail |
| CalendarBuild.CleanPropertyName | build_calendar_data.py:346-348 | the cleaned name is no longer than the name and has no surrounding blanks; what it drops is stated by `DropsIcsInAnyCase`, `CleanIcsFileName`, `CleanExportedFileName` and `CleanPlainName` |
| CalendarBuild.AvailabilitySuffixIsBorderFree | build_calendar_data.py:348 | the text ` - availability` overlaps itself nowhere, so one removal cannot create another |
| CalendarBuild.NoOccurrenceAtStart | build_calendar_data.py:348 | a border-free text appended to a name that does not end in part of it is found only at the end |
| CalendarBuild.RemoveAllTrailing | build_calendar_data.py:348 | removing the suffix from a name that does not hold it gives back the name |
| CalendarBuild.CleanExportedFileName | build_calendar_data.py:346-348 | the file name `<name> - availability.ics`, with the extension in any letter case, cleans to the trimmed name |
| CalendarBuild.DropsIcsInAnyCase | build_calendar_data.py:346-347 | a trailing `.ics` in any letter case is dropped before the suffix is removed and the name stripped |
| CalendarBuild.CleanIcsFileName | build_calendar_data.py:346-348 | `<name>.ics`, `<name>.ICS` or any other casing cleans to the trimmed name |
| CalendarBuild.CleanPlainName | build_calendar_data.py:346-348 | a name with neither the suffix nor `.ics` cleans to the trimmed name |
| CalendarBuild.LastSegment | build_calendar_data.py:342-345 | the last segment of a path or URL is a suffix of it holding no `/` |
| CalendarBuild.MinDate | build_calendar_data.py:302 | the configured first day when it reads, 2026-01-01 when it does not, a `ValueError` for an impossible compact date |
| CalendarBuild.NormalizeEvent | build_calendar_data.py:350-372 | an event is dropped when a date is missing or it ends on or before the first day; otherwise it is clipped to the first day, keeps its uid and is a closed "Owner Block" exactly when its summary is "closed period", a "Reservation" otherwise |
| CalendarBuild.NormalizeAll | build_calendar_data.py:350-372 | every event kept lies within the window and carries only a neutral summary |
| CalendarBuild.NormalizeAllRaises | build_calendar_data.py:350-372 | the loop succeeds exactly when every event's dates can be read or skipped without raising |
| CalendarBuild.NormalizeAllStep | build_calendar_data.py:350-372 | the loop over one more event succeeds exactly when the loop before it and that event do |
| CalendarBuild.NormalizeEvents | build_calendar_data.py:350-372 | the loop computes the normalisation the model defines |
| CalendarBuild.FailureStays | build_calendar_data.py:350-372 | once an event raises, the whole build raises `ValueError` |
| CalendarBuild.FailureIsValueError | build_calendar_data.py:350-372 | the only error the loop raises is `ValueError` |
| CalendarBuild.StartText | build_calendar_data.py:377-379 | a block without a start, or with start "today", begins on the day of the build; otherwise on its start |
| CalendarBuild.ResolveDates | build_calendar_data.py:383-391 | a block applies exactly when both dates read and it ends after the first day; it is clipped to the first day; an impossible date raises |
| CalendarBuild.ResolveBlock | build_calendar_data.py:375-391 | a block for another property, or without an end, is skipped; an applied block lies within the window |
| CalendarBuild.BlockFromToday | build_calendar_data.py:377-379 | a block starting "today" begins on the day of the build, or on the first day when that is later |
| CalendarBuild.KeepClear | build_calendar_data.py:392-401 | the events kept are exactly those that do not overlap the block |
| CalendarBuild.FilterClear | build_calendar_data.py:392-401 | the filtering loop keeps the events the model defines, in order |
| CalendarBuild.ApplyResolution | build_calendar_data.py:393-411 | an applied block sits last, no earlier event overlaps it, and every event clear of it stays; a skipped block changes nothing |
| CalendarBuild.ApplyBlocks | build_calendar_data.py:374-411 | the calendar stays within its window, and the last applied block is last with nothing overlapping it |
| CalendarBuild.MergeBlocks | build_calendar_data.py:374-411 | the block loop computes the merge the model defines |
| CalendarBuild.BlockFailureStays | build_calendar_data.py:374-411 | once a block raises, the whole build raises `ValueError` |
| CalendarBuild.BlockFailureIsValueError | build_calendar_data.py:374-411 | the only error the block loop raises is `ValueError` |
| CalendarBuild.PropertyNameOf | build_calendar_data.py:337-348 | a configured name with neither suffix is used as it is, trimmed |
| CalendarBuild.CollectSource | build_calendar_data.py:305-413 | a built property lies within the window; a source that cannot be read or is empty is reported under its configured name or "unknown" |
| CalendarBuild.CollectFromSource | build_calendar_data.py:305-413 | the body of the source loop computes the outcome the model defines |
| CalendarBuild.LeadingDigits | build_calendar_data.py:71 | the digits a text starts with, all of them |
| CalendarBuild.PropertySortKey | build_calendar_data.py:70-74 | a name whose first non-blank character is a digit is numbered by its leading digits; every key carries the lowered name |
| CalendarBuild.KeyLeTotal | build_calendar_data.py:84-90 | any two sort keys are ordered one way or the other |
| CalendarBuild.KeyLeTransitive | build_calendar_data.py:84-90 | the order on sort keys is transitive |
| CalendarBuild.OrderKeys | build_calendar_data.py:82-84 | each listed name is stripped and lowered |
| CalendarBuild.LastIndex | build_calendar_data.py:82-88 | a listed name gets the last position it is listed at, any other name 9999 |
| CalendarBuild.Decorate | build_calendar_data.py:85-90 | each property is paired with its key |
| CalendarBuild.Properties | build_calendar_data.py:85-90 | removing the keys keeps the properties in place |
| CalendarBuild.Insert | build_calendar_data.py:85-90 | inserting adds exactly the one entry |
| CalendarBuild.InsertSorted | build_calendar_data.py:85-90 | inserting into sorted entries keeps them sorted |
| CalendarBuild.SortEntries | build_calendar_data.py:85-90 | the result is sorted and holds the same properties |
| CalendarBuild.SortProperties | build_calendar_data.py:77-94 | the result is a permutation of the properties, sorted by configured rank, then by sort key |
| CalendarBuild.UndecorateDecorate | build_calendar_data.py:85-90 | removing the keys from decorated properties gives them back |
| CalendarBuild.SortedEntriesKeys | build_calendar_data.py:85-90 | sorted entries drawn from decorated properties are sorted by the properties' own keys |
| CalendarBuild.SortedOrder | build_calendar_data.py:77-94 | listed names come first, in list order; at the same rank, numbered names come first, by number |
| CalendarBuild.KeyLeMeaning | build_calendar_data.py:70-90 | ordered keys have rank no higher and, at equal rank, a number no higher |
| CalendarBuild.ListedRanksFirst | build_calendar_data.py:82-88 | a listed name ranks below every unlisted one |
| NotionSync.ParseIcsFile | notion_sync_calendar.py:83-114 | the events of a file are the complete components of its unfolded lines, in order |
| NotionSync.SlugUid | notion_sync_calendar.py:53-54 | the slug is the first eight letters and digits of the uid, all of them when there are fewer |
| NotionSync.AlnumsOfAlnum | notion_sync_calendar.py:54 | a text of letters and digits loses nothing to the filter |
| NotionSync.SlugIdempotent | notion_sync_calendar.py:53-54 | a slug is its own slug |
| NotionSync.TextItems | notion_sync_calendar.py:251-252 | no items are read only when the property has neither rich text nor a title |
| NotionSync.PropText | notion_sync_calendar.py:250-255 | a property with no items, or whose first item has no `plain_text`, reads as "" |
| NotionSync.PropSelect | notion_sync_calendar.py:258-263 | a property with no selection reads as "" |
| NotionSync.PropDate | notion_sync_calendar.py:266-271 | a property with no date reads as no start and no end |
| NotionSync.StayEnd | notion_sync_calendar.py:227 | the stay ends the night before check-out, not before check-in; an event that does not end after it starts ends on check-out |
| NotionSync.PayloadFields | notion_sync_calendar.py:217-247 | no page when a date is missing, a `ValueError` for an impossible compact date; otherwise the page keeps uid, property, source and sync time, is a "Closed Period" exactly for a closed summary, and is titled by the matching prefix and the slug |
| NotionSync.StayCoversNights | notion_sync_calendar.py:227-243 | the stay starts on check-in and ends on the night before check-out, and the dates read back as written |
| NotionSync.WithPlainText | notion_sync_calendar.py:252-254 | a stored text item's `plain_text` is its content |
| NotionSync.DesiredView | notion_sync_calendar.py:235-247 | a payload shows the values it was built from, and its UID reads as "" through `plain_text` |
| NotionSync.StoredView | notion_sync_calendar.py:274-303 | a stored page shows the values it was written with, and its UID reads as the uid |
| NotionSync.StoredPageAlwaysNeedsUpdate | notion_sync_calendar.py:274-278 | as written, a page holding exactly what the sync would write still reads as changed |
| NotionSync.StoredPageIsCurrent | notion_sync_calendar.py:274-303 | a stored page needs an update exactly when the payload differs in more than the sync time |
| NotionSync.GetOther | notion_sync_calendar.py:251 | setting one property leaves every other as it was |
| NotionSync.LastSyncIgnored | notion_sync_calendar.py:274-303 | neither comparison reads the time of the last sync |
| NotionSync.UidIndexHoldsPages | notion_sync_calendar.py:308 | every page is indexed under its uid, and only under it |
| NotionSync.LastPageWins | notion_sync_calendar.py:308 | of several pages with one uid the last is kept |
| NotionSync.ActionMeaning | notion_sync_calendar.py:315-342 | an event without a uid asks for nothing; a page is created only for a uid the database lacks, and always when both dates read; it is rewritten only when it holds the uid and is out of date; nothing is archived here |
| NotionSync.SeenUidsAreEventUids | notion_sync_calendar.py:313-319 | the seen uids are exactly the non-empty uids of the events |
| NotionSync.DecisionAt | notion_sync_calendar.py:315-342 | the decision at a position is the one for the event there |
| NotionSync.CountsOfSnoc | notion_sync_calendar.py:333-342 | one more request adds one to the matching count |
| NotionSync.TallyShape | notion_sync_calendar.py:315-342 | at most one request per decision, no archive, and the counters count creations and updates |
| NotionSync.SyncRequestsShape | notion_sync_calendar.py:311-342 | the event loop asks for at most one request per event, never an archive, and counts what it asked for |
| NotionSync.ArchiveSet | notion_sync_calendar.py:344-353 | with archiving on, exactly the non-empty uids the database holds and no event named are archived |
| NotionSync.UpsertEvent | notion_sync_calendar.py:316-342 | the loop body makes the decision the model defines, only a create or an update |
| NotionSync.UpsertPages | notion_sync_calendar.py:306-355 | with the corrected page comparison (`PageNeedsUpdate`, see Findings): the run raises exactly when an event raises; otherwise it makes the decided requests, counts them, and archives exactly the pages of uids no event named |
| NotionSync.ArchiveMissing | notion_sync_calendar.py:344-353 | the archiving loop archives the set the model defines and counts it |
| NotionSync.TallyStep | notion_sync_calendar.py:315-342 | one more decision either ends the run with its error or extends the tally |
| NotionSync.TallyFailureStays | notion_sync_calendar.py:315-342 | once a decision raises, the run ends with that error |
| NotionSync.TallyFailureFrom | notion_sync_calendar.py:315-342 | a run fails only with an error one of its decisions raised |
| NotionSync.SyncFailureIsValueError | notion_sync_calendar.py:321 | the only error of the event loop is `ValueError` from an impossible date |
| NotionSync.SecondRunRequestsNothing | notion_sync_calendar.py:306-342 | a second run over unchanged events, with the pages the first run wrote, makes no request |
| NotionSync.TallyAsksNothing | notion_sync_calendar.py:315-342 | decisions asking nothing make no request |
| NotionSync.NoActionWhenCurrent | notion_sync_calendar.py:325-333 | an event whose page is current causes no request |
| Validate.MonthStart | validate_calendar_data.py:12-13 | the first day of a date's month, not after it |
| Validate.AddDays | validate_calendar_data.py:21-22 | adding days to a calendar date gives a calendar date |
| Validate.MonthEnd | validate_calendar_data.py:16-18 | the last day of a date's month |
| Validate.FirstOfMonth | validate_calendar_data.py:33-35 | the month with a given running number starts on a calendar date |
| Validate.Months | validate_calendar_data.py:29-35 | every month listed is a first of month |
| Validate.FirstDayOrder | validate_calendar_data.py:31 | a first of month is on or before a date exactly when its month is not later |
| Validate.NextMonthIndex | validate_calendar_data.py:33-35 | the cursor step moves to the next month, December to January of the next year |
| Validate.FirstOfMonthOfIndex | validate_calendar_data.py:30-35 | a first of month is recovered from its running number |
| Validate.IterMonths | validate_calendar_data.py:29-35 | the months from the start's month to the end's, consecutive, each first day on or before the end |
| Validate.HalvesAreDistinct | validate_calendar_data.py:25-26 | two halves of one month coincide exactly when day and half do |
| Validate.ComputeSpan | validate_calendar_data.py:38-59 | no span exactly when the event ends by the month's first day or starts after its last; the span starts on the day the event enters the month, on the afternoon exactly for a closed period starting on a checkout day or a stay starting inside the month; it runs to one past the last half exactly when the event outlasts the month, and otherwise ends on the end day's morning half, up to it for a closed period and through it for a stay |
| Validate.Checkouts | validate_calendar_data.py:77 | every reservation's end is a check-out day |
| Validate.OrderedEventsDoNotClash | validate_calendar_data.py:51-58 | an event that starts when an earlier one ends takes only halves after the earlier one's |
| Validate.SpanIsValid | validate_calendar_data.py:51-58 | an event of at least one night never gets an invalid span |
| Validate.Fill | validate_calendar_data.py:94-102 | the half loop breaks exactly on a half already taken, and that half is the first taken one of the span within the month; otherwise it takes every half of the span within the month |
| Validate.SpansOf | validate_calendar_data.py:85-86 | the span of each event, in order |
| Validate.ClaimedBy | validate_calendar_data.py:94-102 | the halves claimed by the spans, and no others |
| Validate.StepReports | validate_calendar_data.py:85-102 | one event adds no issue exactly when its span is valid and its halves are free |
| Validate.CleanSnoc | validate_calendar_data.py:85-102 | spans stay clean with one more exactly when it is valid and disjoint from the earlier ones |
| Validate.ScanMonthReportsExactly | validate_calendar_data.py:79-102 | a month reports nothing exactly when every span is valid and no two share a half |
| Validate.TakeHalves | validate_calendar_data.py:94-102 | the half loop of one event computes the occupancy and first clash the model defines |
| Validate.CheckMonth | validate_calendar_data.py:80-102 | the loop over one month reports the issues the model defines |
| Validate.Earliest | validate_calendar_data.py:74 | the earliest date, one of those given |
| Validate.Latest | validate_calendar_data.py:75 | the latest date, one of those given |
| Validate.AllDates | validate_calendar_data.py:73 | the starts then the ends of the events |
| Validate.AllDatesAreCalendarDates | validate_calendar_data.py:73 | every listed date is a calendar date |
| Validate.PropertyMonths | validate_calendar_data.py:73-79 | the months checked are firsts of month |
| Validate.MonthsIssuesEmpty | validate_calendar_data.py:79-102 | a property reports nothing exactly when every month is clean |
| Validate.CheckProperty | validate_calendar_data.py:69-102 | the property loop reports the issues the model defines, nothing for a property without events |
| Validate.CheckMonths | validate_calendar_data.py:79-102 | the month loop reports the issues the model defines |
| Validate.ValidateCalendar | validate_calendar_data.py:62-111 | the issues of every property, in order; status 0 exactly when there are none, 1 otherwise |
| Validate.OrderedClaimsDisjoint | validate_calendar_data.py:38-59 | events in sequence claim disjoint halves |
| Validate.DisjointStaysAreClean | validate_calendar_data.py:79-102 | events of at least one night that share no night leave every month clean |
| Validate.DisjointPropertyPasses | validate_calendar_data.py:68-102 | such a property reports nothing |
| Validate.DisjointCalendarPasses | validate_calendar_data.py:62-111 | a calendar of such properties reports nothing |

## Left out

- HTTP transport to the lock service (`_seam_post`, `_seam_get`) is not modelled. `Gateway.Remote` answers every request from answers fixed in advance. A listing session holds finitely many pages, so a service that returns a next cursor forever is not modelled.
- The e-mail channel (`send_confirmation_email`, SES) becomes `Provisioning.Notifier`. It records which notices were sent and nothing about delivery.
- DynamoDB access becomes `Store.IdempotencyStore` over a map. A `ClientError` on read is not modelled separately: it reads as a missing record, as the source's handler makes it.
- The record's `updated_at` timestamp and its `ttl` (lambda_function.py:490-495) are not part of `Record`: they come from the clock, and nothing the lambdas decide reads them.
- Webhook envelope decoding (`_parse_event`, base64 and JSON) and environment parsing (`_load_json_env` and the other settings) are not modelled. Configuration is the immutable records `ProvisionConfig` and `CleanupConfig`.
- The alias probing of `_resolve_property_id`, `_resolve_guest_name`, `_resolve_booking_id` and their kin over untyped payloads is not modelled. The model starts from the resolved `AccessCodes.Booking` record.
- Timestamp parsing and time zones (`datetime.fromisoformat`, `ZoneInfo`, daylight saving) are abstracted. `isoDay(text, zone)` gives the local day number, and instants are whole minutes. An unknown zone name is modelled as the `ZoneInfoNotFoundError` it raises. For a booking's dates this happens as soon as either date parses. For the sweep it happens before anything is listed.
- Cancellation.SweepTargets: `CLEANUP_GRACE_DAYS` is a float of days. The model takes the grace period as a whole number of minutes (`graceMinutes`), so fractional minutes are not modelled.
- Dates.ParseIsoDate: only the `YYYY-MM-DD` form of `datetime.fromisoformat` is modelled. Date-time texts and the other ISO forms it accepts read as unparsable here.
- The `OverflowError` of date arithmetic past year 9999 is not modelled. Dates are unbounded.
- Feed fetching (`_fetch_ics`), source and block loading (`_load_dotenv`, `_load_sources`, `_load_blocks`), the JSON and JS output of `main`, and the alert path (`_filter_alerts`, `_send_alert_email`) in build_calendar_data.py are not modelled. A source's text arrives as `CalendarBuild.Fetch`, and the blocks as a sequence.
- The day of the build (`date.today()`) is a parameter.
- In the calendar builder's block loop, a retained event whose dates do not parse is dropped (build_calendar_data.py:396-397). The model's events always carry dates, because normalisation writes them in ISO form, so that branch never fires.
- CalendarBuild.SortProperties: Python's `sorted` is stable. The model proves that the result is a permutation ordered by the key, but does not prove that equal keys keep their input order. An order setting that is not a JSON list is modelled as no order.
- Notion transport (`_notion_request` with its retries and sleeps), `_create_database`, the paginated `_query_database` and `_load_env_file` are not modelled. The existing pages are a sequence, and the sync time is a parameter.
- NotionSync.UpsertPages: the pages to archive are given as a set. The order in which Python's dictionary yields them is not modelled. A failing Notion request, which ends the run in the source, is not modelled either.
- The discovery of exported files by globbing in notion_sync_calendar.py is not modelled. Events arrive tagged with their property.
- NotionSync.PropSelect: a `select` value that is present but not a dictionary is not modelled. Pages are typed records, so only a present or missing selection exists.
- The validator's JSON file read and `make_date` on malformed strings are not modelled. `Validate.ValidateCalendar` takes events whose dates are calendar dates (`CalendarDates`).
- Checkout days are compared as dates, not as the ISO strings the validator compares (validate_calendar_data.py:52). The two agree for the zero-padded dates the builder writes.
- AccessCodes.ParseHHMM: Python's `int()` also accepts a leading sign, underscores between digits and non-ASCII digits, so the source reads "+16:00", "1_6:00" or "-0:30" as clock times. The model reads only ASCII digits, with surrounding whitespace, in each part, and such values give the fallback.
- Strings.Digits: only ASCII digits count. Python's `\D` is Unicode-aware, so a phone written in full-width or other non-ASCII digits yields a phone code in the source and none in the model.
- Strings.Trim: only ASCII whitespace is stripped, where Python's `str.strip` also strips non-ASCII whitespace.
- Strings.Lower: only ASCII capitals are lower-cased, where Python's `str.lower` also lower-cases non-ASCII capitals.
- Provisioning.ProcessBatch: each item's answer is tied to its own creation outcome (`PayloadAnswer`), but not to the service and table state the earlier items left behind.
- Provisioning.HandleEvent: a list is stated as `Provisioning.ProcessBatch` states it, with the same gap.
- Cancellation.ProcessBatch: each step records the listing its lock would yield (`codes`), but that listing is not tied to the listing session the step actually uses.
- Cancellation.HandleEvent: a list is stated as `Cancellation.ProcessBatch` states it, with the same gap.
- Issues are `Validate.Issue` values rather than printed lines. Logging and `print` are not modelled anywhere.
- `test_alert.py` drives the builder in a subprocess with a broken feed. It is not part of the model.

## Findings

| source | as written | input that shows it | evidently intended | confidence | as-written member | corrected member |
|---|---|---|---|---|---|---|
| notion_sync_calendar.py:277-286 | `_page_needs_update` reads the desired payload's texts with `_prop_text`, i.e. from `plain_text`. The payload built at 235-247 carries only `text.content`, so its UID, Name and Source read as "". | an existing page that holds exactly the payload the sync builds for its event, UID `abc123`: the stored UID reads `abc123`, the desired one "" | a page already holding the desired values is left alone. Only pages that differ in something other than the sync time are rewritten and counted as updated. | high, not executed | NotionSync.StoredPageAlwaysNeedsUpdate | NotionSync.StoredPageIsCurrent |

As written, every existing page is patched and counted in `updated` on every run. The model's sync (`NotionSync.UpsertPages`) uses the corrected comparison, `NotionSync.PageNeedsUpdate`, which reads a text from `plain_text` when it has one and from `text.content` otherwise. `NotionSync.SecondRunRequestsNothing` proves that a second run over unchanged events then makes no request.

=== FILE: access_codes.dfy ===
/**
 * The pure decisions of the access-code lambdas (lambda_function.py; the cancel
 * lambda lambda_delete_codes.py carries the same helpers): deriving the 4-digit
 * code, masking the phone, reading a clock time, placing a stay on the timeline,
 * the record-vs-desired comparison and the classification of the lock service's
 * create and delete answers.
 */
module AccessCodes {
  import opened Common
  import opened Strings
  import Dates

  /** An instant on the timeline, in whole minutes. */
  type Instant = int

  /** A booking event after the payload aliases have been resolved: the fixed-shape
      record both lambdas read their fields from. Empty strings and `None` stand for
      the values Python treats as missing. */
  datatype Booking = Booking(
    bookingId: Option<string>,
    propertyId: string,
    propertyName: string,
    guestName: string,
    guestPhone: string,
    arrival: Option<string>,
    departure: Option<string>,
    status: string,
    action: string)

  /** What a lambda invocation reports: a status code and a message, the status and
      per-item results of a batch, or the uncaught exception that ends the invocation. */
  datatype Response =
    | Response(statusCode: int, body: string)
    | BatchResponse(statusCode: int, items: seq<Response>)
    | Raised(error: string)

  /** `_resolve_guest_phone` and its siblings: the first candidate that is present and
      non-empty, in precedence order, else the empty string. */
  function FirstNonEmpty(candidates: seq<Option<string>>): (r: string)
    ensures r != [] ==> exists i :: 0 <= i < |candidates| && candidates[i] == Some(r)
                                    && forall j :: 0 <= j < i ==> candidates[j] in {None, Some("")}
    ensures r == [] ==> forall j :: 0 <= j < |candidates| ==> candidates[j] in {None, Some("")}
  {
    if candidates == [] then ""
    else if candidates[0].Some? && candidates[0].value != "" then candidates[0].value
    else FirstNonEmpty(candidates[1..])
  }

  /** `extract_last_four`: the last four digits of the phone, if it has four. */
  function ExtractLastFour(phone: string): (r: Option<string>)
    ensures r.None? <==> |Digits(phone)| < 4
    ensures r.Some? ==> |r.value| == 4 && AllDigits(r.value)
    ensures r.Some? ==> Digits(phone) == Digits(phone)[..|Digits(phone)| - 4] + r.value
  {
    var d := Digits(phone);
    if |d| < 4 then None else Some(d[|d| - 4..])
  }

  function Stars(n: nat): (r: string)
    ensures |r| == n && forall i :: 0 <= i < n ==> r[i] == '*'
  {
    if n == 0 then "" else Stars(n - 1) + "*"
  }

  /** `_mask_phone`: every digit but the last four replaced by `*`. */
  function MaskPhone(phone: string): (r: string)
    ensures |r| == |Digits(phone)|
    ensures forall i :: 0 <= i < |r| ==> (r[i] == '*' <==> i < |r| - 4)
    ensures forall i :: 0 <= i < |r| && i >= |r| - 4 ==> r[i] == Digits(phone)[i]
  {
    var d := Digits(phone);
    if d == [] then ""
    else if |d| <= 4 then d
    else Stars(|d| - 4) + d[|d| - 4..]
  }

  /** A code and the tag `_resolve_access_code` gives it: "phone" or "booking_id". */
  datatype DerivedCode = DerivedCode(code: string, source: string)

  function Zeros(n: nat): (r: string)
    ensures |r| == n && forall i :: 0 <= i < n ==> r[i] == '0'
  {
    if n == 0 then "" else Zeros(n - 1) + "0"
  }

  /** `s[-4:].zfill(4)` for a string of digits. */
  function LastFourPadded(s: string): (r: string)
    requires AllDigits(s)
    ensures |r| == 4 && AllDigits(r)
  {
    if |s| >= 4 then s[|s| - 4..] else Zeros(4 - |s|) + s
  }

  /** `_resolve_access_code(guest_phone, booking_id)`. */
  function ResolveAccessCode(phone: string, bookingId: Option<string>): (r: Option<DerivedCode>)
    ensures r.Some? ==> |r.value.code| == 4 && AllDigits(r.value.code)
    ensures |Digits(phone)| >= 4 ==> r == Some(DerivedCode(ExtractLastFour(phone).value, "phone"))
    ensures |Digits(phone)| < 4 && bookingId.Some? && Digits(bookingId.value) != [] ==>
              r.Some? && r.value.source == "booking_id"
    ensures r.None? <==> |Digits(phone)| < 4 && (bookingId.None? || Digits(bookingId.value) == [])
  {
    match ExtractLastFour(phone)
    case Some(code) => Some(DerivedCode(code, "phone"))
    case None =>
      var digits := Digits(if bookingId.Some? then bookingId.value else "");
      if digits != [] then Some(DerivedCode(LastFourPadded(digits), "booking_id")) else None
  }

  /** The booking-id code keeps the id's last digits and pads on the left with zeros:
      it ends with the id's last `min(4, n)` digits and every other position is `0`. */
  lemma BookingIdCodeShape(phone: string, bookingId: string)
    requires |Digits(phone)| < 4 && Digits(bookingId) != []
    ensures var d := Digits(bookingId);
            var k := if |d| < 4 then |d| else 4;
            var code := ResolveAccessCode(phone, Some(bookingId)).value.code;
            code[4 - k..] == d[|d| - k..] && forall i :: 0 <= i < 4 - k ==> code[i] == '0'
  {
  }

  /** The phone's code, when there is one, does not depend on the booking id. */
  lemma PhoneCodeIgnoresBookingId(phone: string, a: Option<string>, b: Option<string>)
    requires |Digits(phone)| >= 4
    ensures ResolveAccessCode(phone, a) == ResolveAccessCode(phone, b)
  {
  }

  /** A local clock time; `_parse_hhmm` only produces hours 0-23 and minutes 0-59. */
  datatype TimeOfDay = TimeOfDay(hour: int, minute: int)

  predicate ValidTime(t: TimeOfDay) { 0 <= t.hour <= 23 && 0 <= t.minute <= 59 }

  /** `int(p)` for a part made of ASCII digits, with surrounding whitespace allowed. */
  function IntOf(p: string): Option<int> {
    var t := Trim(p);
    if t != [] && AllDigits(t) then Some(DecimalValue(t)) else None
  }

  /** `_parse_hhmm(value, fallback)`: `HH:MM` with exactly one colon and both fields in
      range, else the fallback. */
  function ParseHHMM(value: string, fallback: TimeOfDay): (r: TimeOfDay)
    ensures ValidTime(fallback) ==> ValidTime(r)
    ensures ':' !in value ==> r == fallback
  {
    var v := Trim(value);
    match IndexOf(v, ':')
    case None => fallback
    case Some(k) =>
      var rest := v[k + 1..];
      if ':' in rest then fallback
      else TimeFromFields(IntOf(v[..k]), IntOf(rest), fallback)
  }

  /** The clock time two parsed fields name, or the fallback when either is missing
      or out of range. */
  function TimeFromFields(hour: Option<int>, minute: Option<int>, fallback: TimeOfDay): (r: TimeOfDay)
    ensures ValidTime(fallback) ==> ValidTime(r)
  {
    match (hour, minute)
    case (Some(h), Some(m)) =>
      if 0 <= h <= 23 && 0 <= m <= 59 then TimeOfDay(h, m) else fallback
    case _ => fallback
  }

  /** The `HH:MM` spelling of a clock time, as the configuration holds it. */
  function FormatHHMM(t: TimeOfDay): string
    requires ValidTime(t)
  {
    Dates.Pad2(t.hour) + ":" + Dates.Pad2(t.minute)
  }

  /** Two fields of two characters around one colon, neither holding a colon nor
      starting or ending the text with a space, are parsed field by field. */
  lemma ParseTwoFields(h: string, m: string, fallback: TimeOfDay)
    requires |h| == 2 && |m| == 2 && ':' !in h && ':' !in m
    requires !IsSpace(h[0]) && !IsSpace(m[1])
    ensures ParseHHMM(h + ":" + m, fallback) == TimeFromFields(IntOf(h), IntOf(m), fallback)
  {
    var s := h + ":" + m;
    SplitTwoFields(h, m);
    assert s[..2] == h && s[3..] == m;
  }

  /** The text of two such fields is already trimmed and its only colon is the third
      character. */
  lemma SplitTwoFields(h: string, m: string)
    requires |h| == 2 && |m| == 2 && ':' !in h && ':' !in m
    requires !IsSpace(h[0]) && !IsSpace(m[1])
    ensures Trim(h + ":" + m) == h + ":" + m && IndexOf(h + ":" + m, ':') == Some(2)
  {
    var s := h + ":" + m;
    assert s[0] == h[0] && s[|s| - 1] == m[1];
    TrimOfTrimmed(s);
    assert s[2] == ':' && s[0] == h[0] && s[1] == h[1];
  }

  /** A two-digit field reads back as its value. */
  lemma IntOfPad2(n: nat)
    requires n < 100
    ensures IntOf(Dates.Pad2(n)) == Some(n)
  {
    Dates.NoSpaceInDigits(Dates.Pad2(n));
    Dates.Pad2Value(n);
  }

  /** Every clock time written as `HH:MM` is read back unchanged, whatever the fallback. */
  lemma ParseHHMMRoundTrip(t: TimeOfDay, fallback: TimeOfDay)
    requires ValidTime(t)
    ensures ParseHHMM(FormatHHMM(t), fallback) == t
  {
    var h, m := Dates.Pad2(t.hour), Dates.Pad2(t.minute);
    assert IsDigit(h[0]) && IsDigit(h[1]) && IsDigit(m[0]) && IsDigit(m[1]);
    ParseTwoFields(h, m, fallback);
    IntOfPad2(t.hour);
    IntOfPad2(t.minute);
  }

  /** `_apply_time`: the instant of the given clock time on a local day. */
  function ApplyTime(day: int, t: TimeOfDay): (r: Instant)
    requires ValidTime(t)
    ensures r / 1440 == day && r % 1440 == t.hour * 60 + t.minute
  {
    day * 1440 + t.hour * 60 + t.minute
  }

  /** A stay window is positive exactly when the departure day is later, or the days
      are equal and the check-out clock time is later than the check-in one. */
  lemma WindowPositive(arrivalDay: int, departureDay: int, checkin: TimeOfDay, checkout: TimeOfDay)
    requires ValidTime(checkin) && ValidTime(checkout)
    ensures ApplyTime(departureDay, checkout) > ApplyTime(arrivalDay, checkin) <==>
            departureDay > arrivalDay
            || (departureDay == arrivalDay && checkout.hour * 60 + checkout.minute > checkin.hour * 60 + checkin.minute)
  {
  }

  function Abs(x: int): nat { if x < 0 then -x else x }

  /** `_times_match`: both values parse and lie within the tolerance of each other. */
  predicate TimesMatch(a: Option<Instant>, b: Option<Instant>, tolerance: int) {
    a.Some? && b.Some? && Abs(a.value - b.value) <= tolerance
  }

  lemma TimesMatchSymmetric(a: Option<Instant>, b: Option<Instant>, tolerance: int)
    ensures TimesMatch(a, b, tolerance) == TimesMatch(b, a, tolerance)
  {
  }

  /** The idempotency record of a booking, as written by `_build_record`; instants that
      do not parse read as `None`. */
  datatype Record = Record(
    bookingId: string,
    propertyId: string,
    deviceId: string,
    accessCodeId: string,
    code: string,
    startsAt: Option<Instant>,
    endsAt: Option<Instant>,
    guestName: string,
    codeSource: string)

  /** The code a booking should have: device, value and window. */
  datatype Desired = Desired(deviceId: string, code: string, startsAt: Instant, endsAt: Instant)

  /** `_record_matches(record, desired)`. */
  predicate RecordMatches(rec: Option<Record>, desired: Desired, tolerance: int) {
    && rec.Some?
    && rec.value.deviceId == desired.deviceId
    && rec.value.code == desired.code
    && TimesMatch(rec.value.startsAt, Some(desired.startsAt), tolerance)
    && TimesMatch(rec.value.endsAt, Some(desired.endsAt), tolerance)
  }

  /** A record written for the desired code and window matches it again under any
      non-negative tolerance, and moving either edge by more than the tolerance
      breaks the match. */
  lemma RecordMatchesOwnWindow(rec: Record, desired: Desired, tolerance: int, shift: int)
    requires tolerance >= 0
    requires rec.deviceId == desired.deviceId && rec.code == desired.code
    requires rec.startsAt == Some(desired.startsAt) && rec.endsAt == Some(desired.endsAt)
    ensures RecordMatches(Some(rec), desired, tolerance)
    ensures Abs(shift) > tolerance ==>
              !RecordMatches(Some(rec), desired.(startsAt := desired.startsAt + shift), tolerance)
              && !RecordMatches(Some(rec), desired.(endsAt := desired.endsAt + shift), tolerance)
  {
  }

  /** The `access_code_id`/`id` pair of one JSON object, each present only as a string. */
  datatype IdFields = IdFields(accessCodeId: Option<string>, id: Option<string>)

  /** The parts of a create answer's JSON the lambda reads. */
  datatype CreateBody = CreateBody(
    top: IdFields,
    accessCode: Option<IdFields>,
    data: Option<IdFields>,
    errorType: string)

  /** The lock service's answer to a create request, or the transport failure. */
  datatype CreateReply =
    | CreateResponse(status: int, text: string, body: Option<CreateBody>)
    | CreateRequestFailed(reason: string)

  function FirstPresent(xs: seq<Option<string>>): (r: Option<string>)
    ensures r.Some? ==> exists i :: 0 <= i < |xs| && xs[i] == r && forall j :: 0 <= j < i ==> xs[j].None?
    ensures r.None? ==> forall j :: 0 <= j < |xs| ==> xs[j].None?
  {
    if xs == [] then None else if xs[0].Some? then xs[0] else FirstPresent(xs[1..])
  }

  function IdCandidates(body: CreateBody): seq<Option<string>> {
    [body.top.accessCodeId, body.top.id]
    + (if body.accessCode.Some? then [body.accessCode.value.accessCodeId, body.accessCode.value.id] else [])
    + (if body.data.Some? then [body.data.value.accessCodeId, body.data.value.id] else [])
  }

  /** `_extract_access_code_id`: the first string among `access_code_id`, `id`, then the
      same keys of the nested `access_code` object, then of `data`. */
  function ExtractAccessCodeId(body: Option<CreateBody>): (r: Option<string>)
    ensures body.None? ==> r.None?
    ensures body.Some? && body.value.top.accessCodeId.Some? ==> r == body.value.top.accessCodeId
    ensures body.Some? && body.value.top.accessCodeId.None? && body.value.top.id.Some? ==> r == body.value.top.id
    ensures body.Some? && r.Some? ==>
              exists i :: 0 <= i < |IdCandidates(body.value)| && IdCandidates(body.value)[i] == r
                          && forall j :: 0 <= j < i ==> IdCandidates(body.value)[j].None?
    ensures body.Some? && r.None? ==> forall c :: c in IdCandidates(body.value) ==> c.None?
  {
    if body.None? then None
    else
      var c := IdCandidates(body.value);
      assert c[1..][0] == body.value.top.id;
      FirstPresent(c)
  }

  /** `_extract_error_type`: `error.type` of the JSON body, or "". */
  function ExtractErrorType(body: Option<CreateBody>): string {
    if body.None? then "" else body.value.errorType
  }

  /** The three outcomes `_call_seam_create` distinguishes. */
  datatype CreateOutcome =
    | CreatedCode(accessCodeId: string)
    | DuplicateCode(text: string)
    | CreateFailed(text: string)

  predicate Is2xx(status: int) { 200 <= status < 300 }

  /** The classification in `_call_seam_create` of an answer to a sent request. */
  function ClassifyCreate(duplicateIsSuccess: bool, reply: CreateReply): (r: CreateOutcome)
    ensures reply.CreateRequestFailed? ==> r.CreateFailed?
    ensures reply.CreateResponse? && Is2xx(reply.status) ==>
              r == CreatedCode(ExtractAccessCodeId(reply.body).GetOr(""))
    ensures reply.CreateResponse? && !Is2xx(reply.status) ==>
              (r.DuplicateCode? <==>
                 ExtractErrorType(reply.body) == "duplicate_access_code"
                 || (duplicateIsSuccess && reply.status in {409, 422}
                     && Contains(Lower(reply.text), "duplicate access code")))
    ensures r.DuplicateCode? || r.CreateFailed? ==> reply.CreateResponse? ==> r.text == reply.text
  {
    match reply
    case CreateRequestFailed(reason) => CreateFailed("Seam request failed: " + reason)
    case CreateResponse(status, text, body) =>
      if Is2xx(status) then CreatedCode(ExtractAccessCodeId(body).GetOr(""))
      else if ExtractErrorType(body) == "duplicate_access_code" then DuplicateCode(text)
      else if duplicateIsSuccess && status in {409, 422} && Contains(Lower(text), "duplicate access code")
      then DuplicateCode(text)
      else CreateFailed(text)
  }

  /** The textual fallback is case-insensitive: a 409 or 422 answer whose text says
      "duplicate access code" in any mix of cases is a duplicate when the flag is on. */
  lemma DuplicateTextInAnyCase(status: int, text: string, said: string, body: Option<CreateBody>)
    requires status in {409, 422} && Contains(text, said) && Lower(said) == "duplicate access code"
    ensures ClassifyCreate(true, CreateResponse(status, text, body)).DuplicateCode?
  {
    ContainsLower(text, said);
  }

  /** The lock service's answer to a delete request. */
  datatype DeleteReply = DeleteResponse(status: int, text: string)

  /** The success rule of `_delete_access_code_by_id`: a 2xx answer, or a 404, 410 or
      422 answer whose lower-cased text contains "not". */
  predicate DeleteSucceeded(reply: DeleteReply) {
    Is2xx(reply.status) || (reply.status in {404, 410, 422} && Contains(Lower(reply.text), "not"))
  }

  /** Delete is idempotent: the service's "not found" answer for an already deleted
      code, in any mix of cases, counts as success, so deleting twice never fails. */
  lemma {:induction false} AlreadyDeletedIsSuccess(status: int, text: string, said: string)
    requires status in {404, 410, 422} && Contains(text, said) && Lower(said) == "not"
    ensures DeleteSucceeded(DeleteResponse(status, text))
    ensures !DeleteSucceeded(DeleteResponse(500, text))
  {
    ContainsLower(text, said);
  }

  /** `_should_process`: only booked and confirmed bookings get a code. */
  predicate ShouldProcess(status: string) { status in {"booked", "confirmed"} }

  predicate AllAccepted(results: seq<Response>)
    requires forall i :: 0 <= i < |results| ==> !results[i].Raised?
  {
    forall i :: 0 <= i < |results| ==> results[i].statusCode < 300
  }

  /** The batch status of `lambda_handler`: 200 when every item was accepted, else 207. */
  function AggregateStatus(results: seq<Response>): (s: int)
    requires forall i :: 0 <= i < |results| ==> !results[i].Raised?
    ensures s == 200 <==> AllAccepted(results)
    ensures s == 207 <==> !AllAccepted(results)
  {
    if AllAccepted(results) then 200 else 207
  }

  /** A single rejected item turns the whole batch into 207, wherever it stands. */
  lemma OneFailureMakesMultiStatus(results: seq<Response>, k: nat)
    requires forall i :: 0 <= i < |results| ==> !results[i].Raised?
    requires k < |results| && results[k].statusCode >= 300
    ensures AggregateStatus(results) == 207
  {
  }
}

=== FILE: calendar_build.dfy ===
/**
 * The public availability calendar: what `_collect_events` does with the text of one
 * source (naming the property, clipping and anonymising its events, merging the
 * manual blocks configured for it) and how the properties are ordered
 * (`_property_sort_key`, `_sort_properties`).
 */
module CalendarBuild {
  import opened Common
  import opened Strings
  import opened Dates
  import opened Ics

  // ---------------------------------------------------------------------------
  // Property names

  const AvailabilitySuffix: string := " - availability"

  predicate EndsWith(s: string, suffix: string) {
    |suffix| <= |s| && s[|s| - |suffix|..] == suffix
  }

  /** `s.replace(pattern, "")`: every occurrence found scanning from the left is
      removed. */
  function RemoveAll(s: string, pattern: string): (r: string)
    requires pattern != []
    ensures |r| <= |s|
    decreases |s|
  {
    if |s| < |pattern| then s
    else if s[..|pattern|] == pattern then RemoveAll(s[|pattern|..], pattern)
    else [s[0]] + RemoveAll(s[1..], pattern)
  }

  /** A text that does not contain the pattern is left as it is. */
  lemma {:induction false} RemoveAllAbsent(s: string, pattern: string)
    requires pattern != [] && !Contains(s, pattern)
    ensures RemoveAll(s, pattern) == s
    decreases |s|
  {
    if |s| >= |pattern| {
      assert s[..|pattern|] != pattern by {
        if s[..|pattern|] == pattern {
          assert OccursAt(s, pattern, 0);
        }
      }
      NotContainsTail(s, pattern);
      RemoveAllAbsent(s[1..], pattern);
      assert s == [s[0]] + s[1..];
    }
  }

  /** A text that does not start with the pattern keeps its first character. */
  lemma RemoveAllSkips(s: string, pattern: string)
    requires pattern != [] && |s| >= |pattern| && s[..|pattern|] != pattern
    ensures RemoveAll(s, pattern) == [s[0]] + RemoveAll(s[1..], pattern)
  {
  }

  /** A text that does not contain `t` has no tail that does. */
  lemma NotContainsTail(s: string, t: string)
    requires s != []
    ensures !Contains(s, t) ==> !Contains(s[1..], t)
  {
    if Contains(s[1..], t) {
      var i :| 0 <= i <= |s[1..]| - |t| && OccursAt(s[1..], t, i);
      assert s[i + 1..i + 1 + |t|] == s[1..][i..i + |t|];
      assert OccursAt(s, t, i + 1);
    }
  }

  /** The name a property is shown under: a trailing `.ics` (in any letter case) is
      dropped, then every `" - availability"`, then surrounding whitespace. */
  function CleanPropertyName(name: string): (r: string)
    ensures r != [] ==> !IsSpace(r[0]) && !IsSpace(r[|r| - 1])
    ensures |r| <= |name|
  {
    var base := if EndsWith(Lower(name), ".ics") then name[..|name| - 4] else name;
    Trim(RemoveAll(base, AvailabilitySuffix))
  }

  /** No proper suffix of `p` is also a prefix of it: an occurrence of `p` cannot
      start inside a text that does not contain it and run into a following `p`. */
  predicate BorderFree(p: string) {
    forall k :: 1 <= k < |p| ==> p[k..] != p[..|p| - k]
  }

  lemma AvailabilitySuffixIsBorderFree()
    ensures BorderFree(AvailabilitySuffix)
  {
    var p := AvailabilitySuffix;
    forall k | 1 <= k < |p|
      ensures p[k..] != p[..|p| - k]
    {
      if k == 2 {
        assert p[k..][1] != p[..|p| - k][1];
      } else {
        assert p[k..][0] != p[..|p| - k][0];
      }
    }
  }

  /** A border-free pattern does not occur at the start of a non-empty text that does
      not contain it, followed by the pattern. */
  lemma NoOccurrenceAtStart(n: string, p: string)
    requires n != [] && p != [] && BorderFree(p) && !Contains(n, p)
    ensures (n + p)[..|p|] != p
  {
    var s := n + p;
    if |n| >= |p| {
      assert n[..|p|] == s[..|p|];
      assert !OccursAt(n, p, 0);
    } else {
      var k := |n|;
      assert s[..|p|][k..] == p[..|p| - k];
      assert p[k..] != p[..|p| - k];
    }
  }

  /** Removing a border-free pattern from a text that does not contain it, followed by
      one copy of the pattern, leaves the text. */
  lemma {:induction false} RemoveAllTrailing(n: string, p: string)
    requires p != [] && BorderFree(p) && !Contains(n, p)
    ensures RemoveAll(n + p, p) == n
    decreases |n|
  {
    var s := n + p;
    if n == [] {
      assert s == p && s[..|p|] == p && s[|p|..] == [];
    } else {
      var t := n[1..];
      NoOccurrenceAtStart(n, p);
      NotContainsTail(n, p);
      RemoveAllTrailing(t, p);
      assert s[1..] == t + p;
      RemoveAllSkips(s, p);
      assert n == [n[0]] + t;
    }
  }

  /** The extension is recognised in any letter case: dropping it is the first step. */
  lemma DropsIcsInAnyCase(n: string, ext: string)
    requires |ext| == 4 && Lower(ext) == ".ics"
    ensures CleanPropertyName(n + ext) == Trim(RemoveAll(n, AvailabilitySuffix))
  {
    var name := n + ext;
    assert name[|name| - 4..] == ext;
    LowerSlice(name, |name| - 4, |name|);
    assert EndsWith(Lower(name), ".ics");
    assert name[..|name| - 4] == n;
  }

  /** A calendar file named after a property the way the booking platform exports it,
      `<property> - availability.ics` with the extension in any letter case, is shown
      under the property's name. */
  lemma CleanExportedFileName(n: string, ext: string)
    requires |ext| == 4 && Lower(ext) == ".ics" && !Contains(n, AvailabilitySuffix)
    ensures CleanPropertyName(n + AvailabilitySuffix + ext) == Trim(n)
  {
    DropsIcsInAnyCase(n + AvailabilitySuffix, ext);
    AvailabilitySuffixIsBorderFree();
    RemoveAllTrailing(n, AvailabilitySuffix);
  }

  /** A file `<property>.ics`, `<property>.ICS` or any other casing of the extension
      is shown under the property's name. */
  lemma CleanIcsFileName(n: string, ext: string)
    requires |ext| == 4 && Lower(ext) == ".ics" && !Contains(n, AvailabilitySuffix)
    ensures CleanPropertyName(n + ext) == Trim(n)
  {
    DropsIcsInAnyCase(n, ext);
    RemoveAllAbsent(n, AvailabilitySuffix);
  }

  /** A name that neither ends in `.ics` nor contains the availability marker is only
      stripped. */
  lemma CleanPlainName(n: string)
    requires !Contains(n, AvailabilitySuffix) && !EndsWith(Lower(n), ".ics")
    ensures CleanPropertyName(n) == Trim(n)
  {
    RemoveAllAbsent(n, AvailabilitySuffix);
  }

  /** `os.path.basename(path)`, and `url.split("/")[-1]`: the text after the last `/`. */
  function LastSegment(s: string): (r: string)
    ensures '/' !in r
    ensures |r| <= |s| && r == s[|s| - |r|..]
    decreases |s|
  {
    if s == [] then []
    else if s[|s| - 1] == '/' then []
    else LastSegment(s[..|s| - 1]) + [s[|s| - 1]]
  }

  // ---------------------------------------------------------------------------
  // Events

  datatype EventType = Closed | Reservation

  /** One entry of a property's public calendar. */
  datatype Event = Event(uid: string, summary: string, kind: EventType, start: Date, end: Date)

  /** `start < end and end > start` of an event against a block, half-open on both. */
  predicate Overlaps(ev: Event, blockStart: Date, blockEnd: Date) {
    Before(ev.start, blockEnd) && Before(blockStart, ev.end)
  }

  /** An event the calendar may publish: real dates, starting no earlier than the
      calendar's first day and ending after it. */
  predicate InWindow(ev: Event, minDate: Date) {
    ValidDate(ev.start) && ValidDate(ev.end) && OnOrBefore(minDate, ev.start) && Before(minDate, ev.end)
  }

  predicate AllInWindow(evs: seq<Event>, minDate: Date) {
    forall i :: 0 <= i < |evs| ==> InWindow(evs[i], minDate)
  }

  /** The summary the feed gives an owner's closed period. */
  predicate IsClosedSummary(summary: Option<string>) {
    Lower(Trim(summary.GetOr(""))) == "closed period"
  }

  const ValueError: string := "ValueError"

  /** `CALENDAR_MIN_DATE` read with `_parse_date`, 2026-01-01 when it does not parse. */
  function MinDate(setting: string): (r: Result<Date>)
    ensures r.Success? ==> ValidDate(r.value)
    ensures r.Failure? <==> ParseDate(Some(setting)).RaisesValueError?
    ensures ParseDate(Some(setting)).Unparsable? ==> r == Success(Date(2026, 1, 1))
  {
    match ParseDate(Some(setting))
    case Parsed(d) => Success(d)
    case Unparsable => Success(Date(2026, 1, 1))
    case RaisesValueError => Failure(ValueError)
  }

  /** One turn of the event loop of `_collect_events`: an event with an unreadable
      date or ending on or before the first day is dropped; a start before the first
      day is moved to it; the guest's summary is replaced by its type. An impossible
      eight-digit date raises. */
  function NormalizeEvent(e: RawEvent, minDate: Date): (r: Result<Option<Event>>)
    requires ValidDate(minDate)
    ensures r.Failure? <==> ParseDate(e.dtstart).RaisesValueError? || ParseDate(e.dtend).RaisesValueError?
    ensures r.Success? && r.value.Some? <==>
              ParseDate(e.dtstart).Parsed? && ParseDate(e.dtend).Parsed? && Before(minDate, ParseDate(e.dtend).date)
    ensures r.Success? && r.value.Some? ==>
              var ev := r.value.value;
              InWindow(ev, minDate)
              && ev.end == ParseDate(e.dtend).date
              && ev.start == (if Before(ParseDate(e.dtstart).date, minDate) then minDate else ParseDate(e.dtstart).date)
              && ev.uid == e.uid.GetOr("")
              && (ev.kind == Closed <==> IsClosedSummary(e.summary))
              && ev.summary == (if ev.kind == Closed then "Owner Block" else "Reservation")
  {
    var dtstart := ParseDate(e.dtstart);
    var dtend := ParseDate(e.dtend);
    if dtstart.RaisesValueError? || dtend.RaisesValueError? then Failure(ValueError)
    else if !dtstart.Parsed? || !dtend.Parsed? then Success(None)
    else if OnOrBefore(dtend.date, minDate) then Success(None)
    else
      var start := if Before(dtstart.date, minDate) then minDate else dtstart.date;
      var kind := if IsClosedSummary(e.summary) then Closed else Reservation;
      Success(Some(Event(e.uid.GetOr(""), if kind == Closed then "Owner Block" else "Reservation", kind, start, dtend.date)))
  }

  /** The event loop over `events`: the kept events in feed order, or the error of the
      first event that raises. */
  function NormalizeAll(events: seq<RawEvent>, minDate: Date): (r: Result<seq<Event>>)
    requires ValidDate(minDate)
    ensures r.Success? ==> AllInWindow(r.value, minDate) && |r.value| <= |events|
    ensures r.Success? ==> forall i :: 0 <= i < |r.value| ==> r.value[i].summary in {"Owner Block", "Reservation"}
  {
    if events == [] then Success([])
    else
      match NormalizeAll(events[..|events| - 1], minDate)
      case Failure(err) => Failure(err)
      case Success(done) =>
        match NormalizeEvent(events[|events| - 1], minDate)
        case Failure(err) => Failure(err)
        case Success(None) => Success(done)
        case Success(Some(ev)) => Success(done + [ev])
  }

  /** Neither date of the event is an impossible eight-digit date. */
  predicate DatesReadable(e: RawEvent) {
    !ParseDate(e.dtstart).RaisesValueError? && !ParseDate(e.dtend).RaisesValueError?
  }

  /** The build stops on a feed exactly when one of its events carries an impossible
      date. */
  lemma {:induction false} NormalizeAllRaises(events: seq<RawEvent>, minDate: Date)
    requires ValidDate(minDate)
    ensures NormalizeAll(events, minDate).Success? <==> forall i :: 0 <= i < |events| ==> DatesReadable(events[i])
  {
    if events != [] {
      var init := events[..|events| - 1];
      NormalizeAllRaises(init, minDate);
      NormalizeAllStep(events, minDate);
      assert forall i :: 0 <= i < |init| ==> init[i] == events[i];
    }
  }

  /** One more event: the loop still succeeds exactly when it did and the event's
      dates are readable. */
  lemma NormalizeAllStep(events: seq<RawEvent>, minDate: Date)
    requires ValidDate(minDate) && events != []
    ensures NormalizeAll(events, minDate).Success? <==>
              NormalizeAll(events[..|events| - 1], minDate).Success? && DatesReadable(events[|events| - 1])
  {
  }

  /** The event loop of `_collect_events` for one source. */
  method NormalizeEvents(events: seq<RawEvent>, minDate: Date) returns (r: Result<seq<Event>>)
    requires ValidDate(minDate)
    ensures r == NormalizeAll(events, minDate)
  {
    var normalized: seq<Event> := [];
    var i := 0;
    while i < |events|
      invariant 0 <= i <= |events|
      invariant NormalizeAll(events[..i], minDate) == Success(normalized)
    {
      assert events[..i + 1][..i] == events[..i];
      var one := NormalizeEvent(events[i], minDate);
      if one.Failure? {
        FailureStays(events, minDate, i + 1);
        return Failure(one.error);
      }
      if one.value.Some? {
        normalized := normalized + [one.value.value];
      }
      i := i + 1;
    }
    assert events[..|events|] == events;
    return Success(normalized);
  }

  /** Once a prefix of the feed raises, the whole feed does. */
  lemma {:induction false} FailureStays(events: seq<RawEvent>, minDate: Date, k: nat)
    requires ValidDate(minDate) && k <= |events|
    requires NormalizeAll(events[..k], minDate).Failure?
    ensures NormalizeAll(events, minDate) == Failure(ValueError)
    decreases |events| - k
  {
    FailureIsValueError(events[..k], minDate);
    if k < |events| {
      assert events[..k + 1][..k] == events[..k];
      FailureStays(events, minDate, k + 1);
    } else {
      assert events[..k] == events;
    }
  }

  /** The only error the event loop reports is `ValueError`. */
  lemma {:induction false} FailureIsValueError(events: seq<RawEvent>, minDate: Date)
    requires ValidDate(minDate)
    ensures NormalizeAll(events, minDate).Failure? ==> NormalizeAll(events, minDate).error == ValueError
  {
    if events != [] {
      FailureIsValueError(events[..|events| - 1], minDate);
    }
  }

  // ---------------------------------------------------------------------------
  // Manual blocks

  /** One configured block: the property it closes, its first day (or "today"), the
      day it ends and an optional summary. */
  datatype Block = Block(property: string, start: Option<string>, end: Option<string>, summary: Option<string>)

  /** What a block does to one property. */
  datatype Resolution = Skip | Apply(start: Date, end: Date, summary: string) | BlockRaised

  /** The first day a block names: its start, or the day of the build when it has none
      or its start is "today". */
  function StartText(b: Block, today: Date): (r: string)
    requires ValidDate(today)
    ensures !Filled(b.start) || Lower(b.start.value) == "today" ==> r == IsoFormat(today)
    ensures Filled(b.start) && Lower(b.start.value) != "today" ==> r == b.start.value
  {
    var todayText := IsoFormat(today);
    var given := if Filled(b.start) then b.start.value else todayText;
    assert |Lower(todayText)| == 10;
    if Lower(given) == "today" then todayText else given
  }

  /** The date checks of the block loop, given what reading the two dates gave: an
      impossible eight-digit date raises; an unreadable date, or an end on or before
      the first day, skips the block; a start before the first day is moved to it. */
  function ResolveDates(blockStart: DateParse, blockEnd: DateParse, summary: string, minDate: Date): (r: Resolution)
    requires ValidDate(minDate)
    requires blockStart.Parsed? ==> ValidDate(blockStart.date)
    requires blockEnd.Parsed? ==> ValidDate(blockEnd.date)
    ensures r.BlockRaised? <==> blockStart.RaisesValueError? || blockEnd.RaisesValueError?
    ensures r.Apply? <==> blockStart.Parsed? && blockEnd.Parsed? && Before(minDate, blockEnd.date)
    ensures r.Apply? ==> ValidDate(r.start) && ValidDate(r.end) && r.summary == summary
                         && r.start == (if Before(blockStart.date, minDate) then minDate else blockStart.date)
                         && r.end == blockEnd.date
    ensures r.Apply? ==> OnOrBefore(minDate, r.start) && Before(minDate, r.end)
  {
    if blockStart.RaisesValueError? || blockEnd.RaisesValueError? then BlockRaised
    else if !blockStart.Parsed? || !blockEnd.Parsed? then Skip
    else if OnOrBefore(blockEnd.date, minDate) then Skip
    else Apply(if Before(blockStart.date, minDate) then minDate else blockStart.date, blockEnd.date, summary)
  }

  /** The checks of the block loop: a block for another property or without an end is
      skipped, and its dates are checked as `ResolveDates` says. */
  function ResolveBlock(b: Block, propertyName: string, minDate: Date, today: Date): (r: Resolution)
    requires ValidDate(minDate) && ValidDate(today)
    ensures r.Apply? ==> ValidDate(r.start) && ValidDate(r.end)
                         && OnOrBefore(minDate, r.start) && Before(minDate, r.end)
    ensures Lower(Trim(b.property)) != Lower(Trim(propertyName)) || !Filled(b.end) ==> r == Skip
  {
    if Lower(Trim(b.property)) != Lower(Trim(propertyName)) then Skip
    else if !Filled(b.end) then Skip
    else
      var blockStart := ParseDate(Some(StartText(b, today)));
      var blockEnd := ParseDate(b.end);
      ResolveDates(blockStart, blockEnd, if Filled(b.summary) then b.summary.value else "Closed Period", minDate)
  }

  /** A block without a start, or with the start "today", begins on the day of the
      build (or on the first day of the calendar, when that is later). */
  lemma BlockFromToday(b: Block, propertyName: string, minDate: Date, today: Date, end: Date)
    requires ValidDate(minDate) && ValidDate(today)
    requires Lower(Trim(b.property)) == Lower(Trim(propertyName))
    requires !Filled(b.start) || Lower(b.start.value) == "today"
    requires Filled(b.end) && ParseDate(b.end) == Parsed(end) && Before(minDate, end)
    ensures ResolveBlock(b, propertyName, minDate, today).Apply?
    ensures ResolveBlock(b, propertyName, minDate, today).start == (if Before(today, minDate) then minDate else today)
  {
    IsoFormatRoundTrip(today);
    var startText := StartText(b, today);
    assert ParseDate(Some(startText)) == Parsed(today);
  }

  /** The entry a block adds to the calendar. */
  function BlockEvent(propertyName: string, start: Date, end: Date, summary: string): Event
    requires ValidDate(start) && ValidDate(end)
  {
    Event("manual-block-" + propertyName + "-" + IsoFormat(start) + "-" + IsoFormat(end), summary, Closed, start, end)
  }

  /** The events that stay when a block covers `[blockStart, blockEnd)`, in order. */
  function KeepClear(events: seq<Event>, blockStart: Date, blockEnd: Date): (r: seq<Event>)
    ensures forall ev :: ev in r <==> ev in events && !Overlaps(ev, blockStart, blockEnd)
    ensures |r| <= |events|
  {
    if events == [] then []
    else
      var last := events[|events| - 1];
      var init := KeepClear(events[..|events| - 1], blockStart, blockEnd);
      assert events == events[..|events| - 1] + [last];
      if Overlaps(last, blockStart, blockEnd) then init else init + [last]
  }

  /** The filtering loop of a block: the events that do not overlap it, in order. */
  method FilterClear(events: seq<Event>, blockStart: Date, blockEnd: Date) returns (filtered: seq<Event>)
    ensures filtered == KeepClear(events, blockStart, blockEnd)
  {
    filtered := [];
    var i := 0;
    while i < |events|
      invariant 0 <= i <= |events|
      invariant filtered == KeepClear(events[..i], blockStart, blockEnd)
    {
      assert events[..i + 1][..i] == events[..i];
      var ev := events[i];
      var overlaps := Before(ev.start, blockEnd) && Before(blockStart, ev.end);
      if !overlaps {
        filtered := filtered + [ev];
      }
      i := i + 1;
    }
    assert events[..|events|] == events;
  }

  /** One turn of the block loop: a block that applies removes the events it overlaps
      and is appended as a closed period; a skipped block changes nothing. */
  function ApplyResolution(events: seq<Event>, res: Resolution, propertyName: string, minDate: Date): (r: Result<seq<Event>>)
    requires res.Apply? ==> ValidDate(res.start) && ValidDate(res.end) && OnOrBefore(minDate, res.start) && Before(minDate, res.end)
    ensures r.Failure? <==> res.BlockRaised?
    ensures res.Skip? ==> r == Success(events)
    ensures r.Success? && AllInWindow(events, minDate) ==> AllInWindow(r.value, minDate)
    ensures r.Success? && res.Apply? ==>
              |r.value| >= 1
              && r.value[|r.value| - 1] == BlockEvent(propertyName, res.start, res.end, res.summary)
              && (forall i :: 0 <= i < |r.value| - 1 ==> !Overlaps(r.value[i], res.start, res.end))
              && (forall ev :: ev in events && !Overlaps(ev, res.start, res.end) ==> ev in r.value)
  {
    match res
    case Skip => Success(events)
    case BlockRaised => Failure(ValueError)
    case Apply(s, e, summary) =>
      var kept := KeepClear(events, s, e);
      assert forall i :: 0 <= i < |kept| ==> kept[i] in kept;
      Success(kept + [BlockEvent(propertyName, s, e, summary)])
  }

  /** The block loop over `blocks`. The calendar stays within its window, and after
      it the last block that applied sits at the end with no event overlapping it. */
  function ApplyBlocks(events: seq<Event>, blocks: seq<Block>, propertyName: string, minDate: Date, today: Date): (r: Result<seq<Event>>)
    requires ValidDate(minDate) && ValidDate(today)
    ensures r.Success? && AllInWindow(events, minDate) ==> AllInWindow(r.value, minDate)
    ensures r.Success? && blocks != [] && ResolveBlock(blocks[|blocks| - 1], propertyName, minDate, today).Apply? ==>
              var a := ResolveBlock(blocks[|blocks| - 1], propertyName, minDate, today);
              |r.value| >= 1
              && r.value[|r.value| - 1] == BlockEvent(propertyName, a.start, a.end, a.summary)
              && forall i :: 0 <= i < |r.value| - 1 ==> !Overlaps(r.value[i], a.start, a.end)
  {
    if blocks == [] then Success(events)
    else
      match ApplyBlocks(events, blocks[..|blocks| - 1], propertyName, minDate, today)
      case Failure(err) => Failure(err)
      case Success(evs) => ApplyResolution(evs, ResolveBlock(blocks[|blocks| - 1], propertyName, minDate, today), propertyName, minDate)
  }

  /** The block loop of `_collect_events` for one property. */
  method MergeBlocks(events: seq<Event>, blocks: seq<Block>, propertyName: string, minDate: Date, today: Date)
    returns (r: Result<seq<Event>>)
    requires ValidDate(minDate) && ValidDate(today)
    ensures r == ApplyBlocks(events, blocks, propertyName, minDate, today)
  {
    var merged := events;
    var i := 0;
    while i < |blocks|
      invariant 0 <= i <= |blocks|
      invariant ApplyBlocks(events, blocks[..i], propertyName, minDate, today) == Success(merged)
    {
      assert blocks[..i + 1][..i] == blocks[..i];
      var res := ResolveBlock(blocks[i], propertyName, minDate, today);
      assert ApplyBlocks(events, blocks[..i + 1], propertyName, minDate, today)
          == ApplyResolution(merged, res, propertyName, minDate);
      if res.BlockRaised? {
        BlockFailureStays(events, blocks, propertyName, minDate, today, i + 1);
        return Failure(ValueError);
      }
      if res.Apply? {
        merged := FilterClear(merged, res.start, res.end);
        merged := merged + [BlockEvent(propertyName, res.start, res.end, res.summary)];
      }
      i := i + 1;
    }
    assert blocks[..|blocks|] == blocks;
    return Success(merged);
  }

  /** Once a block raises, the whole block loop does. */
  lemma {:induction false} BlockFailureStays(events: seq<Event>, blocks: seq<Block>, propertyName: string, minDate: Date, today: Date, k: nat)
    requires ValidDate(minDate) && ValidDate(today) && k <= |blocks|
    requires ApplyBlocks(events, blocks[..k], propertyName, minDate, today).Failure?
    ensures ApplyBlocks(events, blocks, propertyName, minDate, today) == Failure(ValueError)
    decreases |blocks| - k
  {
    BlockFailureIsValueError(events, blocks[..k], propertyName, minDate, today);
    if k < |blocks| {
      assert blocks[..k + 1][..k] == blocks[..k];
      BlockFailureStays(events, blocks, propertyName, minDate, today, k + 1);
    } else {
      assert blocks[..k] == blocks;
    }
  }

  lemma {:induction false} BlockFailureIsValueError(events: seq<Event>, blocks: seq<Block>, propertyName: string, minDate: Date, today: Date)
    requires ValidDate(minDate) && ValidDate(today)
    ensures ApplyBlocks(events, blocks, propertyName, minDate, today).Failure? ==>
              ApplyBlocks(events, blocks, propertyName, minDate, today).error == ValueError
  {
    if blocks != [] {
      BlockFailureIsValueError(events, blocks[..|blocks| - 1], propertyName, minDate, today);
    }
  }

  // ---------------------------------------------------------------------------
  // One source

  /** A configured feed: a display name, a URL or a local file. */
  datatype Source = Source(name: Option<string>, url: Option<string>, path: Option<string>)

  /** What reading the source gave: its text, or the error that reading raised. */
  datatype Fetch = Fetched(text: string) | FetchFailed(error: string)

  datatype Property = Property(name: string, events: seq<Event>)

  /** An entry of the failure report. */
  datatype FailureRecord = FailureRecord(property: string, source: string, error: string)

  datatype SourceOutcome = Built(property: Property) | SourceFailed(failure: FailureRecord)

  /** The property name of a source whose feed was read: the configured name, else
      the feed's calendar name, else the last segment of the file path or URL;
      then cleaned. */
  function PropertyNameOf(source: Source, calendarName: string): (r: string)
    ensures (Filled(source.name) && !Contains(source.name.value, AvailabilitySuffix)
             && !EndsWith(Lower(source.name.value), ".ics")) ==> r == Trim(source.name.value)
  {
    var named := if Filled(source.name) then source.name.value else calendarName;
    var fallback :=
      if named != [] then named
      else if Filled(source.path) then LastSegment(source.path.value)
      else if Filled(source.url) then LastSegment(source.url.value)
      else named;
    var r := CleanPropertyName(fallback);
    assert (Filled(source.name) && !Contains(source.name.value, AvailabilitySuffix)
            && !EndsWith(Lower(source.name.value), ".ics")) ==> r == Trim(source.name.value) by {
      if Filled(source.name) && !Contains(source.name.value, AvailabilitySuffix) && !EndsWith(Lower(source.name.value), ".ics") {
        CleanPlainName(source.name.value);
      }
    }
    r
  }

  /** The body of the source loop of `_collect_events` for one source. A source that
      cannot be read, or reads as empty, is reported and contributes no property;
      an unreadable feed line or an impossible date stops the build. */
  function CollectSource(source: Source, fetched: Fetch, blocks: seq<Block>, minDate: Date, today: Date): (r: Result<SourceOutcome>)
    requires ValidDate(minDate) && ValidDate(today)
    ensures r.Success? && r.value.Built? ==> AllInWindow(r.value.property.events, minDate)
    ensures r.Success? && r.value.SourceFailed? ==>
              r.value.failure.property == (if Filled(source.name) then source.name.value else "unknown")
  {
    var sourceLabel := if Filled(source.url) then source.url.value else if Filled(source.path) then source.path.value else "unknown";
    var reported := if Filled(source.name) then source.name.value else "unknown";
    var rawText := if Filled(source.url) || Filled(source.path) then fetched else Fetched("");
    match rawText
    case FetchFailed(err) => Success(SourceFailed(FailureRecord(reported, sourceLabel, err)))
    case Fetched(text) =>
      if text == [] then Success(SourceFailed(FailureRecord(reported, sourceLabel, "empty response")))
      else
        match ParsedContent(text)
        case Failure(err) => Failure(err)
        case Success((raw, calendarName)) =>
          var name := PropertyNameOf(source, calendarName);
          match NormalizeAll(raw, minDate)
          case Failure(err) => Failure(err)
          case Success(events) =>
            match ApplyBlocks(events, blocks, name, minDate, today)
            case Failure(err) => Failure(err)
            case Success(merged) => Success(Built(Property(name, merged)))
  }

  /** The loop body of `_collect_events` for one source, with its two inner loops. */
  method CollectFromSource(source: Source, fetched: Fetch, blocks: seq<Block>, minDate: Date, today: Date)
    returns (r: Result<SourceOutcome>)
    requires ValidDate(minDate) && ValidDate(today)
    ensures r == CollectSource(source, fetched, blocks, minDate, today)
  {
    var sourceLabel := if Filled(source.url) then source.url.value else if Filled(source.path) then source.path.value else "unknown";
    var reported := if Filled(source.name) then source.name.value else "unknown";
    var rawText := "";
    if Filled(source.url) || Filled(source.path) {
      if fetched.FetchFailed? {
        return Success(SourceFailed(FailureRecord(reported, sourceLabel, fetched.error)));
      }
      rawText := fetched.text;
    }
    if rawText == [] {
      return Success(SourceFailed(FailureRecord(reported, sourceLabel, "empty response")));
    }
    var parsed := ParseIcsContent(rawText);
    if parsed.Failure? {
      return Failure(parsed.error);
    }
    var name := PropertyNameOf(source, parsed.value.1);
    var normalized := NormalizeEvents(parsed.value.0, minDate);
    if normalized.Failure? {
      return Failure(normalized.error);
    }
    var merged := MergeBlocks(normalized.value, blocks, name, minDate, today);
    if merged.Failure? {
      return Failure(merged.error);
    }
    return Success(Built(Property(name, merged.value)));
  }

  // ---------------------------------------------------------------------------
  // Ordering

  /** `_property_sort_key(name)`: `(0, n, lowered)` for a name whose first non-blank
      characters are the digits of `n`, `(1, lowered)` otherwise. */
  datatype SortKey = Numbered(number: nat, lowered: string) | Named(lowered: string)

  /** The run of digits `s` starts with. */
  function LeadingDigits(s: string): (r: string)
    ensures AllDigits(r) && |r| <= |s| && r == s[..|r|]
    ensures |r| < |s| ==> !IsDigit(s[|r|])
  {
    if s != [] && IsDigit(s[0]) then [s[0]] + LeadingDigits(s[1..]) else []
  }

  function PropertySortKey(name: string): (k: SortKey)
    ensures k.lowered == Lower(name)
    ensures k.Numbered? <==> TrimStart(name) != [] && IsDigit(TrimStart(name)[0])
    ensures k.Numbered? ==> k.number == DecimalValue(LeadingDigits(TrimStart(name)))
  {
    var digits := LeadingDigits(TrimStart(name));
    if digits != [] then Numbered(DecimalValue(digits), Lower(name)) else Named(Lower(name))
  }

  /** Python's `<=` on the sort keys: numbered names first, by number then by
      lowered name; the other names by lowered name. */
  predicate SortKeyLe(a: SortKey, b: SortKey) {
    match a
    case Numbered(n, x) => !b.Numbered? || n < b.number || (n == b.number && StrLe(x, b.lowered))
    case Named(x) => b.Named? && StrLe(x, b.lowered)
  }

  /** The key `sorted` compares: the position in the configured order (9999 for
      names it does not list; the same for all when there is no order), then the
      sort key. */
  datatype OrderKey = OrderKey(rank: int, key: SortKey)

  predicate KeyLe(a: OrderKey, b: OrderKey) {
    a.rank < b.rank || (a.rank == b.rank && SortKeyLe(a.key, b.key))
  }

  lemma KeyLeTotal(a: OrderKey, b: OrderKey)
    ensures KeyLe(a, b) || KeyLe(b, a)
  {
    StrLeTotal(a.key.lowered, b.key.lowered);
  }

  lemma KeyLeTransitive(a: OrderKey, b: OrderKey, c: OrderKey)
    requires KeyLe(a, b) && KeyLe(b, c)
    ensures KeyLe(a, c)
  {
    if a.rank == b.rank == c.rank {
      if a.key.lowered != [] || b.key.lowered != [] || c.key.lowered != [] {
        if StrLe(a.key.lowered, b.key.lowered) && StrLe(b.key.lowered, c.key.lowered) {
          StrLeTransitive(a.key.lowered, b.key.lowered, c.key.lowered);
        }
      }
    }
  }

  /** The keys of `order_index`, position by position: each listed name stripped
      and lower-cased. */
  function OrderKeys(order: seq<string>): (r: seq<string>)
    ensures |r| == |order|
    ensures forall j :: 0 <= j < |order| ==> r[j] == Lower(Trim(order[j]))
  {
    seq(|order|, j requires 0 <= j < |order| => Lower(Trim(order[j])))
  }

  /** `order_index.get(key, 9999)`: the dictionary keeps the last position a key is
      listed at. */
  function LastIndex(keys: seq<string>, key: string): (r: int)
    ensures key in keys ==> 0 <= r < |keys| && keys[r] == key && forall j :: r < j < |keys| ==> keys[j] != key
    ensures key !in keys ==> r == 9999
  {
    if keys == [] then 9999
    else if keys[|keys| - 1] == key then |keys| - 1
    else
      var init := keys[..|keys| - 1];
      assert keys == init + [keys[|keys| - 1]];
      LastIndex(init, key)
  }

  /** The configured position of a property name; every name has the same rank when
      no order is configured. */
  function Rank(order: Option<seq<string>>, name: string): int {
    if order.Some? then LastIndex(OrderKeys(order.value), Lower(Trim(name))) else 0
  }

  function KeyOf(order: Option<seq<string>>, p: Property): OrderKey {
    OrderKey(Rank(order, p.name), PropertySortKey(p.name))
  }

  /** A property with the key `sorted` computed for it. */
  datatype Entry = Entry(key: OrderKey, property: Property)

  function Decorate(order: Option<seq<string>>, ps: seq<Property>): (r: seq<Entry>)
    ensures |r| == |ps|
    ensures forall i :: 0 <= i < |ps| ==> r[i] == Entry(KeyOf(order, ps[i]), ps[i])
  {
    if ps == [] then [] else [Entry(KeyOf(order, ps[0]), ps[0])] + Decorate(order, ps[1..])
  }

  function Properties(es: seq<Entry>): (r: seq<Property>)
    ensures |r| == |es|
    ensures forall i :: 0 <= i < |es| ==> r[i] == es[i].property
  {
    if es == [] then [] else [es[0].property] + Properties(es[1..])
  }

  predicate SortedByKey(es: seq<Entry>) {
    forall i, j :: 0 <= i < j < |es| ==> KeyLe(es[i].key, es[j].key)
  }

  /** `e` placed before the first entry it does not sort after. */
  function Insert(e: Entry, es: seq<Entry>): (r: seq<Entry>)
    ensures multiset(Properties(r)) == multiset(Properties(es)) + multiset{e.property}
    ensures forall x :: x in r <==> x == e || x in es
    ensures |r| == |es| + 1
  {
    if es == [] then [e]
    else if KeyLe(e.key, es[0].key) then
      assert ([e] + es)[1..] == es;
      [e] + es
    else
      var ins := Insert(e, es[1..]);
      assert ([es[0]] + ins)[1..] == ins;
      assert es == [es[0]] + es[1..];
      [es[0]] + ins
  }

  lemma {:induction false} InsertSorted(e: Entry, es: seq<Entry>)
    requires SortedByKey(es)
    ensures SortedByKey(Insert(e, es))
    decreases |es|
  {
    if es == [] {
    } else if KeyLe(e.key, es[0].key) {
      var r := [e] + es;
      forall i, j | 0 <= i < j < |r|
        ensures KeyLe(r[i].key, r[j].key)
      {
        if i == 0 && j > 1 {
          KeyLeTransitive(e.key, es[0].key, es[j - 1].key);
        }
      }
    } else {
      KeyLeTotal(e.key, es[0].key);
      var tail := es[1..];
      assert SortedByKey(tail) by {
        forall i, j | 0 <= i < j < |tail|
          ensures KeyLe(tail[i].key, tail[j].key)
        {
          assert tail[i] == es[i + 1] && tail[j] == es[j + 1];
        }
      }
      InsertSorted(e, tail);
      var ins := Insert(e, tail);
      var r := [es[0]] + ins;
      forall i, j | 0 <= i < j < |r|
        ensures KeyLe(r[i].key, r[j].key)
      {
        if i == 0 {
          var x := r[j];
          assert x == ins[j - 1] && x in ins;
          if x != e {
            var k :| 0 <= k < |tail| && tail[k] == x;
            assert es[k + 1] == x;
          }
        }
      }
    }
  }

  /** `sorted` on the decorated properties: a stable insertion of each entry. */
  function SortEntries(es: seq<Entry>): (r: seq<Entry>)
    ensures multiset(Properties(r)) == multiset(Properties(es))
    ensures forall x :: x in r ==> x in es
    ensures SortedByKey(r)
  {
    if es == [] then []
    else
      var rest := SortEntries(es[1..]);
      InsertSorted(es[0], rest);
      assert es == [es[0]] + es[1..];
      assert Properties(es) == [es[0].property] + Properties(es[1..]);
      Insert(es[0], rest)
  }

  /** `_sort_properties(properties)`: by the configured order when
      `PROPERTY_ORDER_JSON` holds a list, by the sort key alone otherwise. The
      result holds the same properties; listed names come first, in list order;
      at the same rank, numbered names come first, by number. */
  function SortProperties(order: Option<seq<string>>, ps: seq<Property>): (r: seq<Property>)
    ensures multiset(r) == multiset(ps)
    ensures forall i, j :: 0 <= i < j < |r| ==> KeyLe(KeyOf(order, r[i]), KeyOf(order, r[j]))
  {
    var decorated := Decorate(order, ps);
    UndecorateDecorate(order, ps);
    var es := SortEntries(decorated);
    SortedEntriesKeys(order, ps, es);
    Properties(es)
  }

  lemma UndecorateDecorate(order: Option<seq<string>>, ps: seq<Property>)
    ensures Properties(Decorate(order, ps)) == ps
  {
  }

  /** Entries drawn from the decorated properties and sorted by key are properties
      sorted by their own keys. */
  lemma SortedEntriesKeys(order: Option<seq<string>>, ps: seq<Property>, es: seq<Entry>)
    requires forall x :: x in es ==> x in Decorate(order, ps)
    requires SortedByKey(es)
    ensures forall i, j :: 0 <= i < j < |es| ==>
              KeyLe(KeyOf(order, Properties(es)[i]), KeyOf(order, Properties(es)[j]))
  {
    var decorated := Decorate(order, ps);
    forall x | x in es
      ensures x.key == KeyOf(order, x.property)
    {
      var k :| 0 <= k < |decorated| && decorated[k] == x;
    }
    forall i, j | 0 <= i < j < |es|
      ensures KeyLe(KeyOf(order, Properties(es)[i]), KeyOf(order, Properties(es)[j]))
    {
      assert es[i] in es && es[j] in es;
    }
  }

  /** What the order promises: a name the configured list holds comes before every
      name it does not; two listed names follow the list; at equal rank, a name
      starting with a number comes before one that does not, and two such names
      follow their numbers. */
  lemma SortedOrder(order: Option<seq<string>>, ps: seq<Property>, i: nat, j: nat)
    requires i < j < |SortProperties(order, ps)|
    ensures var r := SortProperties(order, ps);
            var a := PropertySortKey(r[i].name);
            var b := PropertySortKey(r[j].name);
            Rank(order, r[i].name) <= Rank(order, r[j].name)
            && (Rank(order, r[i].name) == Rank(order, r[j].name) && b.Numbered? ==> a.Numbered? && a.number <= b.number)
  {
    var r := SortProperties(order, ps);
    KeyLeMeaning(KeyOf(order, r[i]), KeyOf(order, r[j]));
  }

  /** Ordered keys: a rank no higher, and at equal rank a number no higher when the
      second key carries one. */
  lemma KeyLeMeaning(a: OrderKey, b: OrderKey)
    requires KeyLe(a, b)
    ensures a.rank <= b.rank
    ensures a.rank == b.rank && b.key.Numbered? ==> a.key.Numbered? && a.key.number <= b.key.number
  {
  }

  /** A name the configured list holds ranks below every name it does not. */
  lemma ListedRanksFirst(order: seq<string>, listed: string, other: string)
    requires Lower(Trim(listed)) in OrderKeys(order)
    requires Lower(Trim(other)) !in OrderKeys(order)
    requires |order| <= 9999
    ensures Rank(Some(order), listed) < Rank(Some(order), other)
  {
  }
}

=== FILE: cancellation.dfy ===
/**
 * The cancel-and-cleanup lambda (lambda_delete_codes.py): recognising a
 * cancellation, removing the booking's code through its idempotency record or by
 * matching the device's listed codes against the stay window, the scheduled
 * sweep of expired codes, and the event dispatch.
 */
module Cancellation {
  import opened Common
  import opened Strings
  import opened AccessCodes
  import opened Gateway
  import opened Store
  import Provisioning

  /** The settings the cancel lambda reads from its environment. Every date is read
      in `defaultTimezone`; `isoDay` and `knownZones` are as for the create lambda. */
  datatype CleanupConfig = CleanupConfig(
    lockMapping: map<string, string>,
    defaultTimezone: string,
    checkinSetting: string,
    checkoutSetting: string,
    graceMinutes: int,
    onlyManaged: bool,
    onlyTimeBound: bool,
    dryRun: bool,
    cancelledStatuses: set<string>,
    cancelKeywords: set<string>,
    endsTolerance: int,
    allowCodeOnlyMatch: bool,
    knownZones: set<string>,
    isoDay: (string, string) -> Option<int>)

  /** `_is_cancellation_event(status, action)`: a cancelled status, or an action that
      contains one of the cancel keywords. */
  predicate IsCancellationEvent(cfg: CleanupConfig, status: string, action: string) {
    (status != [] && status in cfg.cancelledStatuses)
    || (action != [] && exists k | k in cfg.cancelKeywords :: Contains(action, k))
  }

  /** A keyword anywhere inside the action makes the event a cancellation: the match is
      on substrings, so "reservation_cancelled" is caught by "cancel". */
  lemma {:induction false} KeywordInsideAction(cfg: CleanupConfig, status: string, before: string, k: string, after: string)
    requires k in cfg.cancelKeywords && k != []
    ensures IsCancellationEvent(cfg, status, before + k + after)
  {
    var action := before + k + after;
    assert action[|before|..|before| + |k|] == k;
    assert OccursAt(action, k, |before|);
  }

  /** A status outside the cancelled set and an action free of every keyword is not a
      cancellation. */
  lemma NoKeywordNoCancellation(cfg: CleanupConfig, status: string, action: string)
    requires status !in cfg.cancelledStatuses
    requires forall k :: k in cfg.cancelKeywords ==> !Contains(action, k)
    ensures !IsCancellationEvent(cfg, status, action)
  {
  }

  /** The kind filters shared by the cancellation match and the sweep. */
  predicate KindAllowed(cfg: CleanupConfig, c: ListedCode) {
    (!cfg.onlyManaged || c.isManaged != Some(false))
    && (!cfg.onlyTimeBound || c.codeType.None? || c.codeType == Some("time_bound"))
  }

  /** The window test of `_filter_codes_for_booking`: the end must parse and lie within
      the tolerance of the check-out; the start, when it parses, within the tolerance
      of the check-in. */
  predicate WindowMatches(c: ListedCode, checkin: Instant, checkout: Instant, tolerance: int) {
    c.endsAt.Some? && Abs(c.endsAt.value - checkout) <= tolerance
    && (c.startsAt.Some? ==> Abs(c.startsAt.value - checkin) <= tolerance)
  }

  /** Which entries a pass of `_filter_codes_for_booking` keeps. */
  datatype Criterion = WithWindow(code: string, checkin: Instant, checkout: Instant) | CodeOnly(code: string)

  predicate Keeps(cfg: CleanupConfig, crit: Criterion, c: ListedCode) {
    c.code == crit.code && KindAllowed(cfg, c)
    && (crit.WithWindow? ==> WindowMatches(c, crit.checkin, crit.checkout, cfg.endsTolerance))
  }

  /** The entries of `codes` a criterion keeps, in order. */
  function Filter(cfg: CleanupConfig, codes: seq<ListedCode>, crit: Criterion): (r: seq<ListedCode>)
    ensures |r| <= |codes|
  {
    if codes == [] then []
    else
      var last := codes[|codes| - 1];
      Filter(cfg, codes[..|codes| - 1], crit) + (if Keeps(cfg, crit, last) then [last] else [])
  }

  /** The filter keeps exactly the entries the criterion keeps. */
  lemma {:induction false} FilterKeeps(cfg: CleanupConfig, codes: seq<ListedCode>, crit: Criterion)
    ensures forall c :: c in Filter(cfg, codes, crit) <==> c in codes && Keeps(cfg, crit, c)
  {
    if codes != [] {
      var last := codes[|codes| - 1];
      FilterKeeps(cfg, codes[..|codes| - 1], crit);
      assert codes == codes[..|codes| - 1] + [last];
    }
  }

  /** `a` is `b` with some entries left out, the rest in their order. */
  predicate SubsequenceOf<T(==)>(a: seq<T>, b: seq<T>)
    decreases |b|
  {
    if a == [] then true
    else if b == [] then false
    else if a[|a| - 1] == b[|b| - 1] then SubsequenceOf(a[..|a| - 1], b[..|b| - 1])
    else SubsequenceOf(a, b[..|b| - 1])
  }

  /** Filtering keeps the listing's order. */
  lemma {:induction false} FilterIsSubsequence(cfg: CleanupConfig, codes: seq<ListedCode>, crit: Criterion)
    ensures SubsequenceOf(Filter(cfg, codes, crit), codes)
    decreases |codes|
  {
    if codes != [] {
      var init := codes[..|codes| - 1];
      var last := codes[|codes| - 1];
      FilterIsSubsequence(cfg, init, crit);
      var r := Filter(cfg, codes, crit);
      if Keeps(cfg, crit, last) {
        assert r[..|r| - 1] == Filter(cfg, init, crit);
      } else if r != [] {
        assert r == Filter(cfg, init, crit);
        FilterKeeps(cfg, init, crit);
        assert r[|r| - 1] in r;
      }
    }
  }

  /** Every entry kept with the window test is also kept by the code-only test. */
  lemma WindowMatchesAreCodeMatches(cfg: CleanupConfig, codes: seq<ListedCode>, code: string, checkin: Instant, checkout: Instant)
    ensures forall c :: c in Filter(cfg, codes, WithWindow(code, checkin, checkout)) ==> c in Filter(cfg, codes, CodeOnly(code))
  {
    FilterKeeps(cfg, codes, WithWindow(code, checkin, checkout));
    FilterKeeps(cfg, codes, CodeOnly(code));
  }

  /** The result of `_filter_codes_for_booking`: the window matches; when there are
      none and the code-only fallback is on, every entry with the code. */
  function MatchesForBooking(cfg: CleanupConfig, codes: seq<ListedCode>, code: string, checkin: Instant, checkout: Instant)
    : seq<ListedCode>
  {
    var strict := Filter(cfg, codes, WithWindow(code, checkin, checkout));
    if strict != [] then strict
    else if cfg.allowCodeOnlyMatch then Filter(cfg, codes, CodeOnly(code))
    else []
  }

  /** Without the fallback, only entries within the window are ever matched; with it,
      entries outside the window are matched only when none is inside. */
  lemma MatchesAreWindowMatchesFirst(cfg: CleanupConfig, codes: seq<ListedCode>, code: string, checkin: Instant, checkout: Instant)
    ensures var m := MatchesForBooking(cfg, codes, code, checkin, checkout);
            && (forall c :: c in m ==> c.code == code && KindAllowed(cfg, c))
            && ((exists c :: c in codes && Keeps(cfg, WithWindow(code, checkin, checkout), c)) ==>
                  forall c :: c in m ==> WindowMatches(c, checkin, checkout, cfg.endsTolerance))
            && (!cfg.allowCodeOnlyMatch ==> forall c :: c in m ==> WindowMatches(c, checkin, checkout, cfg.endsTolerance))
  {
    var strict := Filter(cfg, codes, WithWindow(code, checkin, checkout));
    FilterKeeps(cfg, codes, WithWindow(code, checkin, checkout));
    FilterKeeps(cfg, codes, CodeOnly(code));
    if exists c :: c in codes && Keeps(cfg, WithWindow(code, checkin, checkout), c) {
      var c :| c in codes && Keeps(cfg, WithWindow(code, checkin, checkout), c);
      assert c in strict;
    }
  }

  /** One pass of `_filter_codes_for_booking` over the listing. */
  method FilterPass(cfg: CleanupConfig, codes: seq<ListedCode>, crit: Criterion) returns (kept: seq<ListedCode>)
    ensures kept == Filter(cfg, codes, crit)
  {
    kept := [];
    var i := 0;
    while i < |codes|
      invariant 0 <= i <= |codes|
      invariant kept == Filter(cfg, codes[..i], crit)
    {
      assert codes[..i + 1][..i] == codes[..i];
      if Keeps(cfg, crit, codes[i]) {
        kept := kept + [codes[i]];
      }
      i := i + 1;
    }
    assert codes[..|codes|] == codes;
  }

  /** `_filter_codes_for_booking(codes, access_code, checkin, checkout)`: the window
      pass, then the code-only pass when the first found nothing and it is allowed. */
  method FilterCodesForBooking(cfg: CleanupConfig, codes: seq<ListedCode>, code: string, checkin: Instant, checkout: Instant)
    returns (matches: seq<ListedCode>)
    ensures matches == MatchesForBooking(cfg, codes, code, checkin, checkout)
  {
    matches := FilterPass(cfg, codes, WithWindow(code, checkin, checkout));
    if matches == [] && cfg.allowCodeOnlyMatch {
      matches := FilterPass(cfg, codes, CodeOnly(code));
    }
  }

  /** The delete requests the loop over matches sends: one per entry with an id. */
  function DeleteTargets(matches: seq<ListedCode>, device: string): (r: seq<DeleteTarget>)
    ensures |r| <= |matches|
  {
    if matches == [] then []
    else
      var last := matches[|matches| - 1];
      DeleteTargets(matches[..|matches| - 1], device)
      + (if last.accessCodeId != [] then [DeleteTarget(last.accessCodeId, device)] else [])
  }

  /** The requests go to the mapped lock, one for each matched entry with an id and
      for nothing else. */
  lemma {:induction false} DeleteTargetsAreMatchIds(matches: seq<ListedCode>, device: string)
    ensures forall t: DeleteTarget :: t in DeleteTargets(matches, device) <==>
              t.device == device && t.accessCodeId != []
              && exists c :: c in matches && c.accessCodeId == t.accessCodeId
    decreases |matches|
  {
    if matches != [] {
      var init := matches[..|matches| - 1];
      var last := matches[|matches| - 1];
      assert matches == init + [last];
      DeleteTargetsAreMatchIds(init, device);
      forall t: DeleteTarget | t.device == device && t.accessCodeId != [] && exists c :: c in matches && c.accessCodeId == t.accessCodeId
        ensures t in DeleteTargets(matches, device)
      {
        var c :| c in matches && c.accessCodeId == t.accessCodeId;
        if c != last {
          assert c in init;
        }
      }
    }
  }

  lemma DeleteTargetsSnoc(matches: seq<ListedCode>, device: string, i: nat)
    requires i < |matches|
    ensures DeleteTargets(matches[..i + 1], device)
            == DeleteTargets(matches[..i], device)
               + (if matches[i].accessCodeId != [] then [DeleteTarget(matches[i].accessCodeId, device)] else [])
  {
    assert matches[..i + 1][..i] == matches[..i];
  }

  /** How many of the delete answers at positions `from` .. `from + n - 1` succeed. */
  function Successes(replyAt: nat -> DeleteReply, from: nat, n: nat): (k: nat)
    ensures k <= n
  {
    if n == 0 then 0 else Successes(replyAt, from, n - 1) + (if DeleteSucceeded(replyAt(from + n - 1)) then 1 else 0)
  }

  /** The delete log of `remote` after a run of deletes asking for `targets`, begun
      when the log was `before`, with `count` deletes reported as done: a dry run sends
      nothing and reports every delete done; without an API key nothing is sent and
      nothing is done; otherwise every target is sent, in order, and the count is that
      of the answers that succeed. */
  ghost predicate DeleteLog(dryRun: bool, remote: Remote, before: seq<DeleteTarget>, targets: seq<DeleteTarget>, count: nat)
    reads remote
  {
    DeleteLogOf(dryRun, remote.apiKeyConfigured, remote.deleteReplyAt, remote.deleted, before, targets, count)
  }

  /** `DeleteLog` for a service with the given key switch and answers whose log is now
      `log`. */
  ghost predicate DeleteLogOf(dryRun: bool, keyed: bool, replyAt: nat -> DeleteReply, log: seq<DeleteTarget>,
                              before: seq<DeleteTarget>, targets: seq<DeleteTarget>, count: nat)
  {
    if dryRun then log == before && count == |targets|
    else if !keyed then log == before && count == 0
    else log == before + targets && count == Successes(replyAt, |before|, |targets|)
  }

  /** Two runs of deletes one after the other make one run. */
  lemma DeleteLogAccumulates(dryRun: bool, keyed: bool, replyAt: nat -> DeleteReply, before: seq<DeleteTarget>,
                             middle: seq<DeleteTarget>, after: seq<DeleteTarget>,
                             first: seq<DeleteTarget>, second: seq<DeleteTarget>, count1: nat, count2: nat)
    requires DeleteLogOf(dryRun, keyed, replyAt, middle, before, first, count1)
    requires DeleteLogOf(dryRun, keyed, replyAt, after, middle, second, count2)
    ensures DeleteLogOf(dryRun, keyed, replyAt, after, before, first + second, count1 + count2)
  {
    if !dryRun && keyed {
      AppendAssociates(before, first, second);
      SuccessesAccumulate(replyAt, |before|, |first|, |second|, |middle|, |first + second|, count1, count2);
    }
  }

  /** A run of deletes never reports more done than it asked for. */
  lemma DeleteLogBound(dryRun: bool, remote: Remote, before: seq<DeleteTarget>, targets: seq<DeleteTarget>, count: nat)
    requires DeleteLog(dryRun, remote, before, targets, count)
    ensures count <= |targets|
    ensures dryRun || !remote.apiKeyConfigured ==> remote.deleted == before
  {
  }

  /** `_delete_access_code` inside a counting loop: one more target asked for, and the
      count raised when it is done. */
  method DeleteCounted(remote: Remote, target: DeleteTarget, dryRun: bool, count: nat,
                       ghost before: seq<DeleteTarget>, ghost targets: seq<DeleteTarget>)
    returns (newCount: nat)
    modifies remote`deleted
    requires DeleteLog(dryRun, remote, before, targets, count)
    ensures DeleteLog(dryRun, remote, before, targets + [target], newCount)
    ensures newCount <= count + 1
  {
    var ok := remote.DeleteById(target, dryRun);
    AppendAssociates(before, targets, [target]);
    newCount := if ok then count + 1 else count;
  }

  /** The delete loop of `delete_codes_for_cancellation`: one delete per matched entry
      that has an id; the result counts the deletes that succeeded (all of them on a
      dry run, none without an API key). */
  method DeleteMatches(remote: Remote, matches: seq<ListedCode>, device: string, dryRun: bool) returns (deleted: nat)
    modifies remote`deleted
    ensures DeleteLog(dryRun, remote, old(remote.deleted), DeleteTargets(matches, device), deleted)
  {
    deleted := 0;
    ghost var targets: seq<DeleteTarget> := [];
    ghost var before := remote.deleted;
    var i := 0;
    while i < |matches|
      invariant 0 <= i <= |matches|
      invariant targets == DeleteTargets(matches[..i], device)
      invariant DeleteLog(dryRun, remote, before, targets, deleted)
    {
      DeleteTargetsSnoc(matches, device, i);
      var id := matches[i].accessCodeId;
      if id != [] {
        deleted := DeleteCounted(remote, DeleteTarget(id, device), dryRun, deleted, before, targets);
        targets := targets + [DeleteTarget(id, device)];
      }
      i := i + 1;
    }
    assert matches[..|matches|] == matches;
  }

  /** `CHECKIN_TIME` and `CHECKOUT_TIME` of the cancel lambda. */
  function CheckinTime(cfg: CleanupConfig): (t: TimeOfDay)
    ensures ValidTime(t)
  {
    ParseHHMM(cfg.checkinSetting, Provisioning.DefaultCheckin)
  }

  function CheckoutTime(cfg: CleanupConfig): (t: TimeOfDay)
    ensures ValidTime(t)
  {
    ParseHHMM(cfg.checkoutSetting, Provisioning.DefaultCheckout)
  }

  /** What a cancellation asks to match once the idempotency record did not settle
      it: the code and the stay window, or the 400 message, or the zone error. */
  datatype Target = Target(code: string, checkin: Instant, checkout: Instant) | Refused(message: string) | TargetRaised(error: string)

  function CancelTarget(cfg: CleanupConfig, b: Booking): (r: Target)
    ensures ResolveAccessCode(b.guestPhone, b.bookingId).None? ==> r == Refused("Missing phone and booking id.")
    ensures r.Target? ==> ResolveAccessCode(b.guestPhone, b.bookingId) == Some(DerivedCode(r.code, ResolveAccessCode(b.guestPhone, b.bookingId).value.source))
    ensures r.Target? ==>
              Provisioning.ParseLocal(cfg.isoDay, cfg.knownZones, b.arrival, cfg.defaultTimezone) == Provisioning.OnDay(r.checkin / 1440)
              && Provisioning.ParseLocal(cfg.isoDay, cfg.knownZones, b.departure, cfg.defaultTimezone) == Provisioning.OnDay(r.checkout / 1440)
    ensures r.Refused? ==> r.message in {"Missing phone and booking id.", "Missing check-in or check-out dates.", "Invalid date format."}
    ensures r.TargetRaised? ==> r.error == "ZoneInfoNotFoundError" && cfg.defaultTimezone !in cfg.knownZones
  {
    match ResolveAccessCode(b.guestPhone, b.bookingId)
    case None => Refused("Missing phone and booking id.")
    case Some(derived) =>
      if Provisioning.Missing(b.arrival) || Provisioning.Missing(b.departure) then Refused("Missing check-in or check-out dates.")
      else
        var arrival := Provisioning.ParseLocal(cfg.isoDay, cfg.knownZones, b.arrival, cfg.defaultTimezone);
        var departure := Provisioning.ParseLocal(cfg.isoDay, cfg.knownZones, b.departure, cfg.defaultTimezone);
        if arrival.UnknownZone? || departure.UnknownZone? then TargetRaised("ZoneInfoNotFoundError")
        else if arrival.NoDate? || departure.NoDate? then Refused("Invalid date format.")
        else Target(derived.code, ApplyTime(arrival.day, CheckinTime(cfg)), ApplyTime(departure.day, CheckoutTime(cfg)))
  }

  /** An unknown default zone raises exactly when the booking has a code, both dates
      are present and at least one of them parses. */
  lemma TargetRaisedExactly(cfg: CleanupConfig, b: Booking)
    ensures CancelTarget(cfg, b).TargetRaised? <==>
              && ResolveAccessCode(b.guestPhone, b.bookingId).Some?
              && !Provisioning.Missing(b.arrival) && !Provisioning.Missing(b.departure)
              && (Provisioning.ParseLocal(cfg.isoDay, cfg.knownZones, b.arrival, cfg.defaultTimezone).UnknownZone?
                  || Provisioning.ParseLocal(cfg.isoDay, cfg.knownZones, b.departure, cfg.defaultTimezone).UnknownZone?)
  {
  }

  function MappedDevice(cfg: CleanupConfig, propertyId: string): string {
    if propertyId in cfg.lockMapping then cfg.lockMapping[propertyId] else ""
  }

  /** The body reporting how many codes a cancellation deleted: it names the count and
      cannot be mistaken for the other answers of a cancellation. */
  function DeletedBody(n: nat): (r: string)
    ensures |r| > 23 && AllDigits(r[8..|r| - 15]) && DecimalValue(r[8..|r| - 15]) == n
    ensures r != "Deleted access code from idempotency record" && r != "No matching access code found"
  {
    var digits := NatToDecimal(n);
    var r := "Deleted " + digits + " access code(s)";
    assert r[8] == digits[0] && IsDigit(r[8]);
    assert r[8..|r| - 15] == digits;
    DecimalRoundTrip(n);
    r
  }

  /** The answer and the deletes of the listing path for a booking, when the listing
      yields `codes`, the delete log goes from `before` to `after` and `count` deletes
      are reported done: the refusal or error of the booking's target, the listing
      error without an API key, no match, or the count of the matches deleted. */
  ghost predicate ListingOutcome(cfg: CleanupConfig, b: Booking, device: string, remote: Remote, codes: seq<ListedCode>,
                                 before: seq<DeleteTarget>, after: seq<DeleteTarget>, resp: Response, count: nat)
  {
    match CancelTarget(cfg, b)
    case Refused(message) => resp == Response(400, message) && after == before && count == 0
    case TargetRaised(error) => resp == Raised(error) && after == before && count == 0
    case Target(code, checkin, checkout) =>
      if !remote.apiKeyConfigured then resp == Raised("Missing SEAM_API_KEY") && after == before && count == 0
      else
        var matches := MatchesForBooking(cfg, codes, code, checkin, checkout);
        if matches == [] then resp == Response(200, "No matching access code found") && after == before && count == 0
        else resp == Response(200, DeletedBody(count))
             && DeleteLogOf(cfg.dryRun, true, remote.deleteReplyAt, after, before, DeleteTargets(matches, device), count)
  }

  /** The delete an idempotency record asks for: its code id, on the lock the record
      names or else on the mapped one. */
  function RecordTarget(rec: Record, device: string): DeleteTarget {
    DeleteTarget(rec.accessCodeId, if rec.deviceId != [] then rec.deviceId else device)
  }

  /** Whether a delete sent as the `at`-th request removes the code: always on a dry
      run, never without an API key, else as the service answers it. */
  predicate DeleteDoneAt(dryRun: bool, remote: Remote, at: nat) {
    dryRun || (remote.apiKeyConfigured && DeleteSucceeded(remote.deleteReplyAt(at)))
  }

  /** The answer and the deletes of `delete_codes_for_cancellation` for a booking
      whose stored record is `rec`: the property checks; then the record's delete,
      which settles the cancellation when it is done; otherwise the listing path,
      after that delete when one was sent. */
  ghost predicate CancelOutcome(cfg: CleanupConfig, b: Booking, remote: Remote, rec: Option<Record>, codes: seq<ListedCode>,
                                before: seq<DeleteTarget>, after: seq<DeleteTarget>, resp: Response, count: nat)
  {
    if b.propertyId == [] then resp == Response(400, "Missing property id.") && after == before && count == 0
    else if MappedDevice(cfg, b.propertyId) == [] then
      resp == Response(400, "No lock mapping found for property.") && after == before && count == 0
    else DeviceOutcome(cfg, b, MappedDevice(cfg, b.propertyId), remote, rec, codes, before, after, resp, count)
  }

  /** `CancelOutcome` once the booking's lock is known to be `device`. */
  ghost predicate DeviceOutcome(cfg: CleanupConfig, b: Booking, device: string, remote: Remote, rec: Option<Record>,
                                codes: seq<ListedCode>, before: seq<DeleteTarget>, after: seq<DeleteTarget>,
                                resp: Response, count: nat)
  {
    if rec.Some? && rec.value.accessCodeId != [] then
      var afterRecord := if !cfg.dryRun && remote.apiKeyConfigured then before + [RecordTarget(rec.value, device)] else before;
      if DeleteDoneAt(cfg.dryRun, remote, |before|) then
        resp == Response(200, "Deleted access code from idempotency record") && after == afterRecord && count == 0
      else ListingOutcome(cfg, b, device, remote, codes, afterRecord, after, resp, count)
    else ListingOutcome(cfg, b, device, remote, codes, before, after, resp, count)
  }

  /** The table after a cancellation answered `resp` reporting `count` deletes: the
      booking's record is forgotten when the record's own delete or one listed delete
      was done. */
  function RecordsAfter(enabled: bool, records: map<string, Record>, b: Booking, resp: Response, count: nat)
    : map<string, Record>
  {
    if (resp == Response(200, "Deleted access code from idempotency record") || count > 0) && enabled && b.bookingId.Some?
    then records - {b.bookingId.value} else records
  }

  /** The listing path of `delete_codes_for_cancellation`, once the record did not
      settle the cancellation: list the lock's codes, match them against the booking,
      delete the matches and forget the record when one delete succeeded. */
  method DeleteByListing(cfg: CleanupConfig, b: Booking, device: string, remote: Remote, store: IdempotencyStore)
    returns (resp: Response, deletedCount: nat)
    modifies remote`sessions, remote`listed, remote`deleted, store
    ensures resp.Response? || resp.Raised?
    ensures old(store.Valid()) ==> store.Valid()
    ensures CancelTarget(cfg, b).Refused? ==>
              resp == Response(400, CancelTarget(cfg, b).message) && remote.listed == old(remote.listed)
    ensures CancelTarget(cfg, b).TargetRaised? ==> resp == Raised(CancelTarget(cfg, b).error)
    ensures CancelTarget(cfg, b).Target? && !remote.apiKeyConfigured ==> resp == Raised("Missing SEAM_API_KEY")
    ensures ListingOutcome(cfg, b, device, remote, old(remote.NextListing(device)).codes,
                           old(remote.deleted), remote.deleted, resp, deletedCount)
    ensures store.records == (if deletedCount > 0 && store.enabled && b.bookingId.Some? then old(store.records) - {b.bookingId.value}
                              else old(store.records))
    ensures cfg.dryRun || !remote.apiKeyConfigured ==> remote.deleted == old(remote.deleted)
  {
    deletedCount := 0;
    var target := CancelTarget(cfg, b);
    if target.Refused? {
      return Response(400, target.message), 0;
    }
    if target.TargetRaised? {
      return Raised(target.error), 0;
    }
    var listed := remote.ListAccessCodes(device);
    if listed.None? {
      return Raised("Missing SEAM_API_KEY"), 0;
    }
    var matches := FilterCodesForBooking(cfg, listed.value, target.code, target.checkin, target.checkout);
    if matches == [] {
      return Response(200, "No matching access code found"), 0;
    }
    deletedCount := DeleteMatches(remote, matches, device, cfg.dryRun);
    DeleteLogBound(cfg.dryRun, remote, old(remote.deleted), DeleteTargets(matches, device), deletedCount);
    if deletedCount > 0 {
      store.Delete(b.bookingId);
    }
    resp := Response(200, DeletedBody(deletedCount));
  }

  /** The record step of `delete_codes_for_cancellation`: when the stored record holds
      a code id, delete that code and, when the delete is done, forget the record. */
  method DeleteByRecord(cfg: CleanupConfig, b: Booking, device: string, remote: Remote, store: IdempotencyStore)
    returns (done: bool)
    modifies remote`deleted, store
    ensures var rec := old(store.Get(b.bookingId));
            && done == (rec.Some? && rec.value.accessCodeId != [] && DeleteDoneAt(cfg.dryRun, remote, |old(remote.deleted)|))
            && remote.deleted == if rec.Some? && rec.value.accessCodeId != [] && !cfg.dryRun && remote.apiKeyConfigured
                                 then old(remote.deleted) + [RecordTarget(rec.value, device)] else old(remote.deleted)
    ensures store.records == if done then old(store.records) - {b.bookingId.value} else old(store.records)
    ensures old(store.Valid()) ==> store.Valid()
  {
    var rec := store.Get(b.bookingId);
    if rec.Some? && rec.value.accessCodeId != [] {
      var ok := remote.DeleteById(RecordTarget(rec.value, device), cfg.dryRun);
      if ok {
        store.Delete(b.bookingId);
      }
      return ok;
    }
    return false;
  }

  /** `delete_codes_for_cancellation` once the booking's lock is known: the record
      step, then the listing path when the record did not settle it. */
  method DeleteAtDevice(cfg: CleanupConfig, b: Booking, device: string, remote: Remote, store: IdempotencyStore)
    returns (resp: Response, deletedCount: nat)
    modifies remote`sessions, remote`listed, remote`deleted, store
    ensures DeviceOutcome(cfg, b, device, remote, old(store.Get(b.bookingId)), old(remote.NextListing(device)).codes,
                          old(remote.deleted), remote.deleted, resp, deletedCount)
    ensures store.records == RecordsAfter(store.enabled, old(store.records), b, resp, deletedCount)
    ensures resp.Response? || resp.Raised?
    ensures old(store.Valid()) ==> store.Valid()
    ensures resp == Response(200, "Deleted access code from idempotency record") ==>
              && old(store.Get(b.bookingId)).Some?
              && old(store.Get(b.bookingId)).value.accessCodeId != []
              && remote.listed == old(remote.listed)
  {
    ghost var codes := remote.NextListing(device).codes;
    var done := DeleteByRecord(cfg, b, device, remote, store);
    if done {
      return Response(200, "Deleted access code from idempotency record"), 0;
    }
    ghost var middle := remote.deleted;
    assert remote.NextListing(device).codes == codes;
    resp, deletedCount := DeleteByListing(cfg, b, device, remote, store);
    assert ListingOutcome(cfg, b, device, remote, codes, middle, remote.deleted, resp, deletedCount);
  }

  /** `delete_codes_for_cancellation(data)`: first the idempotency record, then the
      listing. `deletedCount` is the number the body reports on the listing path. */
  method DeleteCodesForCancellation(cfg: CleanupConfig, b: Booking, remote: Remote, store: IdempotencyStore)
    returns (resp: Response, deletedCount: nat)
    modifies remote`sessions, remote`listed, remote`deleted, store
    ensures resp.Response? || resp.Raised?
    ensures old(store.Valid()) ==> store.Valid()
    ensures store.records == old(store.records)
            || (store.enabled && b.bookingId.Some? && store.records == old(store.records) - {b.bookingId.value})
    ensures b.propertyId == [] ==>
              resp == Response(400, "Missing property id.") && remote.deleted == old(remote.deleted)
              && store.records == old(store.records)
    ensures b.propertyId != [] && MappedDevice(cfg, b.propertyId) == [] ==>
              resp == Response(400, "No lock mapping found for property.") && remote.deleted == old(remote.deleted)
              && store.records == old(store.records)
    ensures resp == Response(200, "Deleted access code from idempotency record") ==>
              && old(store.Get(b.bookingId)).Some?
              && old(store.Get(b.bookingId)).value.accessCodeId != []
              && remote.listed == old(remote.listed)
    ensures CancelOutcome(cfg, b, remote, old(store.Get(b.bookingId)), old(remote.NextListing(MappedDevice(cfg, b.propertyId))).codes,
                          old(remote.deleted), remote.deleted, resp, deletedCount)
    ensures store.records == RecordsAfter(store.enabled, old(store.records), b, resp, deletedCount)
    ensures cfg.dryRun ==> remote.deleted == old(remote.deleted)
    ensures |remote.deleted| > |old(remote.deleted)| ==> remote.apiKeyConfigured && !cfg.dryRun
  {
    deletedCount := 0;
    if b.propertyId == [] {
      return Response(400, "Missing property id."), 0;
    }
    var device := MappedDevice(cfg, b.propertyId);
    if device == [] {
      return Response(400, "No lock mapping found for property."), 0;
    }
    resp, deletedCount := DeleteAtDevice(cfg, b, device, remote, store);
  }

  /** The codes the sweep removes: kind filters pass, the end parses and is not after
      the cutoff. */
  predicate SweepEligible(cfg: CleanupConfig, c: ListedCode, cutoff: Instant) {
    KindAllowed(cfg, c) && c.endsAt.Some? && c.endsAt.value <= cutoff
  }

  /** A code the sweep would remove now is still removable at any later time. */
  lemma SweepEligibleLater(cfg: CleanupConfig, c: ListedCode, now: Instant, later: Instant)
    requires now <= later && SweepEligible(cfg, c, now - cfg.graceMinutes)
    ensures SweepEligible(cfg, c, later - cfg.graceMinutes)
  {
  }

  /** The strictly increasing order of `sorted(set(...))`. */
  predicate StrictlySorted(s: seq<string>) {
    forall i, j :: 0 <= i < j < |s| ==> StrLe(s[i], s[j]) && s[i] != s[j]
  }

  /** The least string of a non-empty set. */
  method Least(values: set<string>) returns (m: string)
    requires values != {}
    ensures m in values && forall x :: x in values ==> StrLe(m, x)
  {
    m :| m in values;
    var rest := values - {m};
    StrLeTotal(m, m);
    while rest != {}
      invariant m in values && rest <= values
      invariant forall x :: x in values - rest ==> StrLe(m, x)
      decreases |rest|
    {
      var x :| x in rest;
      StrLeTotal(m, x);
      StrLeTotal(x, x);
      if !StrLe(m, x) {
        forall y | y in values - rest
          ensures StrLe(x, y)
        {
          StrLeTransitive(x, m, y);
        }
        m := x;
      }
      rest := rest - {x};
    }
  }

  /** `sorted(set(values))`: the distinct values in increasing order. */
  method SortedDistinct(values: set<string>) returns (r: seq<string>)
    ensures StrictlySorted(r)
    ensures forall x :: x in r <==> x in values
    ensures |r| == |values|
  {
    r := [];
    var rest := values;
    while rest != {}
      invariant rest <= values
      invariant forall x :: x in r <==> x in values - rest
      invariant |r| + |rest| == |values|
      invariant StrictlySorted(r)
      invariant forall i, y :: 0 <= i < |r| && y in rest ==> StrLe(r[i], y) && r[i] != y
      decreases |rest|
    {
      var m := Least(rest);
      forall i, y | 0 <= i < |r| && y in rest - {m}
        ensures StrLe(r[i], y) && r[i] != y
      {
      }
      r := r + [m];
      rest := rest - {m};
    }
  }

  /** The body of the sweep's answer: the JSON object of its two counts. */
  function SweepBody(checked: nat, deleted: nat): string {
    "{\"checked\": " + NatToDecimal(checked) + ", \"deleted\": " + NatToDecimal(deleted) + "}"
  }

  /** The values of the lock mapping. */
  function Devices(cfg: CleanupConfig): set<string> {
    set p | p in cfg.lockMapping :: cfg.lockMapping[p]
  }

  /** A listed code the sweep looked at, with the device it was listed for. */
  datatype Seen = Seen(device: string, entry: ListedCode)

  /** The deletes the sweep asks for, in order, having looked at `seen`. */
  function SweepTargets(cfg: CleanupConfig, seen: seq<Seen>, cutoff: Instant): (r: seq<DeleteTarget>)
    ensures |r| <= |seen|
  {
    if seen == [] then []
    else
      var last := seen[|seen| - 1];
      SweepTargets(cfg, seen[..|seen| - 1], cutoff)
      + (if SweepEligible(cfg, last.entry, cutoff) && last.entry.accessCodeId != []
         then [DeleteTarget(last.entry.accessCodeId, last.device)] else [])
  }

  /** The sweep deletes exactly the eligible codes that have an id, each on the device
      it was listed for. */
  lemma {:induction false} SweepTargetsAreEligible(cfg: CleanupConfig, seen: seq<Seen>, cutoff: Instant)
    ensures forall t :: t in SweepTargets(cfg, seen, cutoff) <==>
              exists e :: e in seen && SweepEligible(cfg, e.entry, cutoff) && e.entry.accessCodeId != []
                          && t == DeleteTarget(e.entry.accessCodeId, e.device)
    decreases |seen|
  {
    if seen != [] {
      var init := seen[..|seen| - 1];
      var last := seen[|seen| - 1];
      assert seen == init + [last];
      SweepTargetsAreEligible(cfg, init, cutoff);
      forall t | exists e :: e in seen && SweepEligible(cfg, e.entry, cutoff) && e.entry.accessCodeId != []
                             && t == DeleteTarget(e.entry.accessCodeId, e.device)
        ensures t in SweepTargets(cfg, seen, cutoff)
      {
        var e :| e in seen && SweepEligible(cfg, e.entry, cutoff) && e.entry.accessCodeId != []
                 && t == DeleteTarget(e.entry.accessCodeId, e.device);
        if e != last {
          assert e in init;
        }
      }
    }
  }

  /** The codes of one lock as the sweep records them. */
  function SeenOn(device: string, codes: seq<ListedCode>): (r: seq<Seen>)
    ensures |r| == |codes|
  {
    if codes == [] then []
    else SeenOn(device, codes[..|codes| - 1]) + [Seen(device, codes[|codes| - 1])]
  }

  /** Every code recorded for a lock carries that lock's id. */
  lemma {:induction false} SeenOnDevice(device: string, codes: seq<ListedCode>)
    ensures forall e :: e in SeenOn(device, codes) ==> e.device == device
    decreases |codes|
  {
    if codes != [] {
      SeenOnDevice(device, codes[..|codes| - 1]);
    }
  }

  lemma SeenOnSnoc(device: string, codes: seq<ListedCode>, i: nat)
    requires i < |codes|
    ensures SeenOn(device, codes[..i + 1]) == SeenOn(device, codes[..i]) + [Seen(device, codes[i])]
  {
    assert codes[..i + 1][..i] == codes[..i];
  }

  lemma SweepTargetsSnoc(cfg: CleanupConfig, seen: seq<Seen>, s: Seen, cutoff: Instant)
    ensures SweepTargets(cfg, seen + [s], cutoff)
            == SweepTargets(cfg, seen, cutoff)
               + (if SweepEligible(cfg, s.entry, cutoff) && s.entry.accessCodeId != []
                  then [DeleteTarget(s.entry.accessCodeId, s.device)] else [])
  {
    assert (seen + [s])[..|seen|] == seen;
  }

  /** The sweep's deletes over two stretches of codes are those of the first followed
      by those of the second. */
  lemma {:induction false} SweepTargetsAppend(cfg: CleanupConfig, a: seq<Seen>, b: seq<Seen>, cutoff: Instant)
    ensures SweepTargets(cfg, a + b, cutoff) == SweepTargets(cfg, a, cutoff) + SweepTargets(cfg, b, cutoff)
    decreases |b|
  {
    if b != [] {
      var init := b[..|b| - 1];
      assert (a + b)[..|a + b| - 1] == a + init;
      assert (a + b)[|a + b| - 1] == b[|b| - 1];
      SweepTargetsAppend(cfg, a, init, cutoff);
    } else {
      assert a + b == a;
    }
  }

  /** Counting successes over two consecutive stretches of answers. */
  lemma {:induction false} SuccessesSplit(replyAt: nat -> DeleteReply, from: nat, m: nat, n: nat)
    ensures Successes(replyAt, from, m + n) == Successes(replyAt, from, m) + Successes(replyAt, from + m, n)
    decreases n
  {
    if n > 0 {
      SuccessesSplit(replyAt, from, m, n - 1);
    }
  }

  /** The deletes the sweep asks for on one lock listing `codes`. */
  function LockSweepTargets(cfg: CleanupConfig, device: string, codes: seq<ListedCode>, cutoff: Instant): (r: seq<DeleteTarget>)
    ensures |r| <= |codes|
  {
    if codes == [] then []
    else
      var last := codes[|codes| - 1];
      LockSweepTargets(cfg, device, codes[..|codes| - 1], cutoff)
      + (if SweepEligible(cfg, last, cutoff) && last.accessCodeId != [] then [DeleteTarget(last.accessCodeId, device)] else [])
  }

  lemma LockSweepTargetsSnoc(cfg: CleanupConfig, device: string, codes: seq<ListedCode>, cutoff: Instant, i: nat)
    requires i < |codes|
    ensures LockSweepTargets(cfg, device, codes[..i + 1], cutoff)
            == LockSweepTargets(cfg, device, codes[..i], cutoff)
               + (if SweepEligible(cfg, codes[i], cutoff) && codes[i].accessCodeId != []
                  then [DeleteTarget(codes[i].accessCodeId, device)] else [])
  {
    assert codes[..i + 1][..i] == codes[..i];
  }

  /** The sweep of one lock is the sweep over its codes as seen on that lock. */
  lemma {:induction false} LockSweepTargetsSeen(cfg: CleanupConfig, device: string, codes: seq<ListedCode>, cutoff: Instant)
    ensures LockSweepTargets(cfg, device, codes, cutoff) == SweepTargets(cfg, SeenOn(device, codes), cutoff)
    decreases |codes|
  {
    if codes != [] {
      var init := codes[..|codes| - 1];
      LockSweepTargetsSeen(cfg, device, init, cutoff);
      SweepTargetsSnoc(cfg, SeenOn(device, init), Seen(device, codes[|codes| - 1]), cutoff);
    }
  }

  /** The successes counted so far and those of the next stretch of answers add up. */
  lemma SuccessesAccumulate(replyAt: nat -> DeleteReply, from: nat, m: nat, n: nat, mid: nat, total: nat, count: nat, countNext: nat)
    requires mid == from + m && total == m + n
    requires count == Successes(replyAt, from, m) && countNext == Successes(replyAt, mid, n)
    ensures count + countNext == Successes(replyAt, from, total)
  {
    SuccessesSplit(replyAt, from, m, n);
  }

  /** The codes the listing session numbered `session` yields for `device`. */
  function SessionCodes(remote: Remote, session: nat, device: string): seq<ListedCode> {
    Walk(device, remote.listings(session), 0, None).codes
  }

  /** What a sweep records once it has listed the first `|listed|` locks of
      `devices`, the `k`-th yielding the codes `listed[k]`: each lock's codes with
      that lock, lock after lock. */
  function SweepSeen(devices: seq<string>, listed: seq<seq<ListedCode>>): seq<Seen>
    requires |listed| <= |devices|
    decreases |listed|
  {
    if listed == [] then []
    else
      var k := |listed| - 1;
      SweepSeen(devices, listed[..k]) + SeenOn(devices[k], listed[k])
  }

  /** The `k`-th listing of a sweep over `devices` whose sessions are numbered from
      `first` is what that session yields for the `k`-th lock. */
  predicate ListedInOrder(remote: Remote, first: nat, devices: seq<string>, listed: seq<seq<ListedCode>>) {
    |listed| <= |devices|
    && forall k :: 0 <= k < |listed| ==> listed[k] == SessionCodes(remote, first + k, devices[k])
  }

  /** A sweep that listed every lock of `order`, from session `first` on, and recorded
      their codes as `examined`. */
  ghost predicate SweptAll(remote: Remote, first: nat, order: seq<string>, listed: seq<seq<ListedCode>>,
                           examined: seq<Seen>)
  {
    |listed| == |order| && ListedInOrder(remote, first, order, listed) && examined == SweepSeen(order, listed)
  }

  /** Listing the next lock in the next session keeps the listings in order. */
  lemma ListedInOrderExtends(remote: Remote, first: nat, devices: seq<string>, listed: seq<seq<ListedCode>>,
                             codes: seq<ListedCode>)
    requires ListedInOrder(remote, first, devices, listed) && |listed| < |devices|
    requires codes == SessionCodes(remote, first + |listed|, devices[|listed|])
    ensures ListedInOrder(remote, first, devices, listed + [codes])
  {
    var next := listed + [codes];
    forall k | 0 <= k < |next|
      ensures next[k] == SessionCodes(remote, first + k, devices[k])
    {
      if k < |listed| {
        assert next[k] == listed[k];
      }
    }
  }

  /** The inner loop of `cleanup_expired_codes`: the codes of one lock, each counted,
      the eligible ones with an id deleted. */
  method SweepDevice(cfg: CleanupConfig, cutoff: Instant, device: string, codes: seq<ListedCode>, remote: Remote)
    returns (deletedHere: nat)
    modifies remote`deleted
    ensures DeleteLog(cfg.dryRun, remote, old(remote.deleted), LockSweepTargets(cfg, device, codes, cutoff), deletedHere)
  {
    deletedHere := 0;
    ghost var before := remote.deleted;
    ghost var targets: seq<DeleteTarget> := [];
    var i := 0;
    while i < |codes|
      invariant 0 <= i <= |codes|
      invariant targets == LockSweepTargets(cfg, device, codes[..i], cutoff)
      invariant DeleteLog(cfg.dryRun, remote, before, targets, deletedHere)
    {
      LockSweepTargetsSnoc(cfg, device, codes, cutoff, i);
      var c := codes[i];
      if SweepEligible(cfg, c, cutoff) && c.accessCodeId != [] {
        deletedHere := DeleteCounted(remote, DeleteTarget(c.accessCodeId, device), cfg.dryRun, deletedHere, before, targets);
        targets := targets + [DeleteTarget(c.accessCodeId, device)];
      }
      i := i + 1;
    }
    assert codes[..|codes|] == codes;
  }

  /** One lock of `cleanup_expired_codes`: list its codes, count them and sweep them.
      `listedOk` is false where the listing raises for want of an API key;
      `seenHere` is the listing as the sweep records it. */
  method SweepLock(cfg: CleanupConfig, cutoff: Instant, device: string, remote: Remote)
    returns (listedOk: bool, checkedHere: nat, deletedHere: nat, ghost seenHere: seq<Seen>)
    modifies remote`sessions, remote`listed, remote`deleted
    ensures listedOk == remote.apiKeyConfigured
    ensures !listedOk ==> remote.deleted == old(remote.deleted) && checkedHere == 0 && deletedHere == 0 && seenHere == []
    ensures !listedOk ==> remote.sessions == old(remote.sessions)
    ensures listedOk ==>
              seenHere == SeenOn(device, SessionCodes(remote, old(remote.sessions), device))
              && remote.sessions == old(remote.sessions) + 1
    ensures |seenHere| == checkedHere
    ensures forall e :: e in seenHere ==> e.device == device
    ensures DeleteLog(cfg.dryRun, remote, old(remote.deleted), SweepTargets(cfg, seenHere, cutoff), deletedHere)
  {
    var listed := remote.ListAccessCodes(device);
    if listed.None? {
      return false, 0, 0, [];
    }
    var codes := listed.value;
    seenHere := SeenOn(device, codes);
    deletedHere := SweepDevice(cfg, cutoff, device, codes, remote);
    LockSweepTargetsSeen(cfg, device, codes, cutoff);
    SeenOnDevice(device, codes);
    return true, |codes|, deletedHere, seenHere;
  }

  /** One turn of the loop of `cleanup_expired_codes`: the sweep of the `d`-th lock
      added to the counts and to the record of the locks before it, whose listing
      sessions were numbered from `first`. */
  method SweepNext(cfg: CleanupConfig, cutoff: Instant, devices: seq<string>, d: nat, remote: Remote,
                   checked: nat, deletedCount: nat, ghost examined: seq<Seen>, ghost before: seq<DeleteTarget>,
                   ghost first: nat, ghost listed: seq<seq<ListedCode>>)
    returns (listedOk: bool, checkedNext: nat, deletedNext: nat, ghost examinedNext: seq<Seen>,
             ghost listedNext: seq<seq<ListedCode>>)
    modifies remote`sessions, remote`listed, remote`deleted
    requires d == |listed| < |devices|
    requires ListedInOrder(remote, first, devices, listed) && remote.sessions == first + d
    requires |examined| == checked
    requires examined == SweepSeen(devices, listed)
    requires DeleteLog(cfg.dryRun, remote, before, SweepTargets(cfg, examined, cutoff), deletedCount)
    ensures listedOk == remote.apiKeyConfigured
    ensures !listedOk ==>
              remote.sessions == old(remote.sessions) && remote.deleted == old(remote.deleted)
              && checkedNext == checked && deletedNext == deletedCount && examinedNext == examined
              && listedNext == listed
    ensures listedOk ==>
              |listedNext| == d + 1 && ListedInOrder(remote, first, devices, listedNext)
              && examinedNext == SweepSeen(devices, listedNext)
              && remote.sessions == old(remote.sessions) + 1
    ensures |examinedNext| == checkedNext
    ensures forall e :: e in examinedNext ==> e in examined || e.device == devices[d]
    ensures DeleteLog(cfg.dryRun, remote, before, SweepTargets(cfg, examinedNext, cutoff), deletedNext)
  {
    var device := devices[d];
    ghost var middle := remote.deleted;
    var checkedHere, deletedHere;
    ghost var seenHere;
    listedOk, checkedHere, deletedHere, seenHere := SweepLock(cfg, cutoff, device, remote);
    if !listedOk {
      return false, checked, deletedCount, examined, listed;
    }
    listedNext := listed + [SessionCodes(remote, old(remote.sessions), device)];
    ListedInOrderExtends(remote, first, devices, listed, SessionCodes(remote, old(remote.sessions), device));
    assert listedNext[..d] == listed;
    SweepTargetsAppend(cfg, examined, seenHere, cutoff);
    DeleteLogAccumulates(cfg.dryRun, remote.apiKeyConfigured, remote.deleteReplyAt, before, middle, remote.deleted,
                         SweepTargets(cfg, examined, cutoff), SweepTargets(cfg, seenHere, cutoff), deletedCount, deletedHere);
    checkedNext := checked + checkedHere;
    deletedNext := deletedCount + deletedHere;
    examinedNext := examined + seenHere;
  }

  /** The loop of `cleanup_expired_codes` over the lock ids, in order: `ok` is false
      when a listing raised, which ends the sweep. */
  method SweepLocks(cfg: CleanupConfig, cutoff: Instant, devices: seq<string>, remote: Remote)
    returns (ok: bool, checked: nat, deletedCount: nat, ghost examined: seq<Seen>, ghost listed: seq<seq<ListedCode>>)
    modifies remote`sessions, remote`listed, remote`deleted
    ensures !ok ==> !remote.apiKeyConfigured && devices != []
    ensures ok <==> remote.apiKeyConfigured || devices == []
    ensures ok ==> SweptAll(remote, old(remote.sessions), devices, listed, examined)
                   && remote.sessions == old(remote.sessions) + |devices|
    ensures !remote.apiKeyConfigured ==> checked == 0
    ensures |examined| == checked
    ensures forall e :: e in examined ==> e.device in devices
    ensures DeleteLog(cfg.dryRun, remote, old(remote.deleted), SweepTargets(cfg, examined, cutoff), deletedCount)
  {
    checked, deletedCount, examined, listed := 0, 0, [], [];
    var d := 0;
    while d < |devices|
      invariant 0 <= d <= |devices| && |listed| == d
      invariant remote.sessions == old(remote.sessions) + d
      invariant ListedInOrder(remote, old(remote.sessions), devices, listed)
      invariant examined == SweepSeen(devices, listed)
      invariant !remote.apiKeyConfigured ==> d == 0
      invariant |examined| == checked
      invariant forall e :: e in examined ==> e.device in devices
      invariant DeleteLog(cfg.dryRun, remote, old(remote.deleted), SweepTargets(cfg, examined, cutoff), deletedCount)
    {
      var listedOk;
      listedOk, checked, deletedCount, examined, listed :=
        SweepNext(cfg, cutoff, devices, d, remote, checked, deletedCount, examined, old(remote.deleted),
                  old(remote.sessions), listed);
      if !listedOk {
        return false, checked, deletedCount, examined, listed;
      }
      d := d + 1;
    }
    ok := true;
  }

  /** The answer and the deletes of `cleanup_expired_codes` with the cutoff `cutoff`,
      whose listing sessions are numbered from `first` and whose delete log goes from
      `before` to `after`: the locks are the mapped ones in increasing order, each
      listed once; the codes recorded are their listings' codes, counted, and the
      deletes those `SweepTargets` asks for. Without an API key the first listing
      raises, unless no lock is mapped. An unknown default zone raises before any
      lock is listed. */
  ghost predicate SweepOutcome(cfg: CleanupConfig, cutoff: Instant, remote: Remote, first: nat,
                               before: seq<DeleteTarget>, after: seq<DeleteTarget>, resp: Response,
                               order: seq<string>, listed: seq<seq<ListedCode>>, examined: seq<Seen>,
                               checked: nat, deletedCount: nat)
  {
    if cfg.defaultTimezone !in cfg.knownZones then
      && resp == Raised("ZoneInfoNotFoundError") && after == before
      && order == [] && listed == [] && examined == [] && checked == 0 && deletedCount == 0
    else
    && StrictlySorted(order) && (forall x :: x in order <==> x in Devices(cfg))
    && |examined| == checked
    && DeleteLogOf(cfg.dryRun, remote.apiKeyConfigured, remote.deleteReplyAt, after, before,
                   SweepTargets(cfg, examined, cutoff), deletedCount)
    && if remote.apiKeyConfigured || order == [] then
         && resp == Response(200, SweepBody(checked, deletedCount))
         && SweptAll(remote, first, order, listed, examined)
       else
         resp == Raised("Missing SEAM_API_KEY") && examined == [] && checked == 0 && deletedCount == 0
  }

  /** `cleanup_expired_codes()` at the local time `now`: the default zone is looked up
      first, and an unknown one raises before anything is listed; then every code of every mapped
      lock, in the order of the sorted device ids, is counted, and the eligible ones
      with an id are deleted. `order` is the order of the locks, `listed` what their
      listings yield and `examined` every code counted, with its device. */
  method CleanupExpiredCodes(cfg: CleanupConfig, now: Instant, remote: Remote)
    returns (resp: Response, checked: nat, deletedCount: nat, ghost order: seq<string>,
             ghost listed: seq<seq<ListedCode>>, ghost examined: seq<Seen>)
    modifies remote`sessions, remote`listed, remote`deleted
    ensures resp.Response? || resp.Raised?
    ensures resp.Response? ==> resp == Response(200, SweepBody(checked, deletedCount))
    ensures cfg.defaultTimezone !in cfg.knownZones ==>
              resp == Raised("ZoneInfoNotFoundError") && checked == 0 && deletedCount == 0
              && remote.sessions == old(remote.sessions) && remote.listed == old(remote.listed)
              && remote.deleted == old(remote.deleted)
    ensures resp.Raised? && cfg.defaultTimezone in cfg.knownZones ==>
              resp == Raised("Missing SEAM_API_KEY") && !remote.apiKeyConfigured && Devices(cfg) != {}
    ensures !remote.apiKeyConfigured ==> checked == 0 && deletedCount == 0
    ensures |examined| == checked && deletedCount <= checked
    ensures forall e :: e in examined ==> e.device in Devices(cfg)
    ensures cfg.dryRun || !remote.apiKeyConfigured ==> remote.deleted == old(remote.deleted)
    ensures DeleteLog(cfg.dryRun, remote, old(remote.deleted), SweepTargets(cfg, examined, now - cfg.graceMinutes), deletedCount)
    ensures SweepOutcome(cfg, now - cfg.graceMinutes, remote, old(remote.sessions), old(remote.deleted), remote.deleted,
                         resp, order, listed, examined, checked, deletedCount)
  {
    if cfg.defaultTimezone !in cfg.knownZones {
      return Raised("ZoneInfoNotFoundError"), 0, 0, [], [], [];
    }
    var cutoff := now - cfg.graceMinutes;
    var devices := SortedDistinct(Devices(cfg));
    order := devices;
    var ok;
    ok, checked, deletedCount, examined, listed := SweepLocks(cfg, cutoff, devices, remote);
    DeleteLogBound(cfg.dryRun, remote, old(remote.deleted), SweepTargets(cfg, examined, cutoff), deletedCount);
    if !ok {
      return Raised("Missing SEAM_API_KEY"), checked, deletedCount, order, listed, examined;
    }
    resp := Response(200, SweepBody(checked, deletedCount));
  }

  /** What `lambda_handler` does with a decoded event. */
  datatype Route = RunCleanup | RunCancel(booking: Booking) | RunBatch(items: seq<Booking>) | RejectPayload

  /** The decoded event: an object (its `mode` and `source` members, "" when absent,
      and the booking it describes), a list of booking objects, or anything else. */
  datatype CancelEvent =
    | ObjectEvent(mode: string, source: string, booking: Booking)
    | ListEvent(items: seq<Booking>)
    | OtherEvent

  /** The dispatch of `lambda_handler`: an explicit `mode` wins, then a scheduler
      `source`, then the shape of the payload. */
  function RouteOf(ev: CancelEvent): (r: Route)
    ensures ev.OtherEvent? <==> r.RejectPayload?
    ensures ev.ListEvent? <==> r.RunBatch?
    ensures r.RunCancel? ==> ev.ObjectEvent? && r.booking == ev.booking
  {
    match ev
    case ObjectEvent(mode, source, booking) =>
      var m := Lower(Trim(mode));
      if m == "cleanup" then RunCleanup
      else if m == "cancel" then RunCancel(booking)
      else if source == "aws.events" then RunCleanup
      else RunCancel(booking)
    case ListEvent(items) => RunBatch(items)
    case OtherEvent => RejectPayload
  }

  /** An explicit cancel mode is honoured even on a scheduler event, and a scheduler
      event with no mode runs the sweep. */
  lemma ModeWinsOverSource(mode: string, b: Booking)
    requires Lower(Trim(mode)) == "cancel"
    ensures RouteOf(ObjectEvent(mode, "aws.events", b)) == RunCancel(b)
    ensures RouteOf(ObjectEvent("", "aws.events", b)) == RunCleanup
  {
  }

  /** The answer and the deletes of `_process_payload` of the cancel lambda: a
      cancellation is handled as `delete_codes_for_cancellation` handles it, anything
      else is skipped. */
  ghost predicate PayloadOutcome(cfg: CleanupConfig, b: Booking, remote: Remote, rec: Option<Record>, codes: seq<ListedCode>,
                                 before: seq<DeleteTarget>, after: seq<DeleteTarget>, resp: Response, count: nat)
  {
    if IsCancellationEvent(cfg, b.status, b.action) then CancelOutcome(cfg, b, remote, rec, codes, before, after, resp, count)
    else resp == Response(200, "Skipped: not a cancellation event") && after == before && count == 0
  }

  /** `_process_payload(data)` of the cancel lambda. */
  method ProcessPayload(cfg: CleanupConfig, b: Booking, remote: Remote, store: IdempotencyStore)
    returns (resp: Response, ghost deletedCount: nat)
    modifies remote`sessions, remote`listed, remote`deleted, store
    ensures resp.Response? || resp.Raised?
    ensures !IsCancellationEvent(cfg, b.status, b.action) ==>
              resp == Response(200, "Skipped: not a cancellation event")
              && remote.deleted == old(remote.deleted) && store.records == old(store.records)
    ensures PayloadOutcome(cfg, b, remote, old(store.Get(b.bookingId)), old(remote.NextListing(MappedDevice(cfg, b.propertyId))).codes,
                           old(remote.deleted), remote.deleted, resp, deletedCount)
    ensures store.records == RecordsAfter(store.enabled, old(store.records), b, resp, deletedCount)
    ensures old(store.Valid()) ==> store.Valid()
    ensures cfg.dryRun ==> remote.deleted == old(remote.deleted)
  {
    if !IsCancellationEvent(cfg, b.status, b.action) {
      return Response(200, "Skipped: not a cancellation event"), 0;
    }
    resp, deletedCount := DeleteCodesForCancellation(cfg, b, remote, store);
  }

  /** One booking of a list as the cancel lambda handled it: the record stored for it
      when its turn came, the codes its lock's listing yields, its answer and the
      count that answer reports. */
  datatype BatchStep = BatchStep(rec: Option<Record>, codes: seq<ListedCode>, answer: Response, count: nat)

  /** One booking `b` of a list handled as `_process_payload` handles it: it reads its
      record from `table`, takes the delete log from `before` to `after` and leaves
      `tableAfter` behind. */
  ghost predicate StepOk(cfg: CleanupConfig, b: Booking, remote: Remote, enabled: bool, step: BatchStep,
                         before: seq<DeleteTarget>, after: seq<DeleteTarget>,
                         table: map<string, Record>, tableAfter: map<string, Record>)
  {
    && step.rec == Lookup(enabled, table, b.bookingId)
    && PayloadOutcome(cfg, b, remote, step.rec, step.codes, before, after, step.answer, step.count)
    && tableAfter == RecordsAfter(enabled, table, b, step.answer, step.count)
  }

  /** The bookings of a list handled in order: the `i`-th takes the delete log from
      `logs[i]` to `logs[i + 1]` and the table from `tables[i]` to `tables[i + 1]`
      (stated on the last step, the earlier ones forming a chain themselves). */
  ghost predicate StepsChain(cfg: CleanupConfig, items: seq<Booking>, remote: Remote, enabled: bool, steps: seq<BatchStep>,
                             logs: seq<seq<DeleteTarget>>, tables: seq<map<string, Record>>)
    decreases |steps|
  {
    && |steps| <= |items| && |logs| == |tables| == |steps| + 1
    && (|steps| > 0 ==>
          var n := |steps| - 1;
          && StepsChain(cfg, items, remote, enabled, steps[..n], logs[..n + 1], tables[..n + 1])
          && StepOk(cfg, items[n], remote, enabled, steps[n], logs[n], logs[n + 1], tables[n], tables[n + 1]))
  }

  /** Every step of a chain is a booking handled as `_process_payload` handles it. */
  lemma {:induction false} StepsChainAt(cfg: CleanupConfig, items: seq<Booking>, remote: Remote, enabled: bool,
                                        steps: seq<BatchStep>, logs: seq<seq<DeleteTarget>>,
                                        tables: seq<map<string, Record>>, i: nat)
    requires StepsChain(cfg, items, remote, enabled, steps, logs, tables) && i < |steps|
    ensures StepOk(cfg, items[i], remote, enabled, steps[i], logs[i], logs[i + 1], tables[i], tables[i + 1])
    decreases |steps|
  {
    var n := |steps| - 1;
    if i < n {
      var stepsBefore, logsBefore, tablesBefore := steps[..n], logs[..n + 1], tables[..n + 1];
      assert stepsBefore[i] == steps[i] && logsBefore[i] == logs[i] && logsBefore[i + 1] == logs[i + 1];
      assert tablesBefore[i] == tables[i] && tablesBefore[i + 1] == tables[i + 1];
      StepsChainAt(cfg, items, remote, enabled, stepsBefore, logsBefore, tablesBefore, i);
    }
  }

  /** Handling the next booking of the list extends the chain by one step. */
  lemma StepsChainExtends(cfg: CleanupConfig, items: seq<Booking>, remote: Remote, enabled: bool, steps: seq<BatchStep>,
                          logs: seq<seq<DeleteTarget>>, tables: seq<map<string, Record>>,
                          step: BatchStep, log: seq<DeleteTarget>, table: map<string, Record>)
    requires StepsChain(cfg, items, remote, enabled, steps, logs, tables) && |steps| < |items|
    requires StepOk(cfg, items[|steps|], remote, enabled, step, logs[|steps|], log, tables[|steps|], table)
    ensures StepsChain(cfg, items, remote, enabled, steps + [step], logs + [log], tables + [table])
    ensures (logs + [log])[0] == logs[0] && (tables + [table])[0] == tables[0]
  {
    var steps', logs', tables' := steps + [step], logs + [log], tables + [table];
    var n := |steps|;
    assert steps'[..n] == steps && logs'[..n + 1] == logs && tables'[..n + 1] == tables;
    assert steps'[n] == step && logs'[n] == logs[n] && logs'[n + 1] == log;
    assert tables'[n] == tables[n] && tables'[n + 1] == table;
  }

  /** One turn of the list loop of `lambda_handler`: the `|steps|`-th booking handled by
      `_process_payload`, its step appended to the chain. */
  method BatchNext(cfg: CleanupConfig, items: seq<Booking>, remote: Remote, store: IdempotencyStore, i: nat,
                   ghost steps: seq<BatchStep>, ghost logs: seq<seq<DeleteTarget>>, ghost tables: seq<map<string, Record>>)
    returns (r: Response, ghost stepsNext: seq<BatchStep>, ghost logsNext: seq<seq<DeleteTarget>>,
             ghost tablesNext: seq<map<string, Record>>)
    requires i == |steps| < |items| && StepsChain(cfg, items, remote, store.enabled, steps, logs, tables)
    requires logs[|steps|] == remote.deleted && tables[|steps|] == store.records
    modifies remote`sessions, remote`listed, remote`deleted, store
    ensures r.Response? || r.Raised?
    ensures StepsChain(cfg, items, remote, store.enabled, stepsNext, logsNext, tablesNext)
    ensures |stepsNext| == |steps| + 1 && stepsNext[..|steps|] == steps && stepsNext[|steps|].answer == r
    ensures logsNext[0] == logs[0] && logsNext[|steps| + 1] == remote.deleted
    ensures tablesNext[0] == tables[0] && tablesNext[|steps| + 1] == store.records
    ensures cfg.dryRun ==> remote.deleted == old(remote.deleted)
    ensures old(store.Valid()) ==> store.Valid()
  {
    var b := items[i];
    ghost var rec := store.Get(b.bookingId);
    ghost var codes := remote.NextListing(MappedDevice(cfg, b.propertyId)).codes;
    ghost var count;
    r, count := ProcessPayload(cfg, b, remote, store);
    ghost var step := BatchStep(rec, codes, r, count);
    StepsChainExtends(cfg, items, remote, store.enabled, steps, logs, tables, step, remote.deleted, store.records);
    stepsNext, logsNext, tablesNext := steps + [step], logs + [remote.deleted], tables + [store.records];
    assert stepsNext[..|steps|] == steps;
  }

  /** The list branch of `lambda_handler`: every item in order, each answered as
      `_process_payload` answers it; an exception raised by one item ends the whole
      invocation with that exception. */
  method ProcessBatch(cfg: CleanupConfig, items: seq<Booking>, remote: Remote, store: IdempotencyStore)
    returns (resp: Response, ghost steps: seq<BatchStep>, ghost logs: seq<seq<DeleteTarget>>,
             ghost tables: seq<map<string, Record>>)
    modifies remote`sessions, remote`listed, remote`deleted, store
    ensures resp.BatchResponse? || resp.Raised?
    ensures StepsChain(cfg, items, remote, store.enabled, steps, logs, tables)
    ensures logs[0] == old(remote.deleted) && logs[|steps|] == remote.deleted
    ensures tables[0] == old(store.records) && tables[|steps|] == store.records
    ensures resp.BatchResponse? ==>
              && |resp.items| == |items| == |steps|
              && (forall i :: 0 <= i < |items| ==> resp.items[i] == steps[i].answer && !resp.items[i].Raised?)
              && resp.statusCode == AggregateStatus(resp.items)
    ensures resp.Raised? ==> 0 < |steps| && steps[|steps| - 1].answer == resp
    ensures cfg.dryRun ==> remote.deleted == old(remote.deleted)
    ensures old(store.Valid()) ==> store.Valid()
  {
    var results: seq<Response> := [];
    steps, logs, tables := [], [remote.deleted], [store.records];
    var i := 0;
    while i < |items|
      invariant 0 <= i <= |items| && |results| == i == |steps|
      invariant forall j :: 0 <= j < i ==> results[j] == steps[j].answer && results[j].Response?
      invariant StepsChain(cfg, items, remote, store.enabled, steps, logs, tables)
      invariant logs[0] == old(remote.deleted) && logs[i] == remote.deleted
      invariant tables[0] == old(store.records) && tables[i] == store.records
      invariant cfg.dryRun ==> remote.deleted == old(remote.deleted)
      invariant old(store.Valid()) ==> store.Valid()
    {
      var r;
      ghost var steps0 := steps;
      r, steps, logs, tables := BatchNext(cfg, items, remote, store, i, steps, logs, tables);
      if r.Raised? {
        return r, steps, logs, tables;
      }
      assert forall j :: 0 <= j < i ==> steps[j] == steps0[j];
      results := results + [r];
      i := i + 1;
    }
    return BatchResponse(AggregateStatus(results), results), steps, logs, tables;
  }

  /** What `lambda_handler` records of a run: the sweep's lock order, listings, codes
      and counts; the count a cancellation reports; or the steps of a list. */
  datatype Trace =
    | NoTrace
    | SweepTrace(order: seq<string>, listed: seq<seq<ListedCode>>, examined: seq<Seen>, checked: nat, deleted: nat)
    | CancelTrace(count: nat)
    | BatchTrace(steps: seq<BatchStep>, logs: seq<seq<DeleteTarget>>, tables: seq<map<string, Record>>)

  /** `lambda_handler(event, context)` of the cancel lambda, at local time `now`: the
      route decides between the sweep, one payload and a list. */
  method HandleEvent(cfg: CleanupConfig, ev: CancelEvent, now: Instant, remote: Remote, store: IdempotencyStore)
    returns (resp: Response, ghost trace: Trace)
    modifies remote`sessions, remote`listed, remote`deleted, store
    ensures RouteOf(ev).RejectPayload? ==>
              resp == Response(400, "Invalid payload.") && remote.deleted == old(remote.deleted)
              && store.records == old(store.records)
    ensures RouteOf(ev).RunCleanup? ==>
              && trace.SweepTrace? && store.records == old(store.records)
              && SweepOutcome(cfg, now - cfg.graceMinutes, remote, old(remote.sessions), old(remote.deleted), remote.deleted,
                              resp, trace.order, trace.listed, trace.examined, trace.checked, trace.deleted)
    ensures RouteOf(ev).RunCancel? ==>
              var b := RouteOf(ev).booking;
              && trace.CancelTrace?
              && PayloadOutcome(cfg, b, remote, old(store.Get(b.bookingId)), old(remote.NextListing(MappedDevice(cfg, b.propertyId))).codes,
                                old(remote.deleted), remote.deleted, resp, trace.count)
              && store.records == RecordsAfter(store.enabled, old(store.records), b, resp, trace.count)
    ensures RouteOf(ev).RunBatch? ==> resp.BatchResponse? || resp.Raised?
    ensures RouteOf(ev).RunBatch? ==>
              && trace.BatchTrace?
              && StepsChain(cfg, ev.items, remote, store.enabled, trace.steps, trace.logs, trace.tables)
              && trace.logs[0] == old(remote.deleted) && trace.logs[|trace.steps|] == remote.deleted
              && trace.tables[0] == old(store.records) && trace.tables[|trace.steps|] == store.records
              && (resp.Raised? ==> 0 < |trace.steps| && trace.steps[|trace.steps| - 1].answer == resp)
    ensures resp.BatchResponse? ==>
              RouteOf(ev).RunBatch? && |resp.items| == |ev.items|
              && (forall i :: 0 <= i < |resp.items| ==> !resp.items[i].Raised?)
              && resp.statusCode == AggregateStatus(resp.items)
              && trace.BatchTrace? && |trace.steps| == |resp.items|
              && (forall i :: 0 <= i < |resp.items| ==> resp.items[i] == trace.steps[i].answer)
    ensures cfg.dryRun ==> remote.deleted == old(remote.deleted)
    ensures old(store.Valid()) ==> store.Valid()
  {
    match RouteOf(ev)
    case RejectPayload =>
      return Response(400, "Invalid payload."), NoTrace;
    case RunCleanup =>
      var checked, deleted;
      ghost var order, listed, examined;
      resp, checked, deleted, order, listed, examined := CleanupExpiredCodes(cfg, now, remote);
      trace := SweepTrace(order, listed, examined, checked, deleted);
    case RunCancel(booking) =>
      ghost var count;
      resp, count := ProcessPayload(cfg, booking, remote, store);
      trace := CancelTrace(count);
    case RunBatch(items) =>
      ghost var steps, logs, tables;
      resp, steps, logs, tables := ProcessBatch(cfg, items, remote, store);
      trace := BatchTrace(steps, logs, tables);
  }
}

=== FILE: common.dfy ===
/** Failure-carrying wrappers and sequence facts shared by every module of the model. */
module Common {

  /** A value that may be absent: Python's `None` next to a value. */
  datatype Option<+T> = None | Some(value: T) {
    function GetOr(default: T): T {
      match this
      case Some(v) => v
      case None => default
    }
  }

  /** Either a value or the message of the error the source reports instead. */
  datatype Result<+T> = Success(value: T) | Failure(error: string)

  /** Concatenation regroups freely; stated once so that proofs about logs that grow
      step by step need not rediscover it. */
  lemma AppendAssociates<T>(a: seq<T>, b: seq<T>, c: seq<T>)
    ensures a + (b + c) == (a + b) + c
  {
  }

  /** `f` applied to every element, in order. */
  function MapSeq<A, B>(xs: seq<A>, f: A --> B): (r: seq<B>)
    requires forall i :: 0 <= i < |xs| ==> f.requires(xs[i])
    ensures |r| == |xs|
  {
    if xs == [] then []
    else
      var init := xs[..|xs| - 1];
      assert forall i :: 0 <= i < |init| ==> init[i] == xs[i];
      MapSeq(init, f) + [f(xs[|xs| - 1])]
  }

  /** The element at a position is `f` of the element there. */
  lemma {:induction false} MapSeqAt<A, B>(xs: seq<A>, f: A --> B, i: nat)
    requires forall k :: 0 <= k < |xs| ==> f.requires(xs[k])
    requires i < |xs|
    ensures MapSeq(xs, f)[i] == f(xs[i])
  {
    var init := xs[..|xs| - 1];
    if i < |init| {
      assert forall k :: 0 <= k < |init| ==> init[k] == xs[k];
      MapSeqAt(init, f, i);
    }
  }
}

=== FILE: dates.dfy ===
/**
 * Proleptic Gregorian calendar dates as Python's `datetime.date` has them, the
 * `_parse_date` helper that both calendar scripts carry, and `date.isoformat()`.
 */
module Dates {
  import opened Common
  import opened Strings

  datatype Date = Date(year: int, month: int, day: int)

  predicate IsLeapYear(y: int) {
    y % 4 == 0 && (y % 100 != 0 || y % 400 == 0)
  }

  function DaysInMonth(y: int, m: int): (n: int)
    requires 1 <= m <= 12
    ensures 28 <= n <= 31
    ensures n == 29 <==> m == 2 && IsLeapYear(y)
  {
    if m == 2 then (if IsLeapYear(y) then 29 else 28)
    else if m == 4 || m == 6 || m == 9 || m == 11 then 30
    else 31
  }

  /** A day that exists in the calendar (year 1 or later). */
  predicate IsCalendarDate(d: Date) {
    1 <= d.year && 1 <= d.month <= 12 && 1 <= d.day <= DaysInMonth(d.year, d.month)
  }

  /** A day Python's `date` can hold: years 1 through 9999. */
  predicate ValidDate(d: Date) {
    IsCalendarDate(d) && d.year <= 9999
  }

  /** `a < b` on dates. */
  predicate Before(a: Date, b: Date) {
    a.year < b.year
    || (a.year == b.year && a.month < b.month)
    || (a.year == b.year && a.month == b.month && a.day < b.day)
  }

  /** `a <= b` on dates. */
  predicate OnOrBefore(a: Date, b: Date) {
    a == b || Before(a, b)
  }

  function Max(a: Date, b: Date): Date { if Before(a, b) then b else a }

  function Min(a: Date, b: Date): Date { if Before(b, a) then b else a }

  /** `d + timedelta(days=1)`. */
  function NextDay(d: Date): (r: Date)
    requires IsCalendarDate(d)
    ensures IsCalendarDate(r) && Before(d, r)
  {
    if d.day < DaysInMonth(d.year, d.month) then Date(d.year, d.month, d.day + 1)
    else if d.month < 12 then Date(d.year, d.month + 1, 1)
    else Date(d.year + 1, 1, 1)
  }

  /** `d - timedelta(days=1)`; the first day of year 1 has no predecessor. */
  function PrevDay(d: Date): (r: Date)
    requires IsCalendarDate(d) && d != Date(1, 1, 1)
    ensures IsCalendarDate(r) && Before(r, d)
  {
    if d.day > 1 then Date(d.year, d.month, d.day - 1)
    else if d.month > 1 then Date(d.year, d.month - 1, DaysInMonth(d.year, d.month - 1))
    else Date(d.year - 1, 12, 31)
  }

  /** No calendar date lies strictly between a date and the next one. */
  lemma NextDayIsAdjacent(d: Date, e: Date)
    requires IsCalendarDate(d) && IsCalendarDate(e)
    ensures Before(d, e) <==> OnOrBefore(NextDay(d), e)
  {
  }

  /** Stepping back a day and forward again returns to the same day. */
  lemma NextOfPrevDay(d: Date)
    requires IsCalendarDate(d) && d != Date(1, 1, 1)
    ensures NextDay(PrevDay(d)) == d
  {
  }

  /** The outcome of `_parse_date`: a date, `None`, or the `ValueError` that
      `date(y, m, d)` raises on an impossible eight-digit value. */
  datatype DateParse = Parsed(date: Date) | Unparsable | RaisesValueError

  function DigitValue(c: char): nat
    requires IsDigit(c)
  {
    c as int - '0' as int
  }

  /** The `YYYY-MM-DD` form of `datetime.fromisoformat`, reduced to its date. */
  function ParseIsoDate(v: string): (r: Option<Date>)
    ensures r.Some? ==> ValidDate(r.value)
  {
    if |v| == 10 && v[4] == '-' && v[7] == '-'
       && AllDigits(v[..4]) && AllDigits(v[5..7]) && AllDigits(v[8..])
    then
      var d := Date(DecimalValue(v[..4]), DecimalValue(v[5..7]), DecimalValue(v[8..]));
      if ValidDate(d) then Some(d) else None
    else None
  }

  /** `_parse_date(value)`: strip; eight ASCII digits are read as `YYYYMMDD` with no
      guard against an impossible month or day; otherwise the ISO date form. */
  function ParseDate(value: Option<string>): (r: DateParse)
    ensures r.Parsed? ==> ValidDate(r.date)
    ensures value.None? || value.value == [] ==> r == Unparsable
  {
    if value.None? || value.value == [] then Unparsable
    else
      var v := Trim(value.value);
      if |v| == 8 && AllDigits(v) then
        var d := Date(DecimalValue(v[..4]), DecimalValue(v[4..6]), DecimalValue(v[6..]));
        if ValidDate(d) then Parsed(d) else RaisesValueError
      else
        match ParseIsoDate(v)
        case Some(d) => Parsed(d)
        case None => Unparsable
  }

  function Pad2(n: nat): (r: string)
    requires n < 100
    ensures |r| == 2 && AllDigits(r)
  {
    [DigitChar(n / 10), DigitChar(n % 10)]
  }

  function Pad4(n: nat): (r: string)
    requires n < 10000
    ensures |r| == 4 && AllDigits(r)
  {
    [DigitChar(n / 1000), DigitChar(n / 100 % 10), DigitChar(n / 10 % 10), DigitChar(n % 10)]
  }

  lemma Pad2Value(n: nat)
    requires n < 100
    ensures DecimalValue(Pad2(n)) == n
  {
    var s := Pad2(n);
    assert s[..1] == [DigitChar(n / 10)];
    assert s[..1][..0] == [];
    assert DecimalValue(s[..1]) == n / 10;
  }

  lemma Pad4Value(n: nat)
    requires n < 10000
    ensures DecimalValue(Pad4(n)) == n
  {
    var s := Pad4(n);
    assert s[..1] == [DigitChar(n / 1000)];
    assert s[..1][..0] == [];
    assert DecimalValue(s[..1]) == n / 1000;
    assert s[..2][..1] == s[..1];
    assert DecimalValue(s[..2]) == n / 100;
    assert s[..3][..2] == s[..2];
    assert DecimalValue(s[..3]) == n / 10;
    assert s[..4][..3] == s[..3];
  }

  /** `d.isoformat()`: `YYYY-MM-DD`. */
  function IsoFormat(d: Date): (r: string)
    requires ValidDate(d)
    ensures |r| == 10
  {
    Pad4(d.year) + "-" + Pad2(d.month) + "-" + Pad2(d.day)
  }

  /** The compact `YYYYMMDD` form that calendar feeds use for all-day dates. */
  function BasicFormat(d: Date): (r: string)
    requires ValidDate(d)
    ensures |r| == 8
  {
    Pad4(d.year) + Pad2(d.month) + Pad2(d.day)
  }

  lemma NoSpaceInDigits(s: string)
    requires AllDigits(s) && s != []
    ensures Trim(s) == s
  {
    TrimOfTrimmed(s);
  }

  /** Reading back the ISO form of a date gives the date: the calendar builder stores
      event dates with `isoformat()` and re-reads them with `_parse_date`. */
  lemma {:induction false} IsoFormatRoundTrip(d: Date)
    requires ValidDate(d)
    ensures ParseDate(Some(IsoFormat(d))) == Parsed(d)
  {
    var s := IsoFormat(d);
    assert s[0] == DigitChar(d.year / 1000);
    assert !IsSpace(s[0]) && !IsSpace(s[|s| - 1]);
    TrimOfTrimmed(s);
    assert s[..4] == Pad4(d.year);
    assert s[5..7] == Pad2(d.month);
    assert s[8..] == Pad2(d.day);
    Pad4Value(d.year);
    Pad2Value(d.month);
    Pad2Value(d.day);
  }

  /** Reading back the compact form of a date gives the date. */
  lemma {:induction false} BasicFormatRoundTrip(d: Date)
    requires ValidDate(d)
    ensures ParseDate(Some(BasicFormat(d))) == Parsed(d)
  {
    var s := BasicFormat(d);
    assert AllDigits(s);
    NoSpaceInDigits(s);
    assert s[..4] == Pad4(d.year);
    assert s[4..6] == Pad2(d.month);
    assert s[6..] == Pad2(d.day);
    Pad4Value(d.year);
    Pad2Value(d.month);
    Pad2Value(d.day);
  }

  /** Eight digits that name no calendar day are not caught: `_parse_date` raises. */
  lemma {:induction false} ImpossibleCompactDateRaises(y: nat, m: nat, d: nat)
    requires y < 10000 && m < 100 && d < 100 && !ValidDate(Date(y, m, d))
    ensures ParseDate(Some(Pad4(y) + Pad2(m) + Pad2(d))) == RaisesValueError
  {
    var s := Pad4(y) + Pad2(m) + Pad2(d);
    assert AllDigits(s);
    NoSpaceInDigits(s);
    assert s[..4] == Pad4(y);
    assert s[4..6] == Pad2(m);
    assert s[6..] == Pad2(d);
    Pad4Value(y);
    Pad2Value(m);
    Pad2Value(d);
  }
}

=== FILE: gateway.dfy ===
/**
 * The smart-lock service as the lambdas see it: the paginated listing of a
 * device's access codes (`_list_access_codes`, `_extract_codes_from_response`),
 * code creation and code deletion. The network is replaced by a `Remote` object
 * whose answers are fixed in advance, position by position, and which records
 * every request sent, so that contracts can say which requests an operation
 * makes and in what order.
 */
module Gateway {
  import opened Common
  import opened Strings
  import opened AccessCodes

  /** One entry of a listing: its code value, its parsed window (`None` where the
      timestamp is missing or does not parse), its id ("" when absent), the
      `is_managed` flag and the `type` field. */
  datatype ListedCode = ListedCode(
    code: string,
    startsAt: Option<Instant>,
    endsAt: Option<Instant>,
    accessCodeId: string,
    isManaged: Option<bool>,
    codeType: Option<string>)

  /** The `pagination` member of a listing answer. */
  datatype PaginationField =
    | NoPagination
    | PaginationObject(hasNextPage: bool, nextPageCursor: string)
    | PaginationNotObject

  /** A listing answer's JSON: a bare array, an object (with an `access_codes`
      member, a `data` member that is an array, and a `pagination` member, each
      possibly absent), or any other JSON value. */
  datatype ListBody =
    | CodesArray(items: seq<ListedCode>)
    | CodesObject(accessCodes: Option<seq<ListedCode>>, data: Option<seq<ListedCode>>, pagination: PaginationField)
    | OtherJson

  /** A listing answer: the status and the JSON body (`None` when the body is not JSON). */
  datatype ListReply = ListReply(status: int, body: Option<ListBody>)

  /** The service's answers to one page request: to the POST, and to the GET that is
      sent instead when the POST answers 404 or 405. */
  datatype PageExchange = PageExchange(post: ListReply, get: ListReply)

  /** `_extract_codes_from_response`: the batch of codes and the pagination. */
  function ExtractCodesFromResponse(body: ListBody): (r: (seq<ListedCode>, PaginationField))
    ensures body.CodesArray? ==> r == (body.items, NoPagination)
    ensures body.OtherJson? ==> r.0 == [] && r.1.NoPagination?
    ensures body.CodesObject? ==> r.1 == body.pagination
    ensures body.CodesObject? && body.accessCodes.Some? ==> r.0 == body.accessCodes.value
    ensures body.CodesObject? && body.accessCodes.None? ==> r.0 == body.data.GetOr([])
  {
    match body
    case CodesArray(items) => (items, NoPagination)
    case OtherJson => ([], NoPagination)
    case CodesObject(accessCodes, data, pagination) =>
      if accessCodes.Some? then (accessCodes.value, pagination)
      else if data.Some? then (data.value, pagination)
      else ([], pagination)
  }

  /** The cursor of the next page: only an object pagination that says there is a
      next page and carries a non-empty cursor continues the listing. */
  function NextCursor(p: PaginationField): (r: Option<string>)
    ensures r.Some? <==> p.PaginationObject? && p.hasNextPage && p.nextPageCursor != ""
    ensures r.Some? ==> r.value == p.nextPageCursor && r.value != ""
  {
    match p
    case PaginationObject(hasNext, cursor) => if hasNext && cursor != "" then Some(cursor) else None
    case _ => None
  }

  predicate IsMethodNotAllowed(status: int) { status == 404 || status == 405 }

  /** The answer the listing goes on with: the GET's when the POST answered 404 or 405. */
  function Answer(e: PageExchange): ListReply {
    if IsMethodNotAllowed(e.post.status) then e.get else e.post
  }

  /** A listing request sent to the lock service. */
  datatype ListRequest =
    | ListPost(device: string, cursor: Option<string>)
    | ListGet(device: string, cursor: Option<string>)

  /** The payload of a create request. */
  datatype CreatePayload = CreatePayload(device: string, code: string, name: string, startsAt: Instant, endsAt: Instant)

  /** The payload of a delete request; `device` is "" where the payload carries none. */
  datatype DeleteTarget = DeleteTarget(accessCodeId: string, device: string)

  /** The requests one page costs: the POST, then the GET when the POST is refused. */
  function PageRequests(device: string, e: PageExchange, cursor: Option<string>): seq<ListRequest> {
    [ListPost(device, cursor)] + (if IsMethodNotAllowed(e.post.status) then [ListGet(device, cursor)] else [])
  }

  /** What a listing session gathers and the requests it sends. */
  datatype Listing = Listing(codes: seq<ListedCode>, requests: seq<ListRequest>)

  /** What reading one page yields: nothing when the answer is not 2xx or not JSON,
      else its batch and the cursor of the next page, if any. */
  datatype PageRead = Unread | Read(batch: seq<ListedCode>, next: Option<string>)

  function ReadPage(e: PageExchange): (r: PageRead)
    ensures r.Unread? <==> !Is2xx(Answer(e).status) || Answer(e).body.None?
  {
    var a := Answer(e);
    if !Is2xx(a.status) || a.body.None? then Unread
    else
      var (batch, pagination) := ExtractCodesFromResponse(a.body.value);
      Read(batch, NextCursor(pagination))
  }

  /** The listing of `_list_access_codes` over the pages the service would serve,
      from page `i` on with `cursor`: it stops at the first answer that is not 2xx or
      not JSON, and after the first page with no next cursor. */
  function Walk(device: string, pages: seq<PageExchange>, i: nat, cursor: Option<string>): (w: Listing)
    decreases |pages| - i
  {
    if i >= |pages| then Listing([], [])
    else
      var reqs := PageRequests(device, pages[i], cursor);
      match ReadPage(pages[i])
      case Unread => Listing([], reqs)
      case Read(batch, None) => Listing(batch, reqs)
      case Read(batch, Some(c)) =>
        var rest := Walk(device, pages, i + 1, Some(c));
        Listing(batch + rest.codes, reqs + rest.requests)
  }

  /** The batch a single page contributes when it is read. */
  function PageBatch(e: PageExchange): seq<ListedCode> {
    match ReadPage(e)
    case Unread => []
    case Read(batch, _) => batch
  }

  /** Every batch the service would serve from page `i` on, in page order. */
  function AllBatches(pages: seq<PageExchange>, i: nat): seq<ListedCode>
    decreases |pages| - i
  {
    if i >= |pages| then [] else PageBatch(pages[i]) + AllBatches(pages, i + 1)
  }

  /** A listing never invents or reorders codes: what it gathers is the batches of
      the first pages it reads, a prefix of everything the service would serve. */
  lemma {:induction false} WalkIsPrefixOfBatches(device: string, pages: seq<PageExchange>, i: nat, cursor: Option<string>)
    ensures var w := Walk(device, pages, i, cursor);
            |w.codes| <= |AllBatches(pages, i)| && w.codes == AllBatches(pages, i)[..|w.codes|]
    decreases |pages| - i
  {
    if i < |pages| {
      match ReadPage(pages[i])
      case Unread =>
      case Read(batch, None) =>
      case Read(batch, Some(c)) =>
        WalkIsPrefixOfBatches(device, pages, i + 1, Some(c));
    }
  }

  /** A listing sends its requests for its own device, at most two per page, and the
      first one is the POST that carries the starting cursor. */
  lemma {:induction false} WalkSendsListRequests(device: string, pages: seq<PageExchange>, i: nat, cursor: Option<string>)
    ensures var w := Walk(device, pages, i, cursor);
            && (i < |pages| ==> |w.requests| <= 2 * (|pages| - i))
            && (forall k :: 0 <= k < |w.requests| ==> w.requests[k].device == device)
            && (i < |pages| ==> w.requests != [] && w.requests[0] == ListPost(device, cursor))
    decreases |pages| - i
  {
    if i < |pages| {
      match ReadPage(pages[i])
      case Unread =>
      case Read(batch, None) =>
      case Read(batch, Some(c)) =>
        WalkSendsListRequests(device, pages, i + 1, Some(c));
    }
  }

  /** A single-page listing whose answer carries no next page gathers that page's
      batch in full. */
  lemma LastPageIsRead(device: string, e: PageExchange, cursor: Option<string>)
    requires Is2xx(Answer(e).status) && Answer(e).body.Some?
    requires NextCursor(ExtractCodesFromResponse(Answer(e).body.value).1).None?
    ensures Walk(device, [e], 0, cursor).codes == PageBatch(e)
  {
  }

  /** The entry `_find_matching_access_code` accepts: the same code, and both edges
      parse and lie within the tolerance of the target's. */
  predicate EntryMatches(entry: ListedCode, code: string, startsAt: Instant, endsAt: Instant, tolerance: int) {
    entry.code == code
    && TimesMatch(entry.startsAt, Some(startsAt), tolerance)
    && TimesMatch(entry.endsAt, Some(endsAt), tolerance)
  }

  predicate HasMatch(codes: seq<ListedCode>, code: string, startsAt: Instant, endsAt: Instant, tolerance: int) {
    exists i :: 0 <= i < |codes| && EntryMatches(codes[i], code, startsAt, endsAt, tolerance)
  }

  /** Entry `i` is the first one that matches. */
  predicate IsFirstMatch(codes: seq<ListedCode>, i: int, code: string, startsAt: Instant, endsAt: Instant, tolerance: int) {
    0 <= i < |codes| && EntryMatches(codes[i], code, startsAt, endsAt, tolerance)
    && forall j :: 0 <= j < i ==> !EntryMatches(codes[j], code, startsAt, endsAt, tolerance)
  }

  /** The entry `_find_matching_access_code` returns, as a value: the first entry
      that matches, or none. */
  function FirstMatch(codes: seq<ListedCode>, code: string, startsAt: Instant, endsAt: Instant, tolerance: int)
    : (r: Option<ListedCode>)
    ensures r.None? <==> !HasMatch(codes, code, startsAt, endsAt, tolerance)
    ensures r.Some? ==> r.value in codes && EntryMatches(r.value, code, startsAt, endsAt, tolerance)
  {
    if codes == [] then None
    else if EntryMatches(codes[0], code, startsAt, endsAt, tolerance) then Some(codes[0])
    else
      var rest := FirstMatch(codes[1..], code, startsAt, endsAt, tolerance);
      assert HasMatch(codes[1..], code, startsAt, endsAt, tolerance) ==> HasMatch(codes, code, startsAt, endsAt, tolerance) by {
        if HasMatch(codes[1..], code, startsAt, endsAt, tolerance) {
          var i :| 0 <= i < |codes[1..]| && EntryMatches(codes[1..][i], code, startsAt, endsAt, tolerance);
          assert codes[i + 1] == codes[1..][i];
        }
      }
      assert HasMatch(codes, code, startsAt, endsAt, tolerance) ==> HasMatch(codes[1..], code, startsAt, endsAt, tolerance) by {
        if HasMatch(codes, code, startsAt, endsAt, tolerance) {
          var i :| 0 <= i < |codes| && EntryMatches(codes[i], code, startsAt, endsAt, tolerance);
          assert i > 0 && codes[1..][i - 1] == codes[i];
        }
      }
      rest
  }

  /** The entry `FirstMatch` returns sits at the position of the first match. */
  lemma {:induction false} FirstMatchIsFirst(codes: seq<ListedCode>, code: string, startsAt: Instant, endsAt: Instant, tolerance: int)
    ensures var r := FirstMatch(codes, code, startsAt, endsAt, tolerance);
            r.Some? ==> exists i :: IsFirstMatch(codes, i, code, startsAt, endsAt, tolerance) && codes[i] == r.value
  {
    if codes != [] && !EntryMatches(codes[0], code, startsAt, endsAt, tolerance) {
      var r := FirstMatch(codes[1..], code, startsAt, endsAt, tolerance);
      FirstMatchIsFirst(codes[1..], code, startsAt, endsAt, tolerance);
      if r.Some? {
        var i :| IsFirstMatch(codes[1..], i, code, startsAt, endsAt, tolerance) && codes[1..][i] == r.value;
        assert IsFirstMatch(codes, i + 1, code, startsAt, endsAt, tolerance) by {
          forall j | 0 <= j < i + 1
            ensures !EntryMatches(codes[j], code, startsAt, endsAt, tolerance)
          {
            if j > 0 { assert codes[j] == codes[1..][j - 1]; }
          }
        }
      }
    } else if codes != [] {
      assert IsFirstMatch(codes, 0, code, startsAt, endsAt, tolerance);
    }
  }

  /** The scan of `_find_matching_access_code`: the position of the first matching
      entry, if any. */
  method FindFirstMatch(codes: seq<ListedCode>, code: string, startsAt: Instant, endsAt: Instant, tolerance: int)
    returns (r: Option<nat>)
    ensures r.Some? ==> IsFirstMatch(codes, r.value, code, startsAt, endsAt, tolerance)
    ensures r.None? <==> !HasMatch(codes, code, startsAt, endsAt, tolerance)
    ensures FirstMatch(codes, code, startsAt, endsAt, tolerance) == if r.Some? then Some(codes[r.value]) else None
  {
    var i := 0;
    while i < |codes|
      invariant 0 <= i <= |codes|
      invariant forall j :: 0 <= j < i ==> !EntryMatches(codes[j], code, startsAt, endsAt, tolerance)
      invariant FirstMatch(codes[i..], code, startsAt, endsAt, tolerance) == FirstMatch(codes, code, startsAt, endsAt, tolerance)
    {
      assert codes[i..][1..] == codes[i + 1..];
      if EntryMatches(codes[i], code, startsAt, endsAt, tolerance) {
        return Some(i);
      }
      i := i + 1;
    }
    return None;
  }

  /** The loop of `_list_access_codes` over the pages the service serves: it returns
      the codes gathered and the requests sent, in order. */
  method Paginate(device: string, pages: seq<PageExchange>) returns (codes: seq<ListedCode>, sent: seq<ListRequest>)
    ensures Listing(codes, sent) == Walk(device, pages, 0, None)
  {
    ghost var w0 := Walk(device, pages, 0, None);
    codes, sent := [], [];
    var cursor: Option<string> := None;
    var i := 0;
    while i < |pages|
      invariant 0 <= i <= |pages|
      invariant codes + Walk(device, pages, i, cursor).codes == w0.codes
      invariant sent + Walk(device, pages, i, cursor).requests == w0.requests
    {
      var reqs, read := FetchPage(device, pages[i], cursor);
      WalkStep(device, pages, i, cursor);
      if read.Unread? {
        return codes, sent + reqs;
      }
      if read.next.None? {
        return codes + read.batch, sent + reqs;
      }
      ghost var rest := Walk(device, pages, i + 1, read.next);
      AppendAssociates(codes, read.batch, rest.codes);
      AppendAssociates(sent, reqs, rest.requests);
      codes, sent := codes + read.batch, sent + reqs;
      cursor := read.next;
      i := i + 1;
    }
  }

  /** One round of the listing loop: the POST, the GET retry when the POST is refused
      as not allowed, and what the answer yields. */
  method FetchPage(device: string, e: PageExchange, cursor: Option<string>) returns (reqs: seq<ListRequest>, read: PageRead)
    ensures reqs == PageRequests(device, e, cursor) && read == ReadPage(e)
  {
    reqs := [ListPost(device, cursor)];
    if IsMethodNotAllowed(e.post.status) {
      reqs := reqs + [ListGet(device, cursor)];
    }
    read := ReadPage(e);
  }

  /** One page of a listing, in terms of what the page yields. */
  lemma WalkStep(device: string, pages: seq<PageExchange>, i: nat, cursor: Option<string>)
    requires i < |pages|
    ensures var w := Walk(device, pages, i, cursor);
            var reqs := PageRequests(device, pages[i], cursor);
            var read := ReadPage(pages[i]);
            && (read.Unread? ==> w == Listing([], reqs))
            && (read.Read? && read.next.None? ==> w == Listing(read.batch, reqs))
            && (read.Read? && read.next.Some? ==>
                  w == Listing(read.batch + Walk(device, pages, i + 1, read.next).codes,
                               reqs + Walk(device, pages, i + 1, read.next).requests))
  {
  }

  /**
   * The lock service. Its answers are fixed in advance: the `n`-th listing session
   * is served the pages `listings(n)`, the `n`-th create request is answered
   * `createReplyAt(n)` and the `n`-th delete request `deleteReplyAt(n)`. The
   * requests sent are logged by kind. Without an API key nothing is sent.
   */
  class Remote {
    const apiKeyConfigured: bool
    const listings: nat -> seq<PageExchange>
    const createReplyAt: nat -> CreateReply
    const deleteReplyAt: nat -> DeleteReply
    var sessions: nat
    var listed: seq<ListRequest>
    var created: seq<CreatePayload>
    var deleted: seq<DeleteTarget>

    constructor(apiKeyConfigured: bool, listings: nat -> seq<PageExchange>,
                createReplyAt: nat -> CreateReply, deleteReplyAt: nat -> DeleteReply)
      ensures this.apiKeyConfigured == apiKeyConfigured && this.listings == listings
      ensures this.createReplyAt == createReplyAt && this.deleteReplyAt == deleteReplyAt
      ensures sessions == 0 && listed == [] && created == [] && deleted == []
    {
      this.apiKeyConfigured := apiKeyConfigured;
      this.listings := listings;
      this.createReplyAt := createReplyAt;
      this.deleteReplyAt := deleteReplyAt;
      sessions := 0;
      listed := [];
      created := [];
      deleted := [];
    }

    /** The listing a session opened now would produce. */
    function NextListing(device: string): Listing
      reads this`sessions
    {
      Walk(device, listings(sessions), 0, None)
    }

    /** `_list_access_codes(device_id)`: `None` stands for the `RuntimeError` raised
        when no API key is configured. */
    method ListAccessCodes(device: string) returns (r: Option<seq<ListedCode>>)
      modifies this`sessions, this`listed
      ensures !apiKeyConfigured ==> r.None? && listed == old(listed) && sessions == old(sessions)
      ensures apiKeyConfigured ==>
                var w := old(NextListing(device));
                r == Some(w.codes) && listed == old(listed) + w.requests && sessions == old(sessions) + 1
    {
      if !apiKeyConfigured {
        return None;
      }
      var pages := listings(sessions);
      sessions := sessions + 1;
      var codes, sent := Paginate(device, pages);
      listed := listed + sent;
      return Some(codes);
    }

    /** The create request of `_call_seam_create`: without an API key it fails before
        anything is sent. */
    method Create(payload: CreatePayload, duplicateIsSuccess: bool) returns (r: CreateOutcome)
      modifies this`created
      ensures !apiKeyConfigured ==> r == CreateFailed("Missing SEAM_API_KEY") && created == old(created)
      ensures apiKeyConfigured ==>
                created == old(created) + [payload]
                && r == ClassifyCreate(duplicateIsSuccess, createReplyAt(|old(created)|))
    {
      if !apiKeyConfigured {
        return CreateFailed("Missing SEAM_API_KEY");
      }
      var reply := createReplyAt(|created|);
      created := created + [payload];
      r := ClassifyCreate(duplicateIsSuccess, reply);
    }

    /** `_delete_access_code_by_id` (and the cancel lambda's `_delete_access_code`,
        which first honours the dry-run switch): `true` when the code is gone. */
    method DeleteById(target: DeleteTarget, dryRun: bool) returns (ok: bool)
      modifies this`deleted
      ensures dryRun ==> ok && deleted == old(deleted)
      ensures !dryRun && !apiKeyConfigured ==> !ok && deleted == old(deleted)
      ensures !dryRun && apiKeyConfigured ==>
                deleted == old(deleted) + [target] && ok == DeleteSucceeded(deleteReplyAt(|old(deleted)|))
    {
      if dryRun {
        return true;
      }
      if !apiKeyConfigured {
        return false;
      }
      var reply := deleteReplyAt(|deleted|);
      deleted := deleted + [target];
      ok := DeleteSucceeded(reply);
    }
  }
}

=== FILE: ics.dfy ===
/**
 * The iCalendar reading that the calendar builder and the workspace sync both carry
 * (`_unfold_ics_lines`, the VEVENT loop of `_parse_ics_content` / `_parse_ics_file`,
 * `_extract_calendar_name`): line breaks, the unfolding of section 3.1 of RFC 5545,
 * a line-driven scan for the VEVENT components of section 3.6.1, and the calendar
 * name. The writer side of section 3.1 (folding) is defined as well, so that reading
 * back a written feed can be stated.
 */
module Ics {
  import opened Common
  import opened Strings

  /** A text holding no line-break character. */
  predicate NoBreaks(s: string) {
    forall i :: 0 <= i < |s| ==> s[i] != '\n' && s[i] != '\r'
  }

  /** `replace("\r\n", "\n").replace("\r", "\n")`: every CRLF, CR and LF becomes LF. */
  function NormalizeBreaks(s: string): (r: string)
    ensures '\r' !in r
    ensures '\r' !in s ==> r == s
  {
    if s == [] then []
    else if s[0] == '\r' then "\n" + NormalizeBreaks(if |s| > 1 && s[1] == '\n' then s[2..] else s[1..])
    else [s[0]] + NormalizeBreaks(s[1..])
  }

  /** `"\n".join(parts)` */
  function JoinLines(parts: seq<string>): string {
    if parts == [] then []
    else if |parts| == 1 then parts[0]
    else parts[0] + "\n" + JoinLines(parts[1..])
  }

  /** `s.split("\n")`: the pieces between the line breaks; there is always one more
      piece than there are breaks, and joining the pieces gives the text back. */
  function SplitLines(s: string): (r: seq<string>)
    ensures |r| >= 1
    ensures forall i :: 0 <= i < |r| ==> '\n' !in r[i]
    ensures JoinLines(r) == s
    decreases |s|
  {
    match IndexOf(s, '\n')
    case None => [s]
    case Some(k) =>
      var rest := SplitLines(s[k + 1..]);
      assert s == s[..k] + "\n" + s[k + 1..];
      [s[..k]] + rest
  }

  /** Splitting a joined text gives the parts back when no part holds a line break. */
  lemma {:induction false} SplitJoin(parts: seq<string>)
    requires |parts| >= 1
    requires forall i :: 0 <= i < |parts| ==> '\n' !in parts[i]
    ensures SplitLines(JoinLines(parts)) == parts
  {
    if |parts| > 1 {
      var p := parts[0];
      var s := JoinLines(parts);
      assert s == p + "\n" + JoinLines(parts[1..]);
      assert s[|p|] == '\n';
      assert forall j :: 0 <= j < |p| ==> s[j] == p[j];
      assert IndexOf(s, '\n') == Some(|p|);
      assert s[..|p|] == p;
      assert s[|p| + 1..] == JoinLines(parts[1..]);
      SplitJoin(parts[1..]);
    }
  }

  /** Joining texts free of CR gives a text free of CR. */
  lemma {:induction false} JoinLinesNoCR(parts: seq<string>)
    requires forall i :: 0 <= i < |parts| ==> NoBreaks(parts[i])
    ensures '\r' !in JoinLines(parts)
  {
    if |parts| > 1 {
      JoinLinesNoCR(parts[1..]);
      assert NoBreaks(parts[0]);
    } else if |parts| == 1 {
      assert NoBreaks(parts[0]);
    }
  }

  /** A physical line that continues the previous one (section 3.1 of RFC 5545). */
  predicate IsContinuation(line: string) {
    line != [] && (line[0] == ' ' || line[0] == '\t')
  }

  /** A line as unfolding leaves it: not empty and not itself a continuation. */
  predicate IsContentLine(line: string) {
    line != [] && !IsContinuation(line)
  }

  predicate AllContentLines(lines: seq<string>) {
    forall i :: 0 <= i < |lines| ==> IsContentLine(lines[i])
  }

  /** What one physical line does to the lines unfolded so far: an empty line is
      skipped, a continuation is appended without its first character to the last
      line (and dropped when there is none yet), any other line is a new line. */
  function UnfoldStep(acc: seq<string>, line: string): (r: seq<string>)
    ensures AllContentLines(acc) ==> AllContentLines(r)
    ensures |r| <= |acc| + 1
  {
    if line == [] then acc
    else if IsContinuation(line) then
      if acc == [] then acc
      else
        var last := acc[|acc| - 1] + line[1..];
        assert AllContentLines(acc) ==> last[0] == acc[|acc| - 1][0];
        acc[..|acc| - 1] + [last]
    else acc + [line]
  }

  /** Unfolding of `lines`, continuing from the lines `acc` already unfolded. */
  function UnfoldFrom(acc: seq<string>, lines: seq<string>): (r: seq<string>)
    ensures AllContentLines(acc) ==> AllContentLines(r)
    ensures |r| <= |acc| + |lines|
    decreases |lines|
  {
    if lines == [] then acc else UnfoldFrom(UnfoldStep(acc, lines[0]), lines[1..])
  }

  /** The unfolded lines of a feed text. */
  function UnfoldedLines(rawText: string): (r: seq<string>)
    ensures AllContentLines(r)
  {
    UnfoldFrom([], SplitLines(NormalizeBreaks(rawText)))
  }

  /** `_unfold_ics_lines(raw_text)`: the in-place loop that extends the last
      unfolded line. No unfolded line is empty or starts with a space or a tab. */
  method UnfoldIcsLines(rawText: string) returns (unfolded: seq<string>)
    ensures unfolded == UnfoldedLines(rawText)
    ensures AllContentLines(unfolded)
  {
    var lines := SplitLines(NormalizeBreaks(rawText));
    unfolded := [];
    var i := 0;
    while i < |lines|
      invariant 0 <= i <= |lines|
      invariant UnfoldFrom(unfolded, lines[i..]) == UnfoldedLines(rawText)
    {
      var line := lines[i];
      assert lines[i..][0] == line && lines[i..][1..] == lines[i + 1..];
      if line == [] {
      } else if line[0] == ' ' || line[0] == '\t' {
        if unfolded != [] {
          unfolded := unfolded[..|unfolded| - 1] + [unfolded[|unfolded| - 1] + line[1..]];
        }
      } else {
        unfolded := unfolded + [line];
      }
      i := i + 1;
    }
  }

  /** Unfolding two runs of lines is unfolding the first, then the second. */
  lemma {:induction false} UnfoldAppend(acc: seq<string>, a: seq<string>, b: seq<string>)
    ensures UnfoldFrom(acc, a + b) == UnfoldFrom(UnfoldFrom(acc, a), b)
    decreases |a|
  {
    if a != [] {
      assert (a + b)[0] == a[0] && (a + b)[1..] == a[1..] + b;
      UnfoldAppend(UnfoldStep(acc, a[0]), a[1..], b);
    } else {
      assert a + b == b;
    }
  }

  /** The continuation lines that carry `rest`, at most `width - 1` characters of it
      after the leading space of each. */
  function Continuations(rest: string, width: nat): (r: seq<string>)
    requires width >= 2
    ensures forall i :: 0 <= i < |r| ==> IsContinuation(r[i]) && |r[i]| <= width
    ensures NoBreaks(rest) ==> forall i :: 0 <= i < |r| ==> NoBreaks(r[i])
    decreases |rest|
  {
    if rest == [] then []
    else if |rest| <= width - 1 then [" " + rest]
    else [" " + rest[..width - 1]] + Continuations(rest[width - 1..], width)
  }

  /** Section 3.1 of RFC 5545 on the writer's side: a content line longer than
      `width` is split into physical lines of at most `width` characters, every one
      after the first starting with a space. */
  function FoldLine(line: string, width: nat): (r: seq<string>)
    requires width >= 2
    ensures r != [] && forall i :: 0 <= i < |r| ==> |r[i]| <= width
    ensures NoBreaks(line) ==> forall i :: 0 <= i < |r| ==> NoBreaks(r[i])
  {
    if |line| <= width then [line] else [line[..width]] + Continuations(line[width..], width)
  }

  function FoldLines(lines: seq<string>, width: nat): (r: seq<string>)
    requires width >= 2
    ensures (forall i :: 0 <= i < |lines| ==> NoBreaks(lines[i])) ==> forall i :: 0 <= i < |r| ==> NoBreaks(r[i])
  {
    if lines == [] then [] else FoldLine(lines[0], width) + FoldLines(lines[1..], width)
  }

  /** Unfolding the continuations of a line restores the line. */
  lemma {:induction false} UnfoldContinuations(acc: seq<string>, x: string, rest: string, width: nat)
    requires width >= 2
    ensures UnfoldFrom(acc + [x], Continuations(rest, width)) == acc + [x + rest]
    decreases |rest|
  {
    if rest == [] {
      assert x + rest == x;
    } else if |rest| <= width - 1 {
      var c := " " + rest;
      assert c[1..] == rest;
      assert (acc + [x])[..|acc|] == acc;
      assert UnfoldStep(acc + [x], c) == acc + [x + rest];
    } else {
      var c := " " + rest[..width - 1];
      var cs := Continuations(rest[width - 1..], width);
      assert c[1..] == rest[..width - 1];
      assert (acc + [x])[..|acc|] == acc;
      assert UnfoldStep(acc + [x], c) == acc + [x + rest[..width - 1]];
      assert ([c] + cs)[0] == c && ([c] + cs)[1..] == cs;
      UnfoldContinuations(acc, x + rest[..width - 1], rest[width - 1..], width);
      assert x + rest[..width - 1] + rest[width - 1..] == x + rest;
    }
  }

  /** Unfolding a folded content line gives the line back. */
  lemma {:induction false} UnfoldFoldLine(acc: seq<string>, line: string, width: nat)
    requires width >= 2 && IsContentLine(line)
    ensures UnfoldFrom(acc, FoldLine(line, width)) == acc + [line]
  {
    if |line| > width {
      var first := line[..width];
      var cs := Continuations(line[width..], width);
      assert ([first] + cs)[0] == first && ([first] + cs)[1..] == cs;
      assert first[0] == line[0];
      assert UnfoldStep(acc, first) == acc + [first];
      UnfoldContinuations(acc, first, line[width..], width);
      assert first + line[width..] == line;
    }
  }

  /** Section 3.1 of RFC 5545: unfolding undoes folding, whatever the width. */
  lemma {:induction false} UnfoldFoldLines(acc: seq<string>, lines: seq<string>, width: nat)
    requires width >= 2 && AllContentLines(lines)
    ensures UnfoldFrom(acc, FoldLines(lines, width)) == acc + lines
    decreases |lines|
  {
    if lines == [] {
      assert acc + lines == acc;
    } else {
      var here := FoldLine(lines[0], width);
      var later := FoldLines(lines[1..], width);
      assert FoldLines(lines, width) == here + later;
      UnfoldAppend(acc, here, later);
      assert IsContentLine(lines[0]);
      UnfoldFoldLine(acc, lines[0], width);
      assert UnfoldFrom(acc, here) == acc + [lines[0]];
      assert AllContentLines(lines[1..]) by {
        forall i | 0 <= i < |lines[1..]| ensures IsContentLine(lines[1..][i]) {
          assert lines[1..][i] == lines[i + 1];
        }
      }
      UnfoldFoldLines(acc + [lines[0]], lines[1..], width);
      AppendAssociates(acc, [lines[0]], lines[1..]);
      assert [lines[0]] + lines[1..] == lines;
    }
  }

  /** A feed text written with `\n` breaks and folded lines unfolds to its content
      lines. */
  lemma WrittenFeedUnfolds(lines: seq<string>, width: nat)
    requires width >= 2 && AllContentLines(lines) && lines != []
    requires forall i :: 0 <= i < |lines| ==> NoBreaks(lines[i])
    ensures UnfoldedLines(JoinLines(FoldLines(lines, width))) == lines
  {
    var folded := FoldLines(lines, width);
    assert FoldLines(lines, width) == FoldLine(lines[0], width) + FoldLines(lines[1..], width);
    JoinLinesNoCR(folded);
    forall i | 0 <= i < |folded|
      ensures '\n' !in folded[i]
    {
      assert NoBreaks(folded[i]);
    }
    SplitJoin(folded);
    UnfoldFoldLines([], lines, width);
  }

  /** The properties of one VEVENT that the scripts read; one the component does not
      carry is `None`. */
  datatype RawEvent = RawEvent(uid: Option<string>, summary: Option<string>, dtstart: Option<string>, dtend: Option<string>)

  const NoProperties: RawEvent := RawEvent(None, None, None, None)

  /** Python's truth value of an optional text: present and not empty. */
  predicate Filled(v: Option<string>) {
    v.Some? && v.value != []
  }

  /** An event the scan keeps: it has a uid, a start and an end. */
  predicate Complete(e: RawEvent) {
    Filled(e.uid) && Filled(e.dtstart) && Filled(e.dtend)
  }

  predicate AllComplete(events: seq<RawEvent>) {
    forall i :: 0 <= i < |events| ==> Complete(events[i])
  }

  /** The scan's loop variables: the events kept so far, `in_event` and `current`. */
  datatype ScanState = ScanState(events: seq<RawEvent>, inEvent: bool, current: RawEvent)

  const ScanStart: ScanState := ScanState([], false, NoProperties)

  /** Outside a component the scan holds no properties. */
  predicate Settled(st: ScanState) {
    !st.inEvent ==> st.current == NoProperties
  }

  const IndexError: string := "IndexError: list index out of range"

  /** `line.split(":", 1)[1].strip()`; a line with no colon makes Python raise. */
  function PropertyValue(line: string): (r: Result<string>)
    ensures r.Failure? <==> ':' !in line
  {
    match AfterFirstColon(line)
    case None => Failure(IndexError)
    case Some(v) => Success(Trim(v))
  }

  /** One turn of the VEVENT loop. `BEGIN:VEVENT` opens a component with no
      properties; `END:VEVENT` closes it and keeps it when it is complete; outside a
      component every other line is ignored; inside one, `UID:`, `SUMMARY:`,
      `DTSTART…` and `DTEND…` lines set a property to the stripped text after their
      first colon, and a `DTSTART`/`DTEND` line without a colon raises. */
  function ScanLine(st: ScanState, line: string): Result<ScanState> {
    if line == "BEGIN:VEVENT" then Success(ScanState(st.events, true, NoProperties))
    else if line == "END:VEVENT" then
      Success(ScanState(if Complete(st.current) then st.events + [st.current] else st.events, false, NoProperties))
    else if !st.inEvent then Success(st)
    else if StartsWith(line, "UID:") then
      Success(st.(current := st.current.(uid := Some(Trim(line[|"UID:"|..])))))
    else if StartsWith(line, "SUMMARY:") then
      Success(st.(current := st.current.(summary := Some(Trim(line[|"SUMMARY:"|..])))))
    else if StartsWith(line, "DTSTART") then
      match PropertyValue(line)
      case Failure(e) => Failure(e)
      case Success(v) => Success(st.(current := st.current.(dtstart := Some(v))))
    else if StartsWith(line, "DTEND") then
      match PropertyValue(line)
      case Failure(e) => Failure(e)
      case Success(v) => Success(st.(current := st.current.(dtend := Some(v))))
    else Success(st)
  }

  /** A turn raises only on a date line without a colon inside a component; it
      keeps at most the component it closes, and only a complete one; it leaves no
      properties behind outside a component; outside a component it ignores every
      line but `BEGIN:VEVENT`. */
  lemma ScanLineMeaning(st: ScanState, line: string)
    ensures var r := ScanLine(st, line);
            (r.Failure? ==> st.inEvent && ':' !in line && (StartsWith(line, "DTSTART") || StartsWith(line, "DTEND")))
            && (r.Success? ==> st.events <= r.value.events && |r.value.events| <= |st.events| + 1)
            && (r.Success? && |r.value.events| > |st.events| ==>
                  line == "END:VEVENT" && Complete(st.current) && r.value.events[|st.events|] == st.current)
            && (Settled(st) && r.Success? ==> Settled(r.value))
            && (Settled(st) && !st.inEvent && line != "BEGIN:VEVENT" ==> r == Success(st))
  {
  }

  /** The VEVENT loop over `lines` from state `st`. */
  function ScanFrom(st: ScanState, lines: seq<string>): (r: Result<ScanState>)
    ensures r.Success? ==> st.events <= r.value.events
    ensures r.Success? && AllComplete(st.events) ==> AllComplete(r.value.events)
    ensures Settled(st) && r.Success? ==> Settled(r.value)
    decreases |lines|
  {
    if lines == [] then Success(st)
    else
      ScanLineMeaning(st, lines[0]);
      match ScanLine(st, lines[0])
      case Failure(e) => Failure(e)
      case Success(next) => ScanFrom(next, lines[1..])
  }

  /** The events the loop keeps over `lines`: every one complete. */
  function ScanEvents(lines: seq<string>): (r: Result<seq<RawEvent>>)
    ensures r.Success? ==> AllComplete(r.value)
  {
    match ScanFrom(ScanStart, lines)
    case Failure(e) => Failure(e)
    case Success(st) => Success(st.events)
  }

  /** The VEVENT loop of `_parse_ics_content` (and of `_parse_ics_file`), with its
      `in_event`/`current` variables. */
  method ScanLines(lines: seq<string>) returns (r: Result<seq<RawEvent>>)
    ensures r == ScanEvents(lines)
    ensures r.Success? ==> AllComplete(r.value)
  {
    var st := ScanStart;
    var i := 0;
    while i < |lines|
      invariant 0 <= i <= |lines|
      invariant ScanFrom(st, lines[i..]) == ScanFrom(ScanStart, lines)
    {
      assert lines[i..][0] == lines[i] && lines[i..][1..] == lines[i + 1..];
      var next := ScanTurn(st, lines[i]);
      if next.Failure? {
        return Failure(next.error);
      }
      st := next.value;
      i := i + 1;
    }
    return Success(st.events);
  }

  /** The body of the VEVENT loop for one line, on `events`, `in_event` and
      `current`. */
  method ScanTurn(st: ScanState, line: string) returns (r: Result<ScanState>)
    ensures r == ScanLine(st, line)
  {
    var events, inEvent, current := st.events, st.inEvent, st.current;
    if line == "BEGIN:VEVENT" {
      inEvent := true;
      current := NoProperties;
    } else if line == "END:VEVENT" {
      if Complete(current) {
        events := events + [current];
      }
      inEvent := false;
      current := NoProperties;
    } else if inEvent {
      if StartsWith(line, "UID:") {
        current := current.(uid := Some(Trim(line[4..])));
      } else if StartsWith(line, "SUMMARY:") {
        current := current.(summary := Some(Trim(line[8..])));
      } else if StartsWith(line, "DTSTART") || StartsWith(line, "DTEND") {
        var v := PropertyValue(line);
        if v.Failure? {
          return Failure(v.error);
        }
        if StartsWith(line, "DTSTART") {
          current := current.(dtstart := Some(v.value));
        } else {
          current := current.(dtend := Some(v.value));
        }
      }
    }
    return Success(ScanState(events, inEvent, current));
  }

  /** The value of a line that names the calendar, `None` for any other line. */
  function CalendarNameOf(line: string): (r: Option<string>)
    ensures r.Some? <==> StartsWith(line, "X-WR-CALNAME:") || StartsWith(line, "X-WR-CALDESC:") || StartsWith(line, "NAME:")
  {
    if StartsWith(line, "X-WR-CALNAME:") || StartsWith(line, "X-WR-CALDESC:") then Some(Trim(line[13..]))
    else if StartsWith(line, "NAME:") then Some(Trim(line[5..]))
    else None
  }

  /** `_extract_calendar_name(lines)`: the value of the first line that names the
      calendar, `""` when none does. */
  function CalendarName(lines: seq<string>): (r: string)
    ensures (forall i :: 0 <= i < |lines| ==> CalendarNameOf(lines[i]).None?) ==> r == ""
    ensures forall i :: 0 <= i < |lines| && CalendarNameOf(lines[i]).Some?
                          && (forall j :: 0 <= j < i ==> CalendarNameOf(lines[j]).None?)
                        ==> r == CalendarNameOf(lines[i]).value
  {
    if lines == [] then ""
    else match CalendarNameOf(lines[0])
      case Some(name) => name
      case None =>
        var r := CalendarName(lines[1..]);
        assert forall i :: 1 <= i < |lines| ==> lines[1..][i - 1] == lines[i];
        r
  }

  /** `_parse_ics_content(raw_text)`: the complete events and the calendar name. */
  function ParsedContent(rawText: string): (r: Result<(seq<RawEvent>, string)>)
    ensures r.Success? ==> AllComplete(r.value.0)
  {
    var lines := UnfoldedLines(rawText);
    match ScanEvents(lines)
    case Failure(e) => Failure(e)
    case Success(events) => Success((events, CalendarName(lines)))
  }

  method ParseIcsContent(rawText: string) returns (r: Result<(seq<RawEvent>, string)>)
    ensures r == ParsedContent(rawText)
  {
    var lines := UnfoldIcsLines(rawText);
    var scanned := ScanLines(lines);
    if scanned.Failure? {
      return Failure(scanned.error);
    }
    return Success((scanned.value, CalendarName(lines)));
  }

  // ---------------------------------------------------------------------------
  // A feed as a calendar service writes it, and reading it back.

  /** An all-day event as a feed carries it. */
  datatype FeedEvent = FeedEvent(uid: string, summary: Option<string>, dtstart: string, dtend: string)

  /** A property value the scan reads back unchanged: one physical line, nothing to
      strip. */
  predicate IsValueText(v: string) {
    NoBreaks(v) && (v != [] ==> !IsSpace(v[0]) && !IsSpace(v[|v| - 1]))
  }

  predicate WellFormedEvent(e: FeedEvent) {
    e.uid != [] && e.dtstart != [] && e.dtend != []
    && IsValueText(e.uid) && IsValueText(e.dtstart) && IsValueText(e.dtend)
    && (e.summary.Some? ==> IsValueText(e.summary.value))
  }

  function RawOf(e: FeedEvent): RawEvent {
    RawEvent(Some(e.uid), e.summary, Some(e.dtstart), Some(e.dtend))
  }

  function RawOfAll(events: seq<FeedEvent>): (r: seq<RawEvent>)
    ensures |r| == |events|
  {
    if events == [] then [] else [RawOf(events[0])] + RawOfAll(events[1..])
  }

  function EventLines(e: FeedEvent): seq<string> {
    ["BEGIN:VEVENT", "UID:" + e.uid]
    + (if e.summary.Some? then ["SUMMARY:" + e.summary.value] else [])
    + ["DTSTART;VALUE=DATE:" + e.dtstart, "DTEND;VALUE=DATE:" + e.dtend, "END:VEVENT"]
  }

  function EventsLines(events: seq<FeedEvent>): seq<string> {
    if events == [] then [] else EventLines(events[0]) + EventsLines(events[1..])
  }

  /** The content lines of a feed named `name` holding `events`. */
  function FeedLines(name: string, events: seq<FeedEvent>): seq<string> {
    ["BEGIN:VCALENDAR", "VERSION:2.0", "X-WR-CALNAME:" + name] + EventsLines(events) + ["END:VCALENDAR"]
  }

  lemma ScanCons(st: ScanState, line: string, rest: seq<string>)
    ensures ScanLine(st, line).Failure? ==> ScanFrom(st, [line] + rest) == Failure(ScanLine(st, line).error)
    ensures ScanLine(st, line).Success? ==> ScanFrom(st, [line] + rest) == ScanFrom(ScanLine(st, line).value, rest)
  {
    assert ([line] + rest)[0] == line && ([line] + rest)[1..] == rest;
  }

  /** A date line of the form the feeds use sets its property to the value. */
  lemma DateLineValue(prefix: string, v: string)
    requires prefix == "DTSTART;VALUE=DATE:" || prefix == "DTEND;VALUE=DATE:"
    ensures PropertyValue(prefix + v) == Success(Trim(v))
  {
    AfterPrefixWithColon(prefix, v);
  }

  /** Inside a component, a `UID:` line sets the uid. */
  lemma ScanUidLine(st: ScanState, v: string)
    requires st.inEvent && Trim(v) == v
    ensures ScanLine(st, "UID:" + v) == Success(st.(current := st.current.(uid := Some(v))))
  {
    var line := "UID:" + v;
    assert line[0] == 'U' && line[..4] == "UID:" && line[4..] == v;
  }

  /** Inside a component, a `SUMMARY:` line sets the summary. */
  lemma ScanSummaryLine(st: ScanState, v: string)
    requires st.inEvent && Trim(v) == v
    ensures ScanLine(st, "SUMMARY:" + v) == Success(st.(current := st.current.(summary := Some(v))))
  {
    var line := "SUMMARY:" + v;
    assert line[0] == 'S' && line[..8] == "SUMMARY:" && line[8..] == v;
    NotPrefix(line, "UID:");
  }

  /** Inside a component, a line that is none of the markers and names no uid or
      summary is a date line when it starts with `DTSTART` or `DTEND`. */
  lemma ScanDateLine(st: ScanState, line: string, v: string)
    requires st.inEvent && line != "BEGIN:VEVENT" && line != "END:VEVENT"
    requires !StartsWith(line, "UID:") && !StartsWith(line, "SUMMARY:")
    requires PropertyValue(line) == Success(v)
    ensures StartsWith(line, "DTSTART") ==> ScanLine(st, line) == Success(st.(current := st.current.(dtstart := Some(v))))
    ensures !StartsWith(line, "DTSTART") && StartsWith(line, "DTEND") ==>
              ScanLine(st, line) == Success(st.(current := st.current.(dtend := Some(v))))
  {
  }

  /** Inside a component, an all-day `DTSTART` line sets the start. */
  lemma ScanStartLine(st: ScanState, v: string)
    requires st.inEvent && Trim(v) == v
    ensures ScanLine(st, "DTSTART;VALUE=DATE:" + v) == Success(st.(current := st.current.(dtstart := Some(v))))
  {
    var line := "DTSTART;VALUE=DATE:" + v;
    assert line[0] == 'D' && line[..7] == "DTSTART";
    FirstCharDiffers(line, "BEGIN:VEVENT");
    FirstCharDiffers(line, "END:VEVENT");
    NotPrefix(line, "UID:");
    NotPrefix(line, "SUMMARY:");
    DateLineValue("DTSTART;VALUE=DATE:", v);
    ScanDateLine(st, line, v);
  }

  /** Inside a component, an all-day `DTEND` line sets the end. */
  lemma ScanEndLine(st: ScanState, v: string)
    requires st.inEvent && Trim(v) == v
    ensures ScanLine(st, "DTEND;VALUE=DATE:" + v) == Success(st.(current := st.current.(dtend := Some(v))))
  {
    var line := "DTEND;VALUE=DATE:" + v;
    assert line[0] == 'D' && line[..5] == "DTEND" && line[2] == 'E';
    FirstCharDiffers(line, "BEGIN:VEVENT");
    FirstCharDiffers(line, "END:VEVENT");
    NotPrefix(line, "UID:");
    NotPrefix(line, "SUMMARY:");
    assert !StartsWith(line, "DTSTART") by {
      assert line[..7][2] == 'E';
    }
    DateLineValue("DTEND;VALUE=DATE:", v);
    ScanDateLine(st, line, v);
  }

  /** `BEGIN:VEVENT` opens a component with no properties. */
  lemma StepBegin(st: ScanState, rest: seq<string>)
    ensures ScanFrom(st, ["BEGIN:VEVENT"] + rest) == ScanFrom(ScanState(st.events, true, NoProperties), rest)
  {
    ScanCons(st, "BEGIN:VEVENT", rest);
  }

  lemma StepUid(st: ScanState, v: string, rest: seq<string>)
    requires st.inEvent && IsValueText(v)
    ensures ScanFrom(st, ["UID:" + v] + rest) == ScanFrom(st.(current := st.current.(uid := Some(v))), rest)
  {
    TrimOfTrimmed(v);
    ScanUidLine(st, v);
    ScanCons(st, "UID:" + v, rest);
  }

  lemma StepSummary(st: ScanState, v: string, rest: seq<string>)
    requires st.inEvent && IsValueText(v)
    ensures ScanFrom(st, ["SUMMARY:" + v] + rest) == ScanFrom(st.(current := st.current.(summary := Some(v))), rest)
  {
    TrimOfTrimmed(v);
    ScanSummaryLine(st, v);
    ScanCons(st, "SUMMARY:" + v, rest);
  }

  lemma StepStart(st: ScanState, v: string, rest: seq<string>)
    requires st.inEvent && IsValueText(v)
    ensures ScanFrom(st, ["DTSTART;VALUE=DATE:" + v] + rest) == ScanFrom(st.(current := st.current.(dtstart := Some(v))), rest)
  {
    TrimOfTrimmed(v);
    ScanStartLine(st, v);
    ScanCons(st, "DTSTART;VALUE=DATE:" + v, rest);
  }

  lemma StepEnd(st: ScanState, v: string, rest: seq<string>)
    requires st.inEvent && IsValueText(v)
    ensures ScanFrom(st, ["DTEND;VALUE=DATE:" + v] + rest) == ScanFrom(st.(current := st.current.(dtend := Some(v))), rest)
  {
    TrimOfTrimmed(v);
    ScanEndLine(st, v);
    ScanCons(st, "DTEND;VALUE=DATE:" + v, rest);
  }

  /** `END:VEVENT` keeps a complete component and closes it. */
  lemma StepClose(st: ScanState, rest: seq<string>)
    requires Complete(st.current)
    ensures ScanFrom(st, ["END:VEVENT"] + rest) == ScanFrom(ScanState(st.events + [st.current], false, NoProperties), rest)
  {
    ScanCons(st, "END:VEVENT", rest);
  }

  /** The lines of a written event, one at a time in front of what follows. */
  lemma EventLinesNested(e: FeedEvent, rest: seq<string>)
    ensures EventLines(e) + rest
         == ["BEGIN:VEVENT"] + (["UID:" + e.uid]
            + ((if e.summary.Some? then ["SUMMARY:" + e.summary.value] else [])
            + (["DTSTART;VALUE=DATE:" + e.dtstart] + (["DTEND;VALUE=DATE:" + e.dtend] + (["END:VEVENT"] + rest)))))
  {
  }

  /** Scanning one written event appends it, whatever follows. */
  lemma {:induction false} ScanEventLines(evs: seq<RawEvent>, e: FeedEvent, rest: seq<string>)
    requires WellFormedEvent(e)
    ensures ScanFrom(ScanState(evs, false, NoProperties), EventLines(e) + rest)
         == ScanFrom(ScanState(evs + [RawOf(e)], false, NoProperties), rest)
  {
    var s1 := ScanState(evs, true, NoProperties);
    var s2 := s1.(current := NoProperties.(uid := Some(e.uid)));
    var s3 := s2.(current := s2.current.(summary := e.summary));
    var s4 := s3.(current := s3.current.(dtstart := Some(e.dtstart)));
    var s5 := s4.(current := s4.current.(dtend := Some(e.dtend)));
    var tail := ["DTSTART;VALUE=DATE:" + e.dtstart] + (["DTEND;VALUE=DATE:" + e.dtend] + (["END:VEVENT"] + rest));
    EventLinesNested(e, rest);
    StepBegin(ScanState(evs, false, NoProperties), ["UID:" + e.uid] + ((if e.summary.Some? then ["SUMMARY:" + e.summary.value] else []) + tail));
    if e.summary.Some? {
      StepUid(s1, e.uid, ["SUMMARY:" + e.summary.value] + tail);
      StepSummary(s2, e.summary.value, tail);
    } else {
      StepUid(s1, e.uid, [] + tail);
      assert [] + tail == tail && s3 == s2;
    }
    StepStart(s3, e.dtstart, ["DTEND;VALUE=DATE:" + e.dtend] + (["END:VEVENT"] + rest));
    StepEnd(s4, e.dtend, ["END:VEVENT"] + rest);
    assert s5.current == RawOf(e);
    StepClose(s5, rest);
  }

  /** Scanning written events appends them in order. */
  lemma {:induction false} ScanEventsLines(evs: seq<RawEvent>, events: seq<FeedEvent>, rest: seq<string>)
    requires forall i :: 0 <= i < |events| ==> WellFormedEvent(events[i])
    ensures ScanFrom(ScanState(evs, false, NoProperties), EventsLines(events) + rest)
         == ScanFrom(ScanState(evs + RawOfAll(events), false, NoProperties), rest)
    decreases |events|
  {
    if events == [] {
      assert EventsLines(events) + rest == rest;
      assert evs + RawOfAll(events) == evs;
    } else {
      var here := EventLines(events[0]);
      var later := EventsLines(events[1..]);
      AppendAssociates(here, later, rest);
      ScanEventLines(evs, events[0], later + rest);
      ScanEventsLines(evs + [RawOf(events[0])], events[1..], rest);
      AppendAssociates(evs, [RawOf(events[0])], RawOfAll(events[1..]));
    }
  }

  /** Every line of a written event is a content line free of line breaks. */
  lemma EventLinesAreContent(e: FeedEvent)
    requires WellFormedEvent(e)
    ensures forall i :: 0 <= i < |EventLines(e)| ==> IsContentLine(EventLines(e)[i]) && NoBreaks(EventLines(e)[i])
  {
    var ls := EventLines(e);
    forall i | 0 <= i < |ls|
      ensures IsContentLine(ls[i]) && NoBreaks(ls[i])
    {
      var p := ls[i];
      assert p[0] != ' ' && p[0] != '\t';
      assert forall j :: 0 <= j < |p| ==> p[j] != '\n' && p[j] != '\r';
    }
  }

  /** Every written line is a content line free of line breaks. */
  lemma {:induction false} EventsLinesAreContent(events: seq<FeedEvent>)
    requires forall i :: 0 <= i < |events| ==> WellFormedEvent(events[i])
    ensures forall i :: 0 <= i < |EventsLines(events)| ==>
              IsContentLine(EventsLines(events)[i]) && NoBreaks(EventsLines(events)[i])
    decreases |events|
  {
    if events != [] {
      var here := EventLines(events[0]);
      var later := EventsLines(events[1..]);
      EventLinesAreContent(events[0]);
      EventsLinesAreContent(events[1..]);
      forall i | 0 <= i < |here + later|
        ensures IsContentLine((here + later)[i]) && NoBreaks((here + later)[i])
      {
        if i >= |here| {
          assert (here + later)[i] == later[i - |here|];
        }
      }
    }
  }

  /** The whole written feed consists of content lines free of line breaks. */
  lemma FeedLinesAreContent(name: string, events: seq<FeedEvent>)
    requires IsValueText(name)
    requires forall i :: 0 <= i < |events| ==> WellFormedEvent(events[i])
    ensures AllContentLines(FeedLines(name, events))
    ensures forall i :: 0 <= i < |FeedLines(name, events)| ==> NoBreaks(FeedLines(name, events)[i])
  {
    var body := EventsLines(events);
    var lines := FeedLines(name, events);
    EventsLinesAreContent(events);
    forall i | 0 <= i < |lines|
      ensures IsContentLine(lines[i]) && NoBreaks(lines[i])
    {
      if 3 <= i < 3 + |body| {
        assert lines[i] == body[i - 3];
      } else if i == 2 {
        assert lines[i] == "X-WR-CALNAME:" + name;
        assert forall j :: 0 <= j < |lines[i]| ==> lines[i][j] != '\n' && lines[i][j] != '\r';
      }
    }
  }

  /** Outside a component a line other than `BEGIN:VEVENT` changes nothing. */
  lemma StepIgnored(st: ScanState, line: string, rest: seq<string>)
    requires Settled(st) && !st.inEvent && line != "BEGIN:VEVENT"
    ensures ScanFrom(st, [line] + rest) == ScanFrom(st, rest)
  {
    ScanCons(st, line, rest);
  }

  /** The lines of a written feed, one at a time in front of its events. */
  lemma FeedLinesNested(name: string, events: seq<FeedEvent>)
    ensures FeedLines(name, events)
         == ["BEGIN:VCALENDAR"] + (["VERSION:2.0"] + (["X-WR-CALNAME:" + name] + (EventsLines(events) + ["END:VCALENDAR"])))
  {
  }

  /** The header and trailer lines of a feed leave the scan of its events as it is. */
  lemma ScanAroundEvents(name: string, events: seq<FeedEvent>, kept: seq<RawEvent>)
    requires ScanFrom(ScanStart, EventsLines(events) + ["END:VCALENDAR"])
          == ScanFrom(ScanState(kept, false, NoProperties), ["END:VCALENDAR"])
    ensures ScanEvents(FeedLines(name, events)) == Success(kept)
  {
    var body := EventsLines(events);
    var nameLine := "X-WR-CALNAME:" + name;
    var trailer: seq<string> := ["END:VCALENDAR"];
    assert nameLine[0] == 'X' && "BEGIN:VEVENT"[0] == 'B';
    FeedLinesNested(name, events);
    StepIgnored(ScanStart, "BEGIN:VCALENDAR", ["VERSION:2.0"] + ([nameLine] + (body + trailer)));
    StepIgnored(ScanStart, "VERSION:2.0", [nameLine] + (body + trailer));
    StepIgnored(ScanStart, nameLine, body + trailer);
    var after := ScanState(kept, false, NoProperties);
    assert trailer == ["END:VCALENDAR"] + [];
    StepIgnored(after, "END:VCALENDAR", []);
    assert ScanFrom(ScanStart, FeedLines(name, events)) == Success(after);
  }

  /** The scan of a written feed keeps exactly its events. */
  lemma ScanWrittenFeed(name: string, events: seq<FeedEvent>)
    requires forall i :: 0 <= i < |events| ==> WellFormedEvent(events[i])
    ensures ScanEvents(FeedLines(name, events)) == Success(RawOfAll(events))
  {
    ScanEventsLines([], events, ["END:VCALENDAR"]);
    assert [] + RawOfAll(events) == RawOfAll(events);
    ScanAroundEvents(name, events, RawOfAll(events));
  }

  /** A text whose first character differs from the prefix's does not start with it. */
  lemma FirstCharDiffers(s: string, t: string)
    requires s != [] && t != [] && s[0] != t[0]
    ensures s != t
  {
  }

  lemma NotPrefix(s: string, p: string)
    requires s != [] && p != [] && s[0] != p[0]
    ensures !StartsWith(s, p)
  {
    if |p| <= |s| {
      assert s[..|p|][0] == s[0];
    }
  }

  /** The name of a written feed is the name it was written under. */
  lemma NameOfWrittenFeed(name: string, events: seq<FeedEvent>)
    requires IsValueText(name)
    ensures CalendarName(FeedLines(name, events)) == name
  {
    var lines := FeedLines(name, events);
    var nameLine := "X-WR-CALNAME:" + name;
    assert lines[0] == "BEGIN:VCALENDAR" && lines[1] == "VERSION:2.0" && lines[2] == nameLine;
    assert nameLine[..13] == "X-WR-CALNAME:" && nameLine[13..] == name;
    TrimOfTrimmed(name);
    assert CalendarNameOf(nameLine) == Some(name);
    NotPrefix("BEGIN:VCALENDAR", "X-WR-CALNAME:");
    NotPrefix("BEGIN:VCALENDAR", "X-WR-CALDESC:");
    NotPrefix("BEGIN:VCALENDAR", "NAME:");
    NotPrefix("VERSION:2.0", "X-WR-CALNAME:");
    NotPrefix("VERSION:2.0", "X-WR-CALDESC:");
    NotPrefix("VERSION:2.0", "NAME:");
  }

  /** Reading back a written feed: whatever the fold width, the text that a calendar
      service writes for `events` under the name `name` parses to exactly those
      events, in order, and that name. */
  lemma ReadWrittenFeed(name: string, events: seq<FeedEvent>, width: nat)
    requires width >= 2 && IsValueText(name)
    requires forall i :: 0 <= i < |events| ==> WellFormedEvent(events[i])
    ensures ParsedContent(JoinLines(FoldLines(FeedLines(name, events), width)))
         == Success((RawOfAll(events), name))
  {
    var lines := FeedLines(name, events);
    FeedLinesAreContent(name, events);
    WrittenFeedUnfolds(lines, width);
    ScanWrittenFeed(name, events);
    NameOfWrittenFeed(name, events);
  }
}

=== FILE: notion_sync.dfy ===
/**
 * The workspace sync: the page a calendar event becomes (`_build_page_payload`),
 * how a page's properties are read (`_prop_text`, `_prop_select`, `_prop_date`),
 * when an existing page is rewritten (`_page_needs_update`) and which requests
 * one sync run makes and counts (`_upsert_pages`).
 */
module NotionSync {
  import opened Common
  import opened Strings
  import opened Dates
  import opened Ics
  import opened CalendarBuild

  // ---------------------------------------------------------------------------
  // Reading the exported feeds

  /** The events of one exported calendar file, in the order of the file. The line
      loop is the calendar builder's, without the calendar name. */
  method ParseIcsFile(text: string) returns (r: Result<seq<RawEvent>>)
    ensures r == ScanEvents(UnfoldedLines(text))
    ensures r.Success? ==> AllComplete(r.value)
  {
    var lines := UnfoldIcsLines(text);
    r := ScanLines(lines);
  }

  /** An event of the sync, tagged with the property its file belongs to. */
  datatype SyncEvent = SyncEvent(raw: RawEvent, property: string)

  /** `event["dtstart"]` and `event["dtend"]` can be read. */
  predicate HasDates(ev: SyncEvent) {
    ev.raw.dtstart.Some? && ev.raw.dtend.Some?
  }

  // ---------------------------------------------------------------------------
  // The page title

  /** `_slug_uid(uid)`: the first eight ASCII letters and digits of the uid. */
  function SlugUid(uid: string): (r: string)
    ensures |r| == (if |Alnums(uid)| <= 8 then |Alnums(uid)| else 8)
    ensures r == Alnums(uid)[..|r|]
    ensures forall i :: 0 <= i < |r| ==> IsAlnum(r[i])
  {
    var kept := Alnums(uid);
    if |kept| <= 8 then kept else kept[..8]
  }

  /** A text made only of letters and digits loses nothing to the filter. */
  lemma {:induction false} AlnumsOfAlnum(s: string)
    requires forall i :: 0 <= i < |s| ==> IsAlnum(s[i])
    ensures Alnums(s) == s
  {
    if s != [] {
      AlnumsOfAlnum(s[1..]);
      assert s == [s[0]] + s[1..];
    }
  }

  /** A slug is its own slug: titles built from titles do not change. */
  lemma SlugIdempotent(uid: string)
    ensures SlugUid(SlugUid(uid)) == SlugUid(uid)
  {
    AlnumsOfAlnum(SlugUid(uid));
  }

  // ---------------------------------------------------------------------------
  // Page properties

  /** One element of a rich-text or title list: its `plain_text` and its
      `text.content`. */
  datatype RichItem = RichItem(plainText: Option<string>, content: Option<string>)

  datatype DateRange = DateRange(start: Option<string>, end: Option<string>)

  /** One property of a page, with the parts the sync reads; an empty list stands for
      a missing one. */
  datatype Prop = Prop(richText: seq<RichItem>, title: seq<RichItem>, select: Option<string>, date: Option<DateRange>)

  type Props = map<string, Prop>

  const NoProp: Prop := Prop([], [], None, None)

  function Get(props: Props, name: string): Prop {
    if name in props then props[name] else NoProp
  }

  /** The list `_prop_text` reads: the rich text, else the title. */
  function TextItems(props: Props, name: string): (r: seq<RichItem>)
    ensures r == [] ==> Get(props, name).richText == [] && Get(props, name).title == []
  {
    var p := Get(props, name);
    if p.richText != [] then p.richText else p.title
  }

  /** `_prop_text(props, name)`: the `plain_text` of the first element, else "". */
  function PropText(props: Props, name: string): (r: string)
    ensures TextItems(props, name) == [] ==> r == ""
    ensures TextItems(props, name) != [] && TextItems(props, name)[0].plainText.None? ==> r == ""
  {
    var rich := TextItems(props, name);
    if rich != [] then rich[0].plainText.GetOr("") else ""
  }

  /** `_prop_select(props, name)`: the selected option's name, else "". */
  function PropSelect(props: Props, name: string): (r: string)
    ensures Get(props, name).select.None? ==> r == ""
  {
    Get(props, name).select.GetOr("")
  }

  /** `_prop_date(props, name)`: the start and end of a date property. */
  function PropDate(props: Props, name: string): (r: (Option<string>, Option<string>))
    ensures Get(props, name).date.None? ==> r == (None, None)
  {
    match Get(props, name).date
    case Some(range) => (range.start, range.end)
    case None => (None, None)
  }

  // ---------------------------------------------------------------------------
  // The page payload

  /** The environment settings the payload and the archiving step read:
      `TITLE_PREFIX`, `CLOSED_PREFIX`, `SOURCE_LABEL` and `ARCHIVE_MISSING`. */
  datatype SyncConfig = SyncConfig(titlePrefix: string, closedPrefix: string, sourceLabel: string, archiveMissing: bool)

  const DefaultConfig: SyncConfig := SyncConfig("RES-", "CLOSED-", "Lodgify iCal", true)

  /** What a page says about an event, with dates in ISO form. */
  datatype PageFields = PageFields(
    uid: string, property: string, eventType: string, title: string,
    stayStart: string, stayEnd: string, checkIn: string, checkOut: string,
    source: string, lastSync: string)

  function TextProp(text: string): Prop { Prop([RichItem(None, Some(text))], [], None, None) }

  function TitleProp(text: string): Prop { Prop([], [RichItem(None, Some(text))], None, None) }

  function SelectProp(name: string): Prop { Prop([], [], Some(name), None) }

  function DateProp(start: string, end: Option<string>): Prop { Prop([], [], None, Some(DateRange(Some(start), end))) }

  /** The `properties` of the payload built from `f`. */
  function PropsOf(f: PageFields): Props {
    map[
      "Name" := TitleProp(f.title),
      "UID" := TextProp(f.uid),
      "Property" := SelectProp(f.property),
      "Type" := SelectProp(f.eventType),
      "Stay" := DateProp(f.stayStart, Some(f.stayEnd)),
      "Check-in" := DateProp(f.checkIn, None),
      "Check-out" := DateProp(f.checkOut, None),
      "Source" := TextProp(f.source),
      "Last Sync" := DateProp(f.lastSync, None)
    ]
  }

  /** The last night of a stay: the day before check-out, or check-out itself when
      the event does not end after it starts. */
  function StayEnd(checkIn: Date, checkOut: Date): (r: Date)
    requires ValidDate(checkIn) && ValidDate(checkOut)
    ensures ValidDate(r)
    ensures Before(checkIn, checkOut) ==> NextDay(r) == checkOut && OnOrBefore(checkIn, r)
    ensures !Before(checkIn, checkOut) ==> r == checkOut
  {
    if Before(checkIn, checkOut) then
      NextOfPrevDay(checkOut);
      var r := PrevDay(checkOut);
      NextDayIsAdjacent(checkIn, r);
      r
    else checkOut
  }

  /** `_build_page_payload(event, sync_time)`: nothing when a date cannot be read; an
      impossible eight-digit date raises. The title carries the closed prefix exactly
      for an owner's closed period. */
  function PayloadFields(ev: SyncEvent, syncTime: string, config: SyncConfig): (r: Result<Option<PageFields>>)
    requires ev.raw.uid.Some? && HasDates(ev)
    ensures r.Failure? <==> ParseDate(ev.raw.dtstart).RaisesValueError? || ParseDate(ev.raw.dtend).RaisesValueError?
    ensures r.Success? && r.value.Some? <==> ParseDate(ev.raw.dtstart).Parsed? && ParseDate(ev.raw.dtend).Parsed?
    ensures r.Success? && r.value.Some? ==>
              var f := r.value.value;
              f.uid == ev.raw.uid.value && f.property == ev.property
              && f.source == config.sourceLabel && f.lastSync == syncTime
              && (f.eventType == "Closed Period" <==> IsClosedSummary(ev.raw.summary))
              && f.title == (if IsClosedSummary(ev.raw.summary) then config.closedPrefix else config.titlePrefix)
                            + SlugUid(ev.raw.uid.value)
  {
    var uid := ev.raw.uid.value;
    var closed := IsClosedSummary(ev.raw.summary);
    var eventType := if closed then "Closed Period" else "Reservation";
    var dtstart := ParseDate(ev.raw.dtstart);
    var dtend := ParseDate(ev.raw.dtend);
    if dtstart.RaisesValueError? || dtend.RaisesValueError? then Failure(ValueError)
    else if !dtstart.Parsed? || !dtend.Parsed? then Success(None)
    else
      var stayEnd := StayEnd(dtstart.date, dtend.date);
      var prefix := if closed then config.closedPrefix else config.titlePrefix;
      Success(Some(PageFields(uid, ev.property, eventType, prefix + SlugUid(uid),
                              IsoFormat(dtstart.date), IsoFormat(stayEnd),
                              IsoFormat(dtstart.date), IsoFormat(dtend.date),
                              config.sourceLabel, syncTime)))
  }

  /** The stay a page shows covers the nights of the booking: it starts on check-in
      and ends on the night before check-out. */
  lemma StayCoversNights(ev: SyncEvent, syncTime: string, config: SyncConfig)
    requires ev.raw.uid.Some? && HasDates(ev)
    requires PayloadFields(ev, syncTime, config).Success? && PayloadFields(ev, syncTime, config).value.Some?
    ensures var f := PayloadFields(ev, syncTime, config).value.value;
            var checkIn := ParseDate(ev.raw.dtstart).date;
            var checkOut := ParseDate(ev.raw.dtend).date;
            ParseDate(Some(f.stayStart)) == Parsed(checkIn)
            && ParseDate(Some(f.checkOut)) == Parsed(checkOut)
            && ParseDate(Some(f.stayEnd)).Parsed?
            && (Before(checkIn, checkOut) ==>
                  NextDay(ParseDate(Some(f.stayEnd)).date) == checkOut
                  && OnOrBefore(checkIn, ParseDate(Some(f.stayEnd)).date))
  {
    var checkIn := ParseDate(ev.raw.dtstart).date;
    var checkOut := ParseDate(ev.raw.dtend).date;
    IsoFormatRoundTrip(checkIn);
    IsoFormatRoundTrip(checkOut);
    IsoFormatRoundTrip(StayEnd(checkIn, checkOut));
  }

  // ---------------------------------------------------------------------------
  // Deciding whether a page changed

  /** The values `_page_needs_update` compares, in its order: UID, Property, Type,
      Name, Source, the Stay range, the Check-in start and the Check-out start. The
      time of the last sync is not among them. */
  datatype View = View(uid: string, property: string, eventType: string, name: string, source: string,
                       stay: (Option<string>, Option<string>), checkIn: Option<string>, checkOut: Option<string>)

  /** The compared values, with texts read by `_prop_text`. */
  function ViewAsWritten(props: Props): View {
    View(PropText(props, "UID"), PropSelect(props, "Property"), PropSelect(props, "Type"),
         PropText(props, "Name"), PropText(props, "Source"), PropDate(props, "Stay"),
         PropDate(props, "Check-in").0, PropDate(props, "Check-out").0)
  }

  /** `_page_needs_update(page, desired)` as written: true as soon as one compared
      value differs. */
  predicate PageNeedsUpdateAsWritten(page: Props, desired: Props) {
    ViewAsWritten(page) != ViewAsWritten(desired)
  }

  /** How the service returns a property it was given: every text element gets a
      `plain_text` equal to its content. */
  function StoredProp(p: Prop): Prop {
    p.(richText := WithPlainText(p.richText), title := WithPlainText(p.title))
  }

  function WithPlainText(items: seq<RichItem>): (r: seq<RichItem>)
    ensures |r| == |items|
    ensures forall i :: 0 <= i < |items| ==> r[i] == items[i].(plainText := items[i].content)
  {
    seq(|items|, i requires 0 <= i < |items| => items[i].(plainText := items[i].content))
  }

  /** The properties of a page created or updated with `props`, as read back. */
  function Stored(props: Props): Props {
    map name | name in props :: StoredProp(props[name])
  }

  /** The text of the first element, read from `plain_text` when it has one and
      from `text.content` otherwise: a desired payload and a stored page both read
      as what they say. */
  function ItemText(props: Props, name: string): string {
    var rich := TextItems(props, name);
    if rich == [] then ""
    else if Filled(rich[0].plainText) then rich[0].plainText.value
    else rich[0].content.GetOr("")
  }

  /** The compared values, with texts read by what they say. */
  function ViewOf(props: Props): View {
    View(ItemText(props, "UID"), PropSelect(props, "Property"), PropSelect(props, "Type"),
         ItemText(props, "Name"), ItemText(props, "Source"), PropDate(props, "Stay"),
         PropDate(props, "Check-in").0, PropDate(props, "Check-out").0)
  }

  /** `_page_needs_update` comparing texts by what they say. */
  predicate PageNeedsUpdate(page: Props, desired: Props) {
    ViewOf(page) != ViewOf(desired)
  }

  /** Two payloads describe the same page but for the time of the sync. */
  predicate SameButSync(f: PageFields, g: PageFields) {
    f.(lastSync := g.lastSync) == g
  }

  /** What a payload shows, read as the corrected comparison reads it. */
  lemma DesiredView(g: PageFields)
    ensures ViewOf(PropsOf(g)) == View(g.uid, g.property, g.eventType, g.title, g.source,
                                       (Some(g.stayStart), Some(g.stayEnd)), Some(g.checkIn), Some(g.checkOut))
    ensures PropText(PropsOf(g), "UID") == ""
  {
    var m := PropsOf(g);
    assert m["UID"] == TextProp(g.uid) && m["Name"] == TitleProp(g.title) && m["Source"] == TextProp(g.source);
  }

  /** What a stored page shows. */
  lemma StoredView(f: PageFields)
    ensures ViewOf(Stored(PropsOf(f))) == View(f.uid, f.property, f.eventType, f.title, f.source,
                                               (Some(f.stayStart), Some(f.stayEnd)), Some(f.checkIn), Some(f.checkOut))
    ensures PropText(Stored(PropsOf(f)), "UID") == f.uid
  {
    var m := PropsOf(f);
    var st := Stored(m);
    assert st["UID"] == StoredProp(TextProp(f.uid));
    assert st["Name"] == StoredProp(TitleProp(f.title));
    assert st["Source"] == StoredProp(TextProp(f.source));
    assert st["Property"] == SelectProp(f.property) && st["Type"] == SelectProp(f.eventType);
    assert st["Stay"] == DateProp(f.stayStart, Some(f.stayEnd));
    assert st["Check-in"] == DateProp(f.checkIn, None) && st["Check-out"] == DateProp(f.checkOut, None);
  }

  /** As written, a page that holds exactly what the sync would write still reads as
      changed: the desired payload has no `plain_text`, so its UID reads as "". Every
      existing page is rewritten on every run. */
  lemma StoredPageAlwaysNeedsUpdate(f: PageFields, g: PageFields)
    requires f.uid != ""
    ensures PageNeedsUpdateAsWritten(Stored(PropsOf(f)), PropsOf(g))
  {
    StoredView(f);
    DesiredView(g);
  }

  /** A stored page needs an update exactly when the payload differs from the one it
      was written with in something other than the time of the sync. */
  lemma StoredPageIsCurrent(f: PageFields, g: PageFields)
    ensures !PageNeedsUpdate(Stored(PropsOf(f)), PropsOf(g)) <==> SameButSync(f, g)
  {
    StoredView(f);
    DesiredView(g);
  }

  lemma GetOther(props: Props, key: string, value: Prop, name: string)
    requires name != key
    ensures Get(props[key := value], name) == Get(props, name)
  {
  }

  /** Neither comparison reads the time of the last sync. */
  lemma LastSyncIgnored(props: Props, a: Prop)
    ensures ViewOf(props["Last Sync" := a]) == ViewOf(props)
    ensures ViewAsWritten(props["Last Sync" := a]) == ViewAsWritten(props)
  {
    GetOther(props, "Last Sync", a, "UID");
    GetOther(props, "Last Sync", a, "Property");
    GetOther(props, "Last Sync", a, "Type");
    GetOther(props, "Last Sync", a, "Name");
    GetOther(props, "Last Sync", a, "Source");
    GetOther(props, "Last Sync", a, "Stay");
    GetOther(props, "Last Sync", a, "Check-in");
    GetOther(props, "Last Sync", a, "Check-out");
  }

  // ---------------------------------------------------------------------------
  // One sync run

  /** An existing page of the database. */
  datatype Page = Page(id: string, props: Props)

  /** A request the sync makes: create a page, rewrite one, or archive one. */
  datatype Request = CreatePage(props: Props) | UpdatePage(id: string, props: Props) | ArchivePage(id: string)

  /** `_extract_uid_from_page(page)`: the `plain_text` of the UID's first rich-text
      element, else "". */
  function PageUid(page: Page): string {
    var rich := Get(page.props, "UID").richText;
    if rich != [] then rich[0].plainText.GetOr("") else ""
  }

  /** `uid_to_page`: every existing page under its uid; of two pages with one uid,
      the later is kept. */
  function UidIndex(pages: seq<Page>): map<string, Page> {
    if pages == [] then map[]
    else UidIndex(pages[..|pages| - 1])[PageUid(pages[|pages| - 1]) := pages[|pages| - 1]]
  }

  /** Every page is indexed under its uid, and the index holds only pages under
      their own uid. */
  lemma {:induction false} UidIndexHoldsPages(pages: seq<Page>)
    ensures forall u :: u in UidIndex(pages) ==> UidIndex(pages)[u] in pages && PageUid(UidIndex(pages)[u]) == u
    ensures forall i :: 0 <= i < |pages| ==> PageUid(pages[i]) in UidIndex(pages)
  {
    if pages != [] {
      var init := pages[..|pages| - 1];
      UidIndexHoldsPages(init);
      assert forall i :: 0 <= i < |init| ==> init[i] == pages[i];
      assert pages == init + [pages[|pages| - 1]];
    }
  }

  /** The page a uid maps to is the last page with that uid. */
  lemma {:induction false} LastPageWins(pages: seq<Page>, i: nat)
    requires i < |pages|
    requires forall k :: i < k < |pages| ==> PageUid(pages[k]) != PageUid(pages[i])
    ensures PageUid(pages[i]) in UidIndex(pages) && UidIndex(pages)[PageUid(pages[i])] == pages[i]
  {
    if i < |pages| - 1 {
      var init := pages[..|pages| - 1];
      assert forall k :: i < k < |init| ==> init[k] == pages[k];
      LastPageWins(init, i);
    }
  }

  /** What the sync does for one event: nothing for an event without a uid or with an
      unreadable date; a new page for a uid the database does not hold; a rewrite of
      the page that holds it when that page is out of date. */
  function Action(ev: SyncEvent, index: map<string, Page>, syncTime: string, config: SyncConfig): Result<Option<Request>>
    requires HasDates(ev)
  {
    var uid := ev.raw.uid.GetOr("");
    if uid == "" then Success(None)
    else
      match PayloadFields(ev, syncTime, config)
      case Failure(e) => Failure(e)
      case Success(None) => Success(None)
      case Success(Some(f)) =>
        var desired := PropsOf(f);
        if uid in index then
          if PageNeedsUpdate(index[uid].props, desired) then Success(Some(UpdatePage(index[uid].id, desired)))
          else Success(None)
        else Success(Some(CreatePage(desired)))
  }
  /** The decision for one event: a request only for an event with a uid; a page is
      created only for a uid the database does not hold, and always when it does not
      and both dates parse; a page is rewritten only when it holds the uid and is out
      of date; nothing is ever archived here. */
  lemma ActionMeaning(ev: SyncEvent, index: map<string, Page>, syncTime: string, config: SyncConfig)
    requires HasDates(ev)
    ensures var r := Action(ev, index, syncTime, config);
            (r.Failure? ==> Filled(ev.raw.uid) && r.error == ValueError)
            && (r.Success? && r.value.Some? ==> Filled(ev.raw.uid) && !r.value.value.ArchivePage?)
            && (r.Success? && r.value.Some? && r.value.value.CreatePage? ==> ev.raw.uid.value !in index)
            && (r.Success? && r.value.Some? && r.value.value.UpdatePage? ==>
                  ev.raw.uid.value in index && r.value.value.id == index[ev.raw.uid.value].id
                  && PageNeedsUpdate(index[ev.raw.uid.value].props, r.value.value.props))
            && (Filled(ev.raw.uid) && ev.raw.uid.value !in index && PayloadFields(ev, syncTime, config).Success? ==>
                  (r.Success? && r.value.Some? <==> PayloadFields(ev, syncTime, config).value.Some?))
  {
  }


  /** The uids an event list names, without the empty one. */
  function SeenUids(events: seq<SyncEvent>): set<string> {
    if events == [] then {}
    else
      var last := events[|events| - 1];
      SeenUids(events[..|events| - 1]) + (if Filled(last.raw.uid) then {last.raw.uid.value} else {})
  }

  /** The seen uids are exactly the non-empty uids of the events. */
  lemma {:induction false} SeenUidsAreEventUids(events: seq<SyncEvent>)
    ensures forall u :: u in SeenUids(events) <==> u != "" && exists i :: 0 <= i < |events| && events[i].raw.uid == Some(u)
  {
    if events != [] {
      var init := events[..|events| - 1];
      SeenUidsAreEventUids(init);
      assert forall i :: 0 <= i < |init| ==> init[i] == events[i];
    }
  }

  /** What the event loop of `_upsert_pages` has done: the requests made, in order,
      and its counts of pages created and updated. */
  datatype Tally = Tally(requests: seq<Request>, created: nat, updated: nat)

  /** The decision for each event, in order. */
  function Decisions(events: seq<SyncEvent>, index: map<string, Page>, syncTime: string, config: SyncConfig): (r: seq<Result<Option<Request>>>)
    requires forall i :: 0 <= i < |events| ==> HasDates(events[i])
  {
    MapSeq(events, ev requires HasDates(ev) => Action(ev, index, syncTime, config))
  }

  /** The decision at a position is the decision for the event there. */
  lemma DecisionAt(events: seq<SyncEvent>, index: map<string, Page>, syncTime: string, config: SyncConfig, i: nat)
    requires forall k :: 0 <= k < |events| ==> HasDates(events[k])
    requires i < |events|
    ensures Decisions(events, index, syncTime, config)[i] == Action(events[i], index, syncTime, config)
  {
    MapSeqAt(events, ev requires HasDates(ev) => Action(ev, index, syncTime, config), i);
  }

  /** What the event loop has done after a run of decisions: the requests made, or
      the error of the first decision that raises. */
  function TallyOf(decisions: seq<Result<Option<Request>>>): Result<Tally> {
    if decisions == [] then Success(Tally([], 0, 0))
    else
      match TallyOf(decisions[..|decisions| - 1])
      case Failure(e) => Failure(e)
      case Success(t) =>
        match decisions[|decisions| - 1]
        case Failure(e) => Failure(e)
        case Success(a) => Success(Extend(t, a))
  }

  /** The tally after one more decision that raised nothing: a request is appended
      and counted as a creation or an update. */
  function Extend(t: Tally, a: Option<Request>): Tally {
    match a
    case None => t
    case Some(q) => Tally(t.requests + [q], t.created + (if q.CreatePage? then 1 else 0), t.updated + (if q.UpdatePage? then 1 else 0))
  }

  /** The event loop of `_upsert_pages`: what it has done after the last event, or
      the error of the first event whose payload raises. */
  function SyncRequests(events: seq<SyncEvent>, index: map<string, Page>, syncTime: string, config: SyncConfig): Result<Tally>
    requires forall i :: 0 <= i < |events| ==> HasDates(events[i])
  {
    TallyOf(Decisions(events, index, syncTime, config))
  }

  /** The pages created among some requests. */
  function CountCreates(requests: seq<Request>): nat {
    if requests == [] then 0
    else CountCreates(requests[..|requests| - 1]) + (if requests[|requests| - 1].CreatePage? then 1 else 0)
  }

  /** The pages updated among some requests. */
  function CountUpdates(requests: seq<Request>): nat {
    if requests == [] then 0
    else CountUpdates(requests[..|requests| - 1]) + (if requests[|requests| - 1].UpdatePage? then 1 else 0)
  }

  lemma CountsOfSnoc(requests: seq<Request>, q: Request)
    ensures CountCreates(requests + [q]) == CountCreates(requests) + (if q.CreatePage? then 1 else 0)
    ensures CountUpdates(requests + [q]) == CountUpdates(requests) + (if q.UpdatePage? then 1 else 0)
  {
    assert (requests + [q])[..|requests|] == requests;
  }

  /** A run of decisions gives at most one request per decision and no archive when
      no decision asks for one, and the counters count the creations and the
      updates among the requests. */
  lemma {:induction false} TallyShape(decisions: seq<Result<Option<Request>>>)
    requires forall i :: 0 <= i < |decisions| && decisions[i].Success? && decisions[i].value.Some? ==>
               !decisions[i].value.value.ArchivePage?
    ensures var r := TallyOf(decisions);
            r.Success? ==>
              |r.value.requests| <= |decisions|
              && (forall i :: 0 <= i < |r.value.requests| ==> !r.value.requests[i].ArchivePage?)
              && r.value.created == CountCreates(r.value.requests)
              && r.value.updated == CountUpdates(r.value.requests)
  {
    if decisions != [] {
      var init := decisions[..|decisions| - 1];
      assert forall i :: 0 <= i < |init| ==> init[i] == decisions[i];
      TallyShape(init);
      var r := TallyOf(init);
      var a := decisions[|decisions| - 1];
      if r.Success? && a.Success? && a.value.Some? {
        CountsOfSnoc(r.value.requests, a.value.value);
      }
    }
  }

  /** The event loop asks for at most one request per event and never for an
      archive, and its counters count the creations and the updates it asked for. */
  lemma SyncRequestsShape(events: seq<SyncEvent>, index: map<string, Page>, syncTime: string, config: SyncConfig)
    requires forall i :: 0 <= i < |events| ==> HasDates(events[i])
    ensures var r := SyncRequests(events, index, syncTime, config);
            r.Success? ==>
              |r.value.requests| <= |events|
              && (forall i :: 0 <= i < |r.value.requests| ==> !r.value.requests[i].ArchivePage?)
              && r.value.created == CountCreates(r.value.requests)
              && r.value.updated == CountUpdates(r.value.requests)
  {
    var d := Decisions(events, index, syncTime, config);
    forall i | 0 <= i < |d| && d[i].Success? && d[i].value.Some?
      ensures !d[i].value.value.ArchivePage?
    {
      DecisionAt(events, index, syncTime, config, i);
      ActionMeaning(events[i], index, syncTime, config);
    }
    TallyShape(d);
  }

  /** The uids whose pages are archived: those the database holds and no event
      named, when archiving is switched on. */
  function ArchiveSet(index: map<string, Page>, seen: set<string>, config: SyncConfig): (r: set<string>)
    ensures forall u :: u in r <==> config.archiveMissing && u in index && u != "" && u !in seen
  {
    if config.archiveMissing then set u | u in index && u != "" && u !in seen else {}
  }

  /** The counts `_upsert_pages` returns, with the requests it made. */
  datatype SyncReport = SyncReport(created: nat, updated: nat, archived: nat, requests: seq<Request>, archivedUids: set<string>)

  /** The body of the loop of `_upsert_pages` for one event: events without a uid
      or without both dates are passed over; a page exists for the uid: it is
      patched when it differs from the desired properties; otherwise a page is
      created. */
  method UpsertEvent(events: seq<SyncEvent>, i: nat, index: map<string, Page>, syncTime: string, config: SyncConfig)
    returns (r: Result<Option<Request>>)
    requires forall k :: 0 <= k < |events| ==> HasDates(events[k])
    requires i < |events|
    ensures r == Decisions(events, index, syncTime, config)[i]
    ensures r.Success? && r.value.Some? ==> r.value.value.CreatePage? || r.value.value.UpdatePage?
  {
    DecisionAt(events, index, syncTime, config, i);
    var ev := events[i];
    var uid := ev.raw.uid.GetOr("");
    if uid == "" {
      return Success(None);
    }
    var payload := PayloadFields(ev, syncTime, config);
    if payload.Failure? {
      return Failure(payload.error);
    }
    if payload.value.None? {
      return Success(None);
    }
    var desired := PropsOf(payload.value.value);
    if uid in index {
      if PageNeedsUpdate(index[uid].props, desired) {
        return Success(Some(UpdatePage(index[uid].id, desired)));
      }
      return Success(None);
    }
    return Success(Some(CreatePage(desired)));
  }

  /** `_upsert_pages(database_id, events)` over the pages the database holds: the
      counters count the requests made, and the pages archived are those of the
      uids no event named. */
  method UpsertPages(pages: seq<Page>, events: seq<SyncEvent>, syncTime: string, config: SyncConfig)
    returns (r: Result<SyncReport>)
    requires forall i :: 0 <= i < |events| ==> HasDates(events[i])
    ensures r.Success? <==> SyncRequests(events, UidIndex(pages), syncTime, config).Success?
    ensures r.Failure? ==> r.error == SyncRequests(events, UidIndex(pages), syncTime, config).error
    ensures r.Success? ==>
              var requests := SyncRequests(events, UidIndex(pages), syncTime, config).value.requests;
              r.value.requests == requests
              && r.value.created == CountCreates(requests)
              && r.value.updated == CountUpdates(requests)
              && r.value.archivedUids == ArchiveSet(UidIndex(pages), SeenUids(events), config)
              && r.value.archived == |r.value.archivedUids|
  {
    var index := UidIndex(pages);
    ghost var decisions := Decisions(events, index, syncTime, config);
    var created: nat := 0;
    var updated: nat := 0;
    var seen: set<string> := {};
    var requests: seq<Request> := [];
    var i := 0;
    assert events[..0] == [] && decisions[..0] == [];
    while i < |events|
      invariant 0 <= i <= |events|
      invariant TallyOf(decisions[..i]) == Success(Tally(requests, created, updated))
      invariant seen == SeenUids(events[..i])
    {
      var ev := events[i];
      ghost var before := Tally(requests, created, updated);
      assert events[..i + 1][..i] == events[..i];
      var uid := ev.raw.uid.GetOr("");
      if uid != "" {
        seen := seen + {uid};
      }
      var action := UpsertEvent(events, i, index, syncTime, config);
      TallyStep(decisions, i);
      if action.Failure? {
        TallyFailureStays(decisions, i + 1);
        return Failure(action.error);
      }
      if action.value.Some? {
        var q := action.value.value;
        requests := requests + [q];
        if q.CreatePage? {
          created := created + 1;
        } else {
          updated := updated + 1;
        }
      }
      assert Tally(requests, created, updated) == Extend(before, action.value);
      i := i + 1;
    }
    assert events[..|events|] == events && decisions[..|events|] == decisions;
    SyncRequestsShape(events, index, syncTime, config);
    var archivedUids, archived := ArchiveMissing(index, seen, config);
    return Success(SyncReport(created, updated, archived, requests, archivedUids));
  }


  /** The archiving loop of `_upsert_pages`. */
  method ArchiveMissing(index: map<string, Page>, seen: set<string>, config: SyncConfig)
    returns (archivedUids: set<string>, archived: nat)
    ensures archivedUids == ArchiveSet(index, seen, config)
    ensures archived == |archivedUids|
  {
    archivedUids := {};
    archived := 0;
    if !config.archiveMissing {
      return;
    }
    var remaining := index.Keys;
    while remaining != {}
      invariant remaining <= index.Keys
      invariant forall u :: u in archivedUids <==> u in index && u !in remaining && u != "" && u !in seen
      invariant archived == |archivedUids|
      decreases |remaining|
    {
      var uid :| uid in remaining;
      if uid != "" && uid !in seen {
        archivedUids := archivedUids + {uid};
        archived := archived + 1;
      }
      remaining := remaining - {uid};
    }
  }

  /** One more decision: a failure ends the run, anything else extends the tally. */
  lemma TallyStep(decisions: seq<Result<Option<Request>>>, i: nat)
    requires i < |decisions| && TallyOf(decisions[..i]).Success?
    ensures decisions[i].Failure? ==> TallyOf(decisions[..i + 1]) == Failure(decisions[i].error)
    ensures decisions[i].Success? ==> TallyOf(decisions[..i + 1]) == Success(Extend(TallyOf(decisions[..i]).value, decisions[i].value))
  {
    assert decisions[..i + 1][..i] == decisions[..i];
  }

  /** Once a decision raises, the whole run does, with that error. */
  lemma {:induction false} TallyFailureStays(decisions: seq<Result<Option<Request>>>, k: nat)
    requires k <= |decisions| && TallyOf(decisions[..k]).Failure?
    ensures TallyOf(decisions) == TallyOf(decisions[..k])
    decreases |decisions| - k
  {
    if k < |decisions| {
      assert decisions[..k + 1][..k] == decisions[..k];
      TallyFailureStays(decisions, k + 1);
    } else {
      assert decisions[..k] == decisions;
    }
  }

  /** A run fails only with an error one of its decisions raised. */
  lemma {:induction false} TallyFailureFrom(decisions: seq<Result<Option<Request>>>, e: string)
    requires forall i :: 0 <= i < |decisions| && decisions[i].Failure? ==> decisions[i].error == e
    ensures TallyOf(decisions).Failure? ==> TallyOf(decisions).error == e
  {
    if decisions != [] {
      var init := decisions[..|decisions| - 1];
      assert forall i :: 0 <= i < |init| ==> init[i] == decisions[i];
      TallyFailureFrom(init, e);
    }
  }

  /** The only error of the event loop is the `ValueError` of a date that does not
      parse. */
  lemma SyncFailureIsValueError(events: seq<SyncEvent>, index: map<string, Page>, syncTime: string, config: SyncConfig)
    requires forall i :: 0 <= i < |events| ==> HasDates(events[i])
    ensures SyncRequests(events, index, syncTime, config).Failure? ==>
              SyncRequests(events, index, syncTime, config).error == ValueError
  {
    var d := Decisions(events, index, syncTime, config);
    forall i | 0 <= i < |d| && d[i].Failure?
      ensures d[i].error == ValueError
    {
      DecisionAt(events, index, syncTime, config, i);
      ActionMeaning(events[i], index, syncTime, config);
    }
    TallyFailureFrom(d, ValueError);
  }

  /** The database holds, for every event with a uid and readable dates, the page an
      earlier run wrote for it. */
  predicate UpToDate(events: seq<SyncEvent>, index: map<string, Page>, previousSync: string, config: SyncConfig)
    requires forall i :: 0 <= i < |events| ==> HasDates(events[i])
  {
    forall i :: 0 <= i < |events| && Filled(events[i].raw.uid) ==>
      var p := PayloadFields(events[i], previousSync, config);
      p.Success? && p.value.Some? ==>
        events[i].raw.uid.value in index && index[events[i].raw.uid.value].props == Stored(PropsOf(p.value.value))
  }

  /** A second run over unchanged events makes no request: every page exists and is
      current. */
  lemma SecondRunRequestsNothing(events: seq<SyncEvent>, index: map<string, Page>, previousSync: string, syncTime: string, config: SyncConfig)
    requires forall i :: 0 <= i < |events| ==> HasDates(events[i])
    requires UpToDate(events, index, previousSync, config)
    ensures SyncRequests(events, index, syncTime, config).Success? ==> SyncRequests(events, index, syncTime, config).value.requests == []
  {
    var d := Decisions(events, index, syncTime, config);
    forall i | 0 <= i < |d| && d[i].Success?
      ensures d[i].value.None?
    {
      DecisionAt(events, index, syncTime, config, i);
      NoActionWhenCurrent(events[i], index, previousSync, syncTime, config);
    }
    TallyAsksNothing(d);
  }

  /** Decisions that ask for nothing make no request. */
  lemma {:induction false} TallyAsksNothing(decisions: seq<Result<Option<Request>>>)
    requires forall i :: 0 <= i < |decisions| && decisions[i].Success? ==> decisions[i].value.None?
    ensures TallyOf(decisions).Success? ==> TallyOf(decisions).value.requests == []
  {
    if decisions != [] {
      var init := decisions[..|decisions| - 1];
      assert forall i :: 0 <= i < |init| ==> init[i] == decisions[i];
      TallyAsksNothing(init);
    }
  }

  /** An event whose page is current causes no request. */
  lemma NoActionWhenCurrent(ev: SyncEvent, index: map<string, Page>, previousSync: string, syncTime: string, config: SyncConfig)
    requires HasDates(ev)
    requires Filled(ev.raw.uid) && PayloadFields(ev, previousSync, config).Success? && PayloadFields(ev, previousSync, config).value.Some? ==>
               ev.raw.uid.value in index
               && index[ev.raw.uid.value].props == Stored(PropsOf(PayloadFields(ev, previousSync, config).value.value))
    ensures Action(ev, index, syncTime, config).Success? ==> Action(ev, index, syncTime, config).value.None?
  {
    if Filled(ev.raw.uid) {
      var now := PayloadFields(ev, syncTime, config);
      var before := PayloadFields(ev, previousSync, config);
      if now.Success? && now.value.Some? {
        assert before.Success? && before.value.Some?;
        assert before.value.value.(lastSync := syncTime) == now.value.value;
        StoredPageIsCurrent(before.value.value, now.value.value);
      }
    }
  }
}

=== FILE: provisioning.dfy ===
/**
 * The create lambda (lambda_function.py): validating a booking into a plan, the
 * idempotency check against the stored record, replacing a stale code, creating
 * the code with the duplicate-recovery and booking-id fallback, recording it and
 * sending the confirmation notice; then the per-payload filter and the batch
 * handler.
 */
module Provisioning {
  import opened Common
  import opened Strings
  import opened AccessCodes
  import opened Gateway
  import opened Store

  /** The settings the create lambda reads from its environment. `isoDay(text, zone)`
      stands for `datetime.fromisoformat` (or `strptime("%Y-%m-%d")`) followed by the
      conversion to `zone`: the local day number of the text, or `None` when it does
      not parse. `knownZones` are the names `ZoneInfo` accepts. */
  datatype ProvisionConfig = ProvisionConfig(
    lockMapping: map<string, string>,
    timezones: map<string, string>,
    defaultTimezone: string,
    checkinSetting: string,
    checkoutSetting: string,
    tolerance: int,
    duplicateIsSuccess: bool,
    knownZones: set<string>,
    isoDay: (string, string) -> Option<int>)

  const DefaultCheckin := TimeOfDay(12, 30)
  const DefaultCheckout := TimeOfDay(13, 0)

  /** `CHECKIN_TIME`: the configured check-in time, or 12:30. */
  function CheckinTime(cfg: ProvisionConfig): (t: TimeOfDay)
    ensures ValidTime(t)
  {
    ParseHHMM(cfg.checkinSetting, DefaultCheckin)
  }

  /** `CHECKOUT_TIME`: the configured check-out time, or 13:00. */
  function CheckoutTime(cfg: ProvisionConfig): (t: TimeOfDay)
    ensures ValidTime(t)
  {
    ParseHHMM(cfg.checkoutSetting, DefaultCheckout)
  }

  /** The lock mapped to a property, "" when there is none. */
  function MappedDevice(cfg: ProvisionConfig, propertyId: string): string {
    if propertyId in cfg.lockMapping then cfg.lockMapping[propertyId] else ""
  }

  /** The property's time zone, or the default one. */
  function ZoneFor(cfg: ProvisionConfig, propertyId: string): string {
    if propertyId in cfg.timezones then cfg.timezones[propertyId] else cfg.defaultTimezone
  }

  /** The outcome of `_parse_iso_datetime`: the local day of the value, no value, or
      the error `ZoneInfo` raises for an unknown zone name. */
  datatype LocalParse = OnDay(day: int) | NoDate | UnknownZone

  function ParseLocal(isoDay: (string, string) -> Option<int>, knownZones: set<string>,
                      value: Option<string>, zone: string): (r: LocalParse)
    ensures value.None? || Trim(value.value) == [] ==> r == NoDate
    ensures r.OnDay? ==> zone in knownZones && isoDay(Trim(value.value), zone) == Some(r.day)
    ensures r.UnknownZone? ==> zone !in knownZones
  {
    if value.None? then NoDate
    else
      var v := Trim(value.value);
      if v == [] then NoDate
      else match isoDay(v, zone)
        case None => NoDate
        case Some(d) => if zone in knownZones then OnDay(d) else UnknownZone
  }

  /** A date value the lambda treats as missing: absent or empty. */
  predicate Missing(value: Option<string>) { value.None? || value.value == [] }

  /** What a valid booking asks for: the lock, the code and where it came from, the
      booking-id fallback code, the name sent with it and the stay window. */
  datatype Plan = Plan(
    device: string,
    code: string,
    codeSource: string,
    fallback: Option<string>,
    name: string,
    checkin: Instant,
    checkout: Instant)

  datatype Planned = Planned(plan: Plan) | Rejected(message: string) | PlanRaised(error: string)

  function FallbackCode(bookingId: Option<string>): (r: Option<string>)
    ensures r.Some? ==> |r.value| == 4 && AllDigits(r.value)
  {
    match ResolveAccessCode("", bookingId)
    case None => None
    case Some(d) => Some(d.code)
  }

  function Prefix20(s: string): (r: string)
    ensures |r| <= 20 && |r| <= |s| && r == s[..|r|]
    ensures |s| <= 20 ==> r == s
  {
    if |s| <= 20 then s else s[..20]
  }

  /** The validation part of `create_access_code`, in its order: property, lock
      mapping, code, dates present, dates parse, window positive. Both dates are
      parsed before either is checked, so an unknown zone raises as soon as one of
      them parses, even when the other does not. */
  function PlanProvisioning(cfg: ProvisionConfig, b: Booking): (r: Planned)
    ensures b.propertyId == [] ==> r == Rejected("Missing property id.")
    ensures b.propertyId != [] && MappedDevice(cfg, b.propertyId) == [] ==>
              r == Rejected("No lock mapping found for property.")
    ensures b.propertyId != [] && MappedDevice(cfg, b.propertyId) != []
            && ResolveAccessCode(b.guestPhone, b.bookingId).None? ==>
              r == Rejected("Missing guest phone number and booking id.")
    ensures r.Rejected? && (Missing(b.arrival) || Missing(b.departure)) ==>
              r.message in {"Missing property id.", "No lock mapping found for property.",
                            "Missing guest phone number and booking id.", "Missing check-in or check-out dates."}
    ensures r.PlanRaised? ==> r.error == "ZoneInfoNotFoundError" && ZoneFor(cfg, b.propertyId) !in cfg.knownZones
    ensures r.Planned? ==>
              && r.plan.device == MappedDevice(cfg, b.propertyId) != []
              && ResolveAccessCode(b.guestPhone, b.bookingId) == Some(DerivedCode(r.plan.code, r.plan.codeSource))
              && r.plan.fallback == FallbackCode(b.bookingId)
              && r.plan.name == Prefix20(b.guestName)
              && r.plan.checkin < r.plan.checkout
              && ParseLocal(cfg.isoDay, cfg.knownZones, b.arrival, ZoneFor(cfg, b.propertyId)) == OnDay(r.plan.checkin / 1440)
              && ParseLocal(cfg.isoDay, cfg.knownZones, b.departure, ZoneFor(cfg, b.propertyId)) == OnDay(r.plan.checkout / 1440)
              && r.plan.checkin % 1440 == CheckinTime(cfg).hour * 60 + CheckinTime(cfg).minute
              && r.plan.checkout % 1440 == CheckoutTime(cfg).hour * 60 + CheckoutTime(cfg).minute
  {
    if b.propertyId == [] then Rejected("Missing property id.")
    else if MappedDevice(cfg, b.propertyId) == [] then Rejected("No lock mapping found for property.")
    else match ResolveAccessCode(b.guestPhone, b.bookingId)
      case None => Rejected("Missing guest phone number and booking id.")
      case Some(derived) =>
        if Missing(b.arrival) || Missing(b.departure) then Rejected("Missing check-in or check-out dates.")
        else
          var zone := ZoneFor(cfg, b.propertyId);
          var arrival := ParseLocal(cfg.isoDay, cfg.knownZones, b.arrival, zone);
          var departure := ParseLocal(cfg.isoDay, cfg.knownZones, b.departure, zone);
          if arrival.UnknownZone? || departure.UnknownZone? then PlanRaised("ZoneInfoNotFoundError")
          else if arrival.NoDate? || departure.NoDate? then Rejected("Invalid date format.")
          else
            var checkin := ApplyTime(arrival.day, CheckinTime(cfg));
            var checkout := ApplyTime(departure.day, CheckoutTime(cfg));
            if checkout <= checkin then Rejected("Checkout must be after checkin.")
            else Planned(Plan(MappedDevice(cfg, b.propertyId), derived.code, derived.source,
                              FallbackCode(b.bookingId), Prefix20(b.guestName), checkin, checkout))
  }

  /** An unknown zone raises exactly when validation reaches the dates, both are
      present and at least one of them parses: the error does not wait for the
      other date to parse. */
  lemma PlanRaisedExactly(cfg: ProvisionConfig, b: Booking)
    ensures PlanProvisioning(cfg, b).PlanRaised? <==>
              && b.propertyId != [] && MappedDevice(cfg, b.propertyId) != []
              && ResolveAccessCode(b.guestPhone, b.bookingId).Some?
              && !Missing(b.arrival) && !Missing(b.departure)
              && (ParseLocal(cfg.isoDay, cfg.knownZones, b.arrival, ZoneFor(cfg, b.propertyId)).UnknownZone?
                  || ParseLocal(cfg.isoDay, cfg.knownZones, b.departure, ZoneFor(cfg, b.propertyId)).UnknownZone?)
  {
  }

  /** With both dates on the same local day, the default check-in 12:30 and
      check-out 13:00 (whether set so or fallen back to) still make a positive
      half-hour window: a same-day booking is accepted under the defaults. */
  lemma SameDayStayUnderDefaults(cfg: ProvisionConfig, b: Booking, day: int)
    requires CheckinTime(cfg) == DefaultCheckin && CheckoutTime(cfg) == DefaultCheckout
    requires b.propertyId != [] && MappedDevice(cfg, b.propertyId) != []
    requires ResolveAccessCode(b.guestPhone, b.bookingId).Some?
    requires !Missing(b.arrival) && !Missing(b.departure)
    requires ParseLocal(cfg.isoDay, cfg.knownZones, b.arrival, ZoneFor(cfg, b.propertyId)) == OnDay(day)
    requires ParseLocal(cfg.isoDay, cfg.knownZones, b.departure, ZoneFor(cfg, b.propertyId)) == OnDay(day)
    ensures PlanProvisioning(cfg, b).Planned?
    ensures PlanProvisioning(cfg, b).plan.checkout - PlanProvisioning(cfg, b).plan.checkin == 30
  {
  }

  /** The code and window a plan asks the lock to hold. */
  function DesiredOf(plan: Plan): Desired {
    Desired(plan.device, plan.code, plan.checkin, plan.checkout)
  }

  /** `_find_matching_access_code`: a target without both edges finds nothing and
      lists nothing; otherwise the device's codes are listed and the first entry
      within the tolerance is returned. A `Failure` is the `RuntimeError` of a
      listing without an API key. */
  method FindMatchingAccessCode(remote: Remote, device: string, code: string,
                                startsAt: Option<Instant>, endsAt: Option<Instant>, tolerance: int)
    returns (r: Result<Option<ListedCode>>)
    modifies remote`sessions, remote`listed
    ensures startsAt.None? || endsAt.None? ==>
              r == Success(None) && remote.listed == old(remote.listed) && remote.sessions == old(remote.sessions)
    ensures startsAt.Some? && endsAt.Some? && !remote.apiKeyConfigured ==>
              r == Failure("Missing SEAM_API_KEY") && remote.listed == old(remote.listed) && remote.sessions == old(remote.sessions)
    ensures startsAt.Some? && endsAt.Some? && remote.apiKeyConfigured ==>
              var w := old(remote.NextListing(device));
              && remote.listed == old(remote.listed) + w.requests
              && remote.sessions == old(remote.sessions) + 1
              && r.Success?
              && (r.value.None? <==> !HasMatch(w.codes, code, startsAt.value, endsAt.value, tolerance))
              && (r.value.Some? ==> exists i :: IsFirstMatch(w.codes, i, code, startsAt.value, endsAt.value, tolerance)
                                                && w.codes[i] == r.value.value)
              && r.value == FirstMatch(w.codes, code, startsAt.value, endsAt.value, tolerance)
  {
    if startsAt.None? || endsAt.None? {
      return Success(None);
    }
    var listed := remote.ListAccessCodes(device);
    if listed.None? {
      return Failure("Missing SEAM_API_KEY");
    }
    var codes := listed.value;
    var k := FindFirstMatch(codes, code, startsAt.value, endsAt.value, tolerance);
    if k.None? {
      return Success(None);
    }
    return Success(Some(codes[k.value]));
  }

  /** `_delete_existing_code` has to list the lock to find a stored code that has no
      id, when the record carries both edges of its window. */
  predicate NeedsLookup(rec: Option<Record>) {
    rec.Some? && rec.value.accessCodeId == [] && rec.value.startsAt.Some? && rec.value.endsAt.Some?
  }

  /** `_delete_existing_code`: delete the stored code by its id, or else the listed
      code that matches the stored one. `Success(true)` when a delete request
      succeeded; `Failure` when the listing raised. It never creates a code and sends
      at most one delete. */
  method DeleteExistingCode(remote: Remote, rec: Record, device: string, tolerance: int)
    returns (r: Result<bool>)
    modifies remote`sessions, remote`listed, remote`deleted
    ensures |old(remote.deleted)| <= |remote.deleted| <= |old(remote.deleted)| + 1
    ensures remote.deleted[..|old(remote.deleted)|] == old(remote.deleted)
    ensures rec.accessCodeId != [] ==>
              r.Success? && remote.sessions == old(remote.sessions) && remote.listed == old(remote.listed)
              && remote.deleted == old(remote.deleted)
                                   + (if remote.apiKeyConfigured then [DeleteTarget(rec.accessCodeId, device)] else [])
    ensures r.Failure? ==>
              r.error == "Missing SEAM_API_KEY"
              && !remote.apiKeyConfigured && rec.accessCodeId == [] && remote.deleted == old(remote.deleted)
    ensures r.Failure? <==> NeedsLookup(Some(rec)) && !remote.apiKeyConfigured
    ensures remote.sessions == old(remote.sessions) + (if NeedsLookup(Some(rec)) && remote.apiKeyConfigured then 1 else 0)
    ensures r == Success(true) ==>
              |remote.deleted| == |old(remote.deleted)| + 1
              && DeleteSucceeded(remote.deleteReplyAt(|old(remote.deleted)|))
    ensures |remote.deleted| == |old(remote.deleted)| + 1 ==>
              remote.deleted[|old(remote.deleted)|].device == device
    ensures remote.deleted == old(remote.deleted) + DeletesFrom(old(ServiceOf(remote)), Some(rec), device, tolerance)
  {
    if rec.accessCodeId != [] {
      var ok := remote.DeleteById(DeleteTarget(rec.accessCodeId, device), false);
      return Success(ok);
    }
    var m := FindMatchingAccessCode(remote, device, rec.code, rec.startsAt, rec.endsAt, tolerance);
    if m.Failure? {
      return Failure(m.error);
    }
    if m.value.Some? && m.value.value.accessCodeId != [] {
      var ok := remote.DeleteById(DeleteTarget(m.value.value.accessCodeId, device), false);
      return Success(ok);
    }
    return Success(false);
  }

  /** The outcome of `_create_with_fallback`. */
  datatype Creation =
    | Created(accessCodeId: string, code: string, codeSource: string, isDuplicate: bool)
    | CreationFailed(message: string)

  /** The fallback is tried only when it exists and differs from the primary code. */
  predicate FallbackDiffers(plan: Plan) {
    plan.fallback.Some? && plan.fallback.value != plan.code
  }

  function PayloadOf(plan: Plan, code: string): CreatePayload {
    CreatePayload(plan.device, code, plan.name, plan.checkin, plan.checkout)
  }

  /** What the lock service answers from a given moment on: whether requests are
      sent at all, the answers it has fixed in advance, and how many listing sessions
      and create requests it has already served. */
  datatype Service = Service(keyed: bool, listings: nat -> seq<PageExchange>,
                             createReplyAt: nat -> CreateReply, sessions: nat, creates: nat)

  function ServiceOf(remote: Remote): Service
    reads remote
  {
    Service(remote.apiKeyConfigured, remote.listings, remote.createReplyAt, remote.sessions, |remote.created|)
  }

  /** The entry `_find_matching_access_code` returns for `code` over the plan's window
      when the lock's listing is the service's session `k`. */
  function ListedMatch(s: Service, k: nat, plan: Plan, code: string, tolerance: int): Option<ListedCode> {
    FirstMatch(Walk(plan.device, s.listings(k), 0, None).codes, code, plan.checkin, plan.checkout, tolerance)
  }

  /** The codes listed for `device` in the service's current listing session. */
  function CurrentListing(s: Service, device: string): seq<ListedCode> {
    Walk(device, s.listings(s.sessions), 0, None).codes
  }

  /** The entry `_find_matching_access_code` returns for the stored code of `rec` over
      its stored window, when `device`'s listing is the service's current session. */
  function StoredMatch(s: Service, rec: Record, device: string, tolerance: int): Option<ListedCode>
    requires rec.startsAt.Some? && rec.endsAt.Some?
  {
    FirstMatch(CurrentListing(s, device), rec.code, rec.startsAt.value, rec.endsAt.value, tolerance)
  }

  /** The delete requests `_delete_existing_code` sends for the stored record `rec` on
      `device`, against the service `s`: none without a record or an API key; the
      stored id when there is one; otherwise, when the record has both edges, the id
      of the first listed code that matches it, when that id is not empty. */
  function DeletesFrom(s: Service, rec: Option<Record>, device: string, tolerance: int): (d: seq<DeleteTarget>)
    ensures |d| <= 1
    ensures d != [] ==> s.keyed && rec.Some? && d[0].device == device && d[0].accessCodeId != []
  {
    if rec.None? || !s.keyed then []
    else if rec.value.accessCodeId != [] then [DeleteTarget(rec.value.accessCodeId, device)]
    else if !NeedsLookup(rec) then []
    else match StoredMatch(s, rec.value, device, tolerance)
      case Some(m) => if m.accessCodeId != [] then [DeleteTarget(m.accessCodeId, device)] else []
      case None => []
  }

  /** Which code `_delete_existing_code` deletes: with an API key, the stored id when
      the record has one; otherwise a listed code with the stored code, within the
      tolerance of the stored window, and the first such in listing order. Without
      a match carrying an id nothing is deleted. */
  lemma DeletesFromMeaning(s: Service, rec: Record, device: string, tolerance: int)
    ensures var d := DeletesFrom(s, Some(rec), device, tolerance);
            && (rec.accessCodeId != [] ==> d == if s.keyed then [DeleteTarget(rec.accessCodeId, device)] else [])
            && (rec.accessCodeId == [] && d != [] ==>
                  NeedsLookup(Some(rec))
                  && exists i :: IsFirstMatch(CurrentListing(s, device), i, rec.code, rec.startsAt.value, rec.endsAt.value, tolerance)
                                 && d == [DeleteTarget(CurrentListing(s, device)[i].accessCodeId, device)])
            && (rec.accessCodeId == [] ==>
                  (d == [] <==> !s.keyed || !NeedsLookup(Some(rec))
                                || StoredMatch(s, rec, device, tolerance).None?
                                || StoredMatch(s, rec, device, tolerance).value.accessCodeId == []))
  {
    if rec.accessCodeId == [] && NeedsLookup(Some(rec)) && s.keyed {
      var codes := CurrentListing(s, device);
      var m := StoredMatch(s, rec, device, tolerance);
      if m.Some? {
        FirstMatchIsFirst(codes, rec.code, rec.startsAt.value, rec.endsAt.value, tolerance);
      }
    }
  }

  /** Whether `_create_with_fallback` sends the booking-id code: the primary code was
      refused as a duplicate, no listed code matches it and the fallback differs. */
  predicate FallbackSent(s: Service, plan: Plan, tolerance: int, duplicateIsSuccess: bool) {
    && s.keyed
    && ClassifyCreate(duplicateIsSuccess, s.createReplyAt(s.creates)).DuplicateCode?
    && ListedMatch(s, s.sessions, plan, plan.code, tolerance).None?
    && FallbackDiffers(plan)
  }

  /** The outcome of `_create_with_fallback` against the service `s`, as a value:
      without an API key the create fails at once; a created code is new; a refused
      one is the reply's text; a duplicate is adopted when the listing holds a
      matching code, and otherwise the booking-id code is tried once with the same
      recovery, on the next create reply and the next listing session. */
  function CreationFrom(s: Service, plan: Plan, tolerance: int, duplicateIsSuccess: bool): (c: Creation)
    ensures c.Created? ==>
              (c.code == plan.code && c.codeSource in {plan.codeSource, "existing"})
              || (FallbackSent(s, plan, tolerance, duplicateIsSuccess) && c.code == plan.fallback.value
                  && c.codeSource in {"booking_id_fallback", "booking_id_fallback_existing"})
    ensures c.Created? && c.isDuplicate ==> c.codeSource in {"existing", "booking_id_fallback_existing"}
    ensures !s.keyed ==> c == CreationFailed("Missing SEAM_API_KEY")
  {
    if !s.keyed then CreationFailed("Missing SEAM_API_KEY")
    else match ClassifyCreate(duplicateIsSuccess, s.createReplyAt(s.creates))
      case CreatedCode(id) => Created(id, plan.code, plan.codeSource, false)
      case CreateFailed(text) => CreationFailed(text)
      case DuplicateCode(text) =>
        match ListedMatch(s, s.sessions, plan, plan.code, tolerance)
        case Some(entry) => Created(entry.accessCodeId, plan.code, "existing", true)
        case None =>
          if !FallbackDiffers(plan) then CreationFailed(text)
          else
            var fallback := plan.fallback.value;
            match ClassifyCreate(duplicateIsSuccess, s.createReplyAt(s.creates + 1))
            case CreatedCode(id) => Created(id, fallback, "booking_id_fallback", false)
            case CreateFailed(text2) => CreationFailed(text2)
            case DuplicateCode(text2) =>
              match ListedMatch(s, s.sessions + 1, plan, fallback, tolerance)
              case Some(entry) => Created(entry.accessCodeId, fallback, "booking_id_fallback_existing", true)
              case None => CreationFailed(text2)
  }

  /** The create requests `_create_with_fallback` sends against the service `s`: the
      primary code, then the booking-id code when it is tried. */
  function CreatesFrom(s: Service, plan: Plan, tolerance: int, duplicateIsSuccess: bool): (sent: seq<CreatePayload>)
    ensures s.keyed <==> sent != []
    ensures sent != [] ==> sent[0] == PayloadOf(plan, plan.code)
    ensures |sent| == 2 <==> FallbackSent(s, plan, tolerance, duplicateIsSuccess)
  {
    if !s.keyed then []
    else if FallbackSent(s, plan, tolerance, duplicateIsSuccess) then [PayloadOf(plan, plan.code), PayloadOf(plan, plan.fallback.value)]
    else [PayloadOf(plan, plan.code)]
  }

  /** `_create_with_fallback`: create the code; on a duplicate, adopt the listed code
      that matches; else try the booking-id code once, with the same recovery. */
  method CreateWithFallback(remote: Remote, plan: Plan, tolerance: int, duplicateIsSuccess: bool)
    returns (c: Creation)
    modifies remote`sessions, remote`listed, remote`created
    ensures !remote.apiKeyConfigured ==>
              c == CreationFailed("Missing SEAM_API_KEY") && remote.created == old(remote.created)
    ensures remote.apiKeyConfigured ==>
              var n := |old(remote.created)|;
              var first := ClassifyCreate(duplicateIsSuccess, remote.createReplyAt(n));
              && n < |remote.created| <= n + 2
              && remote.created[..n + 1] == old(remote.created) + [PayloadOf(plan, plan.code)]
              && (first.CreatedCode? ==> c == Created(first.accessCodeId, plan.code, plan.codeSource, false)
                                         && |remote.created| == n + 1)
              && (first.CreateFailed? ==> c == CreationFailed(first.text) && |remote.created| == n + 1)
              && (first.DuplicateCode? && HasMatch(old(remote.NextListing(plan.device)).codes,
                                                   plan.code, plan.checkin, plan.checkout, tolerance) ==>
                    c.Created? && c.isDuplicate && c.code == plan.code && c.codeSource == "existing"
                    && |remote.created| == n + 1)
              && (first.DuplicateCode? && !FallbackDiffers(plan) ==> |remote.created| == n + 1)
              && (first.DuplicateCode? && !FallbackDiffers(plan)
                  && !HasMatch(old(remote.NextListing(plan.device)).codes, plan.code, plan.checkin, plan.checkout, tolerance) ==>
                    c == CreationFailed(first.text))
              && (|remote.created| == n + 2 <==>
                    first.DuplicateCode? && FallbackDiffers(plan)
                    && !HasMatch(old(remote.NextListing(plan.device)).codes, plan.code, plan.checkin, plan.checkout, tolerance))
              && (|remote.created| == n + 2 ==> remote.created[n + 1] == PayloadOf(plan, plan.fallback.value))
    ensures c.Created? ==>
              (c.code == plan.code && c.codeSource in {plan.codeSource, "existing"})
              || (FallbackDiffers(plan) && c.code == plan.fallback.value
                  && c.codeSource in {"booking_id_fallback", "booking_id_fallback_existing"}
                  && |remote.created| == |old(remote.created)| + 2)
    ensures c.Created? && c.isDuplicate ==> c.codeSource in {"existing", "booking_id_fallback_existing"}
    ensures c == CreationFrom(old(ServiceOf(remote)), plan, tolerance, duplicateIsSuccess)
    ensures remote.created == old(remote.created) + CreatesFrom(old(ServiceOf(remote)), plan, tolerance, duplicateIsSuccess)
  {
    var first := remote.Create(PayloadOf(plan, plan.code), duplicateIsSuccess);
    if first.CreatedCode? {
      return Created(first.accessCodeId, plan.code, plan.codeSource, false);
    }
    if first.CreateFailed? {
      return CreationFailed(first.text);
    }
    var m := FindMatchingAccessCode(remote, plan.device, plan.code, Some(plan.checkin), Some(plan.checkout), tolerance);
    if m.Success? && m.value.Some? {
      return Created(m.value.value.accessCodeId, plan.code, "existing", true);
    }
    if !FallbackDiffers(plan) {
      return CreationFailed(first.text);
    }
    var fallback := plan.fallback.value;
    var second := remote.Create(PayloadOf(plan, fallback), duplicateIsSuccess);
    if second.CreatedCode? {
      return Created(second.accessCodeId, fallback, "booking_id_fallback", false);
    }
    if second.CreateFailed? {
      return CreationFailed(second.text);
    }
    var m2 := FindMatchingAccessCode(remote, plan.device, fallback, Some(plan.checkin), Some(plan.checkout), tolerance);
    if m2.Success? && m2.value.Some? {
      return Created(m2.value.value.accessCodeId, fallback, "booking_id_fallback_existing", true);
    }
    return CreationFailed(second.text);
  }

  /** The confirmation notice `send_confirmation_email` sends. */
  datatype Notice = Notice(guestName: string, propertyName: string, code: string, checkin: Instant, checkout: Instant)

  /** The notification channel: with no sender address configured nothing is sent. */
  class Notifier {
    const configured: bool
    var sent: seq<Notice>

    constructor(configured: bool)
      ensures this.configured == configured && sent == []
    {
      this.configured := configured;
      sent := [];
    }

    /** `send_confirmation_email`. */
    method Send(n: Notice)
      modifies this`sent
      ensures sent == if configured then old(sent) + [n] else old(sent)
    {
      if configured {
        sent := sent + [n];
      }
    }
  }

  /** The answer `create_access_code` gives once the creation has an outcome: the
      failure message with 502, or 200 saying whether the code was adopted or new. */
  function CreationAnswer(c: Creation): Response {
    match c
    case CreationFailed(message) => Response(502, message)
    case Created(_, _, _, isDuplicate) =>
      Response(200, if isDuplicate then "Access code already exists" else "Access code created successfully")
  }

  /** The record `_build_record` makes of a created code: the booking's ids and guest,
      the plan's lock and window, and the id, code and source of the creation. */
  function RecordOf(b: Booking, plan: Plan, c: Creation): Record
    requires c.Created?
  {
    Record(KeyOf(b.bookingId), b.propertyId, plan.device, c.accessCodeId, c.code,
           Some(plan.checkin), Some(plan.checkout), b.guestName, c.codeSource)
  }

  /** The end of `create_access_code`: `_create_with_fallback`, then, for a code that
      now exists, its record and, for a new one, the confirmation notice. */
  method CreateAndRecord(plan: Plan, b: Booking, tolerance: int, duplicateIsSuccess: bool,
                         remote: Remote, store: IdempotencyStore, notifier: Notifier)
    returns (resp: Response, written: Option<Record>, ghost creation: Creation)
    modifies remote`sessions, remote`listed, remote`created, store, notifier`sent
    ensures resp == CreationAnswer(creation)
    ensures written == if creation.Created? then Some(RecordOf(b, plan, creation)) else None
    ensures store.records == if written.Some? && store.enabled then old(store.records)[written.value.bookingId := written.value]
                             else old(store.records)
    ensures old(store.Valid()) ==> store.Valid()
    ensures notifier.sent == old(notifier.sent)
                             + (if notifier.configured && creation.Created? && !creation.isDuplicate
                                then [Notice(b.guestName, b.propertyName, creation.code, plan.checkin, plan.checkout)]
                                else [])
    ensures |old(remote.created)| <= |remote.created| <= |old(remote.created)| + 2
    ensures !remote.apiKeyConfigured ==>
              creation == CreationFailed("Missing SEAM_API_KEY") && remote.created == old(remote.created)
    ensures remote.apiKeyConfigured ==>
              var n := |old(remote.created)|;
              var first := ClassifyCreate(duplicateIsSuccess, remote.createReplyAt(n));
              && n < |remote.created| && remote.created[n] == PayloadOf(plan, plan.code)
              && (first.CreatedCode? ==> creation == Created(first.accessCodeId, plan.code, plan.codeSource, false))
              && (first.CreateFailed? ==> creation == CreationFailed(first.text))
    ensures creation.Created? ==>
              creation.code == plan.code || (FallbackDiffers(plan) && creation.code == plan.fallback.value)
    ensures creation == CreationFrom(old(ServiceOf(remote)), plan, tolerance, duplicateIsSuccess)
    ensures remote.created == old(remote.created) + CreatesFrom(old(ServiceOf(remote)), plan, tolerance, duplicateIsSuccess)
  {
    var c := CreateWithFallback(remote, plan, tolerance, duplicateIsSuccess);
    creation := c;
    if remote.apiKeyConfigured {
      assert remote.created[..|old(remote.created)| + 1][|old(remote.created)|] == PayloadOf(plan, plan.code);
    }
    if c.CreationFailed? {
      return Response(502, c.message), None, creation;
    }
    var rec := Record(KeyOf(b.bookingId), b.propertyId, plan.device, c.accessCodeId, c.code,
                      Some(plan.checkin), Some(plan.checkout), b.guestName, c.codeSource);
    store.Put(rec);
    if c.isDuplicate {
      return Response(200, "Access code already exists"), Some(rec), creation;
    }
    notifier.Send(Notice(b.guestName, b.propertyName, c.code, plan.checkin, plan.checkout));
    return Response(200, "Access code created successfully"), Some(rec), creation;
  }

  /** The service as `_delete_existing_code` leaves it: one listing session more when
      it looked the stored code up. */
  function AfterReplacement(s: Service, rec: Option<Record>): (r: Service)
    ensures r.keyed == s.keyed && r.creates == s.creates
  {
    if NeedsLookup(rec) && s.keyed then s.(sessions := s.sessions + 1) else s
  }

  /** What `create_access_code` does once a booking is validated or refused: its
      answer, the outcome of `_create_with_fallback` when that was called, and the
      create requests and delete requests sent. */
  datatype Outcome = Outcome(resp: Response, creation: Option<Creation>, sent: seq<CreatePayload>,
                             deletes: seq<DeleteTarget>)

  /** How `create_access_code` ends for a valid plan, given the stored record `rec`
      and the service `s` as they were: the idempotent hit; the listing error when a
      stale code without an id has to be looked up and no API key is set; or else the
      creation against the service as the replacement left it, answered by
      `CreationAnswer`. */
  function PlanOutcome(plan: Plan, tolerance: int, duplicateIsSuccess: bool, s: Service, rec: Option<Record>): (o: Outcome)
    ensures o.creation.None? <==> RecordMatches(rec, DesiredOf(plan), tolerance) || o.resp.Raised?
    ensures o.creation.None? ==> o.sent == []
    ensures o.creation.Some? ==> o.resp == CreationAnswer(o.creation.value)
    ensures o.resp.Raised? ==> o.resp == Raised("Missing SEAM_API_KEY") && !s.keyed && rec.Some?
    ensures o.creation.Some? && !s.keyed ==> o.creation.value == CreationFailed("Missing SEAM_API_KEY")
    ensures o.deletes == if o.creation.None? then [] else DeletesFrom(s, rec, plan.device, tolerance)
  {
    if RecordMatches(rec, DesiredOf(plan), tolerance) then Outcome(Response(200, "Access code already up to date"), None, [], [])
    else if NeedsLookup(rec) && !s.keyed then Outcome(Raised("Missing SEAM_API_KEY"), None, [], [])
    else
      var c := CreationFrom(AfterReplacement(s, rec), plan, tolerance, duplicateIsSuccess);
      Outcome(CreationAnswer(c), Some(c), CreatesFrom(AfterReplacement(s, rec), plan, tolerance, duplicateIsSuccess),
              DeletesFrom(s, rec, plan.device, tolerance))
  }

  /** With an API key, a plan that reaches the creation sends its own code first, and
      a first reply that is a new code or a refusal decides the outcome. */
  lemma PlanOutcomeFirstCreate(plan: Plan, tolerance: int, duplicateIsSuccess: bool, s: Service, rec: Option<Record>)
    requires s.keyed
    ensures var o := PlanOutcome(plan, tolerance, duplicateIsSuccess, s, rec);
            var first := ClassifyCreate(duplicateIsSuccess, s.createReplyAt(s.creates));
            o.creation.Some? ==>
              && o.sent != [] && o.sent[0] == PayloadOf(plan, plan.code)
              && (first.CreatedCode? ==> o.creation.value == Created(first.accessCodeId, plan.code, plan.codeSource, false))
              && (first.CreateFailed? ==> o.creation.value == CreationFailed(first.text))
  {
  }

  /** A booking delivered again once its code was created for the plan's own code
      and recorded finds the record and is answered "up to date", whatever the
      service would now answer: nothing is created twice. */
  lemma RedeliveryIsUpToDate(plan: Plan, tolerance: int, duplicateIsSuccess: bool, s: Service, b: Booking, c: Creation)
    requires c.Created? && c.code == plan.code && tolerance >= 0
    ensures PlanOutcome(plan, tolerance, duplicateIsSuccess, s, Some(RecordOf(b, plan, c)))
            == Outcome(Response(200, "Access code already up to date"), None, [], [])
  {
    RecordMatchesOwnWindow(RecordOf(b, plan, c), DesiredOf(plan), tolerance, 0);
  }

  /** The part of `create_access_code` that follows validation: the idempotency
      check, the replacement of a stale code, the creation, the record and the
      notice. `written` is the record put in the idempotency table, if any;
      `creation` is the outcome of `_create_with_fallback` when it was called. */
  method ProvisionPlan(plan: Plan, b: Booking, tolerance: int, duplicateIsSuccess: bool,
                       remote: Remote, store: IdempotencyStore, notifier: Notifier)
    returns (resp: Response, written: Option<Record>, ghost creation: Option<Creation>)
    modifies remote`sessions, remote`listed, remote`created, remote`deleted, store, notifier`sent
    ensures resp.Response? || resp.Raised?
    ensures |old(remote.created)| <= |remote.created| <= |old(remote.created)| + 2
    ensures |old(remote.deleted)| <= |remote.deleted| <= |old(remote.deleted)| + 1
    ensures |remote.deleted| > |old(remote.deleted)| ==> old(store.Get(b.bookingId)).Some?
    ensures old(store.Valid()) ==> store.Valid()
    ensures store.records == if written.Some? && store.enabled then old(store.records)[written.value.bookingId := written.value]
                             else old(store.records)
    ensures RecordMatches(old(store.Get(b.bookingId)), DesiredOf(plan), tolerance) ==>
              resp == Response(200, "Access code already up to date") && written.None?
              && remote.created == old(remote.created) && remote.deleted == old(remote.deleted)
              && remote.listed == old(remote.listed)
    ensures written.Some? <==>
              resp.Response? && resp.statusCode == 200
              && resp.body in {"Access code created successfully", "Access code already exists"}
    ensures written.Some? ==>
              && written.value.bookingId == KeyOf(b.bookingId)
              && written.value.deviceId == plan.device
              && written.value.startsAt == Some(plan.checkin)
              && written.value.endsAt == Some(plan.checkout)
              && (written.value.code == plan.code || (FallbackDiffers(plan) && written.value.code == plan.fallback.value))
    ensures written.Some? && written.value.code == plan.code && tolerance >= 0 ==>
              RecordMatches(Some(written.value), DesiredOf(plan), tolerance)
    ensures resp == Response(200, "Access code created successfully") ==>
              written.Some? &&
              notifier.sent == old(notifier.sent)
                               + (if notifier.configured
                                  then [Notice(b.guestName, b.propertyName, written.value.code, plan.checkin, plan.checkout)]
                                  else [])
    ensures resp != Response(200, "Access code created successfully") ==> notifier.sent == old(notifier.sent)
    ensures resp.Response? && resp.statusCode == 502 ==> written.None? && store.records == old(store.records)
    ensures written == if creation.Some? && creation.value.Created? then Some(RecordOf(b, plan, creation.value)) else None
    ensures old(store.Get(b.bookingId)).None? ==> creation.Some? && remote.deleted == old(remote.deleted)
    ensures var rec := old(store.Get(b.bookingId));
            rec.Some? && rec.value.accessCodeId != [] && !RecordMatches(rec, DesiredOf(plan), tolerance) ==>
              creation.Some?
              && remote.deleted == old(remote.deleted)
                                   + (if remote.apiKeyConfigured then [DeleteTarget(rec.value.accessCodeId, plan.device)] else [])
    ensures var o := PlanOutcome(plan, tolerance, duplicateIsSuccess, old(ServiceOf(remote)), old(store.Get(b.bookingId)));
            resp == o.resp && creation == o.creation && remote.created == old(remote.created) + o.sent
            && remote.deleted == old(remote.deleted) + o.deletes
  {
    var existing := store.Get(b.bookingId);
    if RecordMatches(existing, DesiredOf(plan), tolerance) {
      return Response(200, "Access code already up to date"), None, None;
    }
    if existing.Some? {
      var deleted := DeleteExistingCode(remote, existing.value, plan.device, tolerance);
      if deleted.Failure? {
        return Raised(deleted.error), None, None;
      }
    }
    assert ServiceOf(remote) == AfterReplacement(old(ServiceOf(remote)), existing);
    ghost var c;
    resp, written, c := CreateAndRecord(plan, b, tolerance, duplicateIsSuccess, remote, store, notifier);
    creation := Some(c);
  }

  /** How `create_access_code` answers a booking: the validation refusal, the zone
      error, or the outcome of its plan. */
  function AccessCodeOutcome(cfg: ProvisionConfig, b: Booking, s: Service, rec: Option<Record>): (o: Outcome)
    ensures !PlanProvisioning(cfg, b).Planned? ==> o.creation.None? && o.sent == [] && o.deletes == []
  {
    match PlanProvisioning(cfg, b)
    case Rejected(message) => Outcome(Response(400, message), None, [], [])
    case PlanRaised(error) => Outcome(Raised(error), None, [], [])
    case Planned(plan) => PlanOutcome(plan, cfg.tolerance, cfg.duplicateIsSuccess, s, rec)
  }

  /** `create_access_code(data)`: a booking that fails validation is answered 400 and
      changes nothing; a valid one is provisioned by `ProvisionPlan`. */
  method CreateAccessCode(cfg: ProvisionConfig, b: Booking, remote: Remote, store: IdempotencyStore, notifier: Notifier)
    returns (resp: Response, written: Option<Record>, ghost creation: Option<Creation>)
    modifies remote`sessions, remote`listed, remote`created, remote`deleted, store, notifier`sent
    ensures resp.Response? || resp.Raised?
    ensures |old(remote.created)| <= |remote.created| <= |old(remote.created)| + 2
    ensures old(store.Valid()) ==> store.Valid()
    ensures store.records == if written.Some? && store.enabled then old(store.records)[written.value.bookingId := written.value]
                             else old(store.records)
    ensures !PlanProvisioning(cfg, b).Planned? ==>
              written.None? && creation.None? && remote.created == old(remote.created) && remote.deleted == old(remote.deleted)
              && notifier.sent == old(notifier.sent)
    ensures PlanProvisioning(cfg, b).Rejected? ==> resp == Response(400, PlanProvisioning(cfg, b).message)
    ensures PlanProvisioning(cfg, b).PlanRaised? ==> resp == Raised(PlanProvisioning(cfg, b).error)
    ensures PlanProvisioning(cfg, b).Planned?
            && RecordMatches(old(store.Get(b.bookingId)), DesiredOf(PlanProvisioning(cfg, b).plan), cfg.tolerance) ==>
              resp == Response(200, "Access code already up to date") && written.None?
              && remote.created == old(remote.created) && remote.deleted == old(remote.deleted)
    ensures written.Some? ==>
              PlanProvisioning(cfg, b).Planned?
              && written.value.startsAt == Some(PlanProvisioning(cfg, b).plan.checkin)
              && written.value.endsAt == Some(PlanProvisioning(cfg, b).plan.checkout)
    ensures resp.Response? && resp.statusCode == 502 ==> written.None? && store.records == old(store.records)
    ensures PlanProvisioning(cfg, b).Planned? ==>
              var plan := PlanProvisioning(cfg, b).plan;
              && written == (if creation.Some? && creation.value.Created? then Some(RecordOf(b, plan, creation.value)) else None)
              && (var rec := old(store.Get(b.bookingId));
                  rec.Some? && rec.value.accessCodeId != [] && !RecordMatches(rec, DesiredOf(plan), cfg.tolerance) ==>
                    creation.Some?
                    && remote.deleted == old(remote.deleted)
                                         + (if remote.apiKeyConfigured then [DeleteTarget(rec.value.accessCodeId, plan.device)] else []))
    ensures notifier.sent == old(notifier.sent)
                             + (if notifier.configured && creation.Some? && creation.value.Created? && !creation.value.isDuplicate
                                then [Notice(b.guestName, b.propertyName, creation.value.code,
                                             PlanProvisioning(cfg, b).plan.checkin, PlanProvisioning(cfg, b).plan.checkout)]
                                else [])
    ensures var o := AccessCodeOutcome(cfg, b, old(ServiceOf(remote)), old(store.Get(b.bookingId)));
            resp == o.resp && creation == o.creation && remote.created == old(remote.created) + o.sent
            && remote.deleted == old(remote.deleted) + o.deletes
  {
    var planned := PlanProvisioning(cfg, b);
    if planned.Rejected? {
      return Response(400, planned.message), None, None;
    }
    if planned.PlanRaised? {
      return Raised(planned.error), None, None;
    }
    resp, written, creation := ProvisionPlan(planned.plan, b, cfg.tolerance, cfg.duplicateIsSuccess, remote, store, notifier);
  }

  /** How `_process_payload` answers a booking, given the outcome of
      `_create_with_fallback` when it was called: skipped unless booked or confirmed,
      the validation refusal or zone error, then the idempotent hit or the listing
      error of a stale-code replacement when nothing was created, else the answer
      the creation gets. */
  predicate PayloadAnswer(cfg: ProvisionConfig, b: Booking, keyed: bool, resp: Response, creation: Option<Creation>) {
    if !ShouldProcess(b.status) then resp == Response(200, "Skipped non-confirmed booking") && creation.None?
    else match PlanProvisioning(cfg, b)
      case Rejected(message) => resp == Response(400, message) && creation.None?
      case PlanRaised(error) => resp == Raised(error) && creation.None?
      case Planned(_) =>
        match creation
        case None => resp == Response(200, "Access code already up to date") || (resp == Raised("Missing SEAM_API_KEY") && !keyed)
        case Some(c) => resp == CreationAnswer(c)
  }

  /** How `_process_payload` answers a booking against the service `s` and the stored
      record `rec`: skipped unless booked or confirmed, else as `create_access_code`
      answers it. */
  function BookingOutcome(cfg: ProvisionConfig, b: Booking, s: Service, rec: Option<Record>): (o: Outcome)
    ensures !ShouldProcess(b.status) ==> o.creation.None? && o.sent == [] && o.deletes == [] && o.resp.Response?
  {
    if !ShouldProcess(b.status) then Outcome(Response(200, "Skipped non-confirmed booking"), None, [], [])
    else AccessCodeOutcome(cfg, b, s, rec)
  }

  /** `_process_payload(data)`: only booked and confirmed bookings are provisioned. */
  method ProcessPayload(cfg: ProvisionConfig, b: Booking, remote: Remote, store: IdempotencyStore, notifier: Notifier)
    returns (resp: Response, ghost creation: Option<Creation>)
    modifies remote`sessions, remote`listed, remote`created, remote`deleted, store, notifier`sent
    ensures !resp.BatchResponse?
    ensures PayloadAnswer(cfg, b, remote.apiKeyConfigured, resp, creation)
    ensures !ShouldProcess(b.status) ==>
              resp == Response(200, "Skipped non-confirmed booking")
              && remote.created == old(remote.created) && remote.deleted == old(remote.deleted)
              && store.records == old(store.records) && notifier.sent == old(notifier.sent)
    ensures ShouldProcess(b.status) && PlanProvisioning(cfg, b).Rejected? ==>
              resp == Response(400, PlanProvisioning(cfg, b).message)
    ensures creation.Some? ==> ShouldProcess(b.status) && PlanProvisioning(cfg, b).Planned?
    ensures store.records == if creation.Some? && creation.value.Created? && store.enabled
                             then old(store.records)[KeyOf(b.bookingId) := RecordOf(b, PlanProvisioning(cfg, b).plan, creation.value)]
                             else old(store.records)
    ensures creation.None? ==> remote.created == old(remote.created) && notifier.sent == old(notifier.sent)
    ensures |old(remote.created)| <= |remote.created| <= |old(remote.created)| + 2
    ensures old(store.Valid()) ==> store.Valid()
    ensures var o := BookingOutcome(cfg, b, old(ServiceOf(remote)), old(store.Get(b.bookingId)));
            resp == o.resp && creation == o.creation && remote.created == old(remote.created) + o.sent
            && remote.deleted == old(remote.deleted) + o.deletes
  {
    if !ShouldProcess(b.status) {
      return Response(200, "Skipped non-confirmed booking"), None;
    }
    var written;
    resp, written, creation := CreateAccessCode(cfg, b, remote, store, notifier);
  }

  /** The shapes `lambda_handler` distinguishes once the event body is decoded. */
  datatype Event = SingleEvent(booking: Booking) | BatchEvent(items: seq<Booking>) | NotAnObject

  /** `lambda_handler(event, context)`: a single booking is answered as
      `_process_payload` answers it; a list is processed item by item, in order, and
      answered 200 when every item was accepted and 207 otherwise; an exception
      raised by any item ends the invocation. `creations` holds the creation outcome
      of each booking processed. */
  method HandleEvent(cfg: ProvisionConfig, ev: Event, remote: Remote, store: IdempotencyStore, notifier: Notifier)
    returns (resp: Response, ghost creations: seq<Option<Creation>>)
    modifies remote`sessions, remote`listed, remote`created, remote`deleted, store, notifier`sent
    ensures ev.NotAnObject? ==> resp == Response(400, "Invalid payload.") && remote.created == old(remote.created)
    ensures ev.SingleEvent? ==>
              !resp.BatchResponse? && |creations| == 1
              && PayloadAnswer(cfg, ev.booking, remote.apiKeyConfigured, resp, creations[0])
              && (var o := BookingOutcome(cfg, ev.booking, old(ServiceOf(remote)), old(store.Get(ev.booking.bookingId)));
                  resp == o.resp && creations[0] == o.creation && remote.created == old(remote.created) + o.sent
                  && remote.deleted == old(remote.deleted) + o.deletes)
    ensures ev.BatchEvent? ==> resp.BatchResponse? || resp.Raised?
    ensures ev.BatchEvent? && resp.BatchResponse? ==>
              && |resp.items| == |ev.items| == |creations|
              && (forall i :: 0 <= i < |resp.items| ==> !resp.items[i].Raised?)
              && resp.statusCode == AggregateStatus(resp.items)
              && (forall i :: 0 <= i < |ev.items| ==>
                    PayloadAnswer(cfg, ev.items[i], remote.apiKeyConfigured, resp.items[i], creations[i]))
    ensures ev.BatchEvent? && resp.Raised? ==>
              0 < |creations| <= |ev.items|
              && PayloadAnswer(cfg, ev.items[|creations| - 1], remote.apiKeyConfigured, resp, creations[|creations| - 1])
    ensures ev.BatchEvent? ==> |remote.created| <= |old(remote.created)| + 2 * |ev.items|
    ensures old(store.Valid()) ==> store.Valid()
  {
    match ev
    case NotAnObject =>
      return Response(400, "Invalid payload."), [];
    case SingleEvent(booking) =>
      ghost var creation;
      resp, creation := ProcessPayload(cfg, booking, remote, store, notifier);
      creations := [creation];
    case BatchEvent(items) =>
      resp, creations := ProcessBatch(cfg, items, remote, store, notifier);
  }

  /** The list branch of `lambda_handler`: every item in order, each answered as
      `_process_payload` answers it; an exception raised by one item ends the whole
      invocation with that exception. */
  method ProcessBatch(cfg: ProvisionConfig, items: seq<Booking>, remote: Remote, store: IdempotencyStore, notifier: Notifier)
    returns (resp: Response, ghost creations: seq<Option<Creation>>)
    modifies remote`sessions, remote`listed, remote`created, remote`deleted, store, notifier`sent
    ensures resp.BatchResponse? || resp.Raised?
    ensures resp.BatchResponse? ==>
              && |resp.items| == |items| == |creations|
              && (forall i :: 0 <= i < |resp.items| ==> !resp.items[i].Raised?)
              && resp.statusCode == AggregateStatus(resp.items)
              && (forall i :: 0 <= i < |items| && !ShouldProcess(items[i].status) ==>
                    resp.items[i] == Response(200, "Skipped non-confirmed booking"))
              && (forall i :: 0 <= i < |items| ==>
                    PayloadAnswer(cfg, items[i], remote.apiKeyConfigured, resp.items[i], creations[i]))
    ensures resp.Raised? ==>
              0 < |creations| <= |items|
              && PayloadAnswer(cfg, items[|creations| - 1], remote.apiKeyConfigured, resp, creations[|creations| - 1])
    ensures |remote.created| <= |old(remote.created)| + 2 * |items|
    ensures old(store.Valid()) ==> store.Valid()
  {
    var results: seq<Response> := [];
    creations := [];
    var i := 0;
    while i < |items|
      invariant 0 <= i <= |items| && |results| == i == |creations|
      invariant forall j :: 0 <= j < i ==> !results[j].Raised? && !results[j].BatchResponse?
      invariant forall j :: 0 <= j < i ==> PayloadAnswer(cfg, items[j], remote.apiKeyConfigured, results[j], creations[j])
      invariant |remote.created| <= |old(remote.created)| + 2 * i
      invariant old(store.Valid()) ==> store.Valid()
    {
      var r;
      ghost var creation;
      r, creation := ProcessPayload(cfg, items[i], remote, store, notifier);
      creations := creations + [creation];
      if r.Raised? {
        return r, creations;
      }
      results := results + [r];
      i := i + 1;
    }
    return BatchResponse(AggregateStatus(results), results), creations;
  }
}

=== FILE: store.dfy ===
/**
 * The idempotency table: one record per booking id, read before a code is
 * provisioned, written after it is created and removed when the booking is
 * cancelled (`_get_booking_record`, `_put_booking_record`,
 * `_delete_booking_record`). With no table configured every read finds nothing
 * and every write is dropped.
 */
module Store {
  import opened Common
  import opened AccessCodes

  /** `str(booking_id)`: the key a record is written under. A missing id is spelled
      "None", so records of bookings without an id share one key. */
  function KeyOf(bookingId: Option<string>): (k: string)
    ensures bookingId.Some? ==> k == bookingId.value
    ensures bookingId.None? ==> k == "None"
  {
    if bookingId.Some? then bookingId.value else "None"
  }

  /** Every record sits under its own booking id. */
  predicate KeyedById(records: map<string, Record>) {
    forall k :: k in records ==> records[k].bookingId == k
  }

  /** What a read returns from a table holding `records`: nothing when the table is
      not configured or the id is missing. */
  function Lookup(enabled: bool, records: map<string, Record>, bookingId: Option<string>): (r: Option<Record>)
    ensures r.Some? <==> enabled && bookingId.Some? && bookingId.value in records
    ensures r.Some? ==> r.value == records[bookingId.value]
    ensures KeyedById(records) && r.Some? ==> r.value.bookingId == bookingId.value
  {
    if enabled && bookingId.Some? && bookingId.value in records then Some(records[bookingId.value]) else None
  }

  /** A record written for a present booking id is what the next read of that id
      returns, and the other ids read as before. */
  lemma ReadAfterWrite(enabled: bool, records: map<string, Record>, rec: Record, other: Option<string>)
    requires enabled
    requires other.Some? ==> other.value != rec.bookingId
    ensures Lookup(enabled, records[rec.bookingId := rec], Some(rec.bookingId)) == Some(rec)
    ensures Lookup(enabled, records[rec.bookingId := rec], other) == Lookup(enabled, records, other)
  {
  }

  /** After a removal the id reads as absent and the other ids read as before. */
  lemma ReadAfterRemove(records: map<string, Record>, id: string, other: Option<string>)
    requires other.Some? ==> other.value != id
    ensures Lookup(true, records - {id}, Some(id)).None?
    ensures Lookup(true, records - {id}, other) == Lookup(true, records, other)
  {
  }

  class IdempotencyStore {
    /** Whether `IDEMPOTENCY_TABLE` names a table. */
    const enabled: bool
    var records: map<string, Record>

    predicate Valid()
      reads this
    {
      KeyedById(records)
    }

    constructor(enabled: bool, records: map<string, Record>)
      requires KeyedById(records)
      ensures this.enabled == enabled && this.records == records && Valid()
    {
      this.enabled := enabled;
      this.records := records;
    }

    /** `_get_booking_record(booking_id)`. */
    function Get(bookingId: Option<string>): (r: Option<Record>)
      reads this
      ensures r.Some? <==> enabled && bookingId.Some? && bookingId.value in records
      ensures Valid() && r.Some? ==> r.value.bookingId == bookingId.value
    {
      Lookup(enabled, records, bookingId)
    }

    /** `_put_booking_record(record)`: the record replaces whatever was stored under
        its booking id. */
    method Put(rec: Record)
      modifies this
      ensures records == if enabled then old(records)[rec.bookingId := rec] else old(records)
      ensures old(Valid()) ==> Valid()
    {
      if enabled {
        records := records[rec.bookingId := rec];
      }
    }

    /** `_delete_booking_record(booking_id)`: nothing happens for a missing id. */
    method Delete(bookingId: Option<string>)
      modifies this
      ensures records == if enabled && bookingId.Some? then old(records) - {bookingId.value} else old(records)
      ensures old(Valid()) ==> Valid()
    {
      if enabled && bookingId.Some? {
        records := records - {bookingId.value};
      }
    }
  }
}

=== FILE: strings.dfy ===
/**
 * Text helpers with the meaning Python's `str` methods have on ASCII text:
 * digit filtering (`re.sub(r"\D", "", s)`), `lower()`, `strip()`, `in`,
 * `startswith`, `split(":", 1)`, code-point ordering of strings and the
 * decimal rendering of a count.
 */
module Strings {
  import opened Common

  predicate IsDigit(c: char) { '0' <= c <= '9' }

  predicate IsAsciiLetter(c: char) { 'a' <= c <= 'z' || 'A' <= c <= 'Z' }

  predicate IsAlnum(c: char) { IsDigit(c) || IsAsciiLetter(c) }

  /** The ASCII characters for which Python's `str.isspace()` holds. */
  predicate IsSpace(c: char) { c == ' ' || '\t' <= c <= '\r' || '\U{1C}' <= c <= '\U{1F}' }

  predicate AllDigits(s: string) { forall i :: 0 <= i < |s| ==> IsDigit(s[i]) }

  /** The digits of `s`, in order: `re.sub(r"\D", "", s)`. */
  function Digits(s: string): (r: string)
    ensures AllDigits(r)
    ensures |r| <= |s|
    ensures AllDigits(s) ==> r == s
  {
    if s == [] then []
    else (if IsDigit(s[0]) then [s[0]] else []) + Digits(s[1..])
  }

  lemma {:induction false} DigitsAppend(a: string, b: string)
    ensures Digits(a + b) == Digits(a) + Digits(b)
  {
    if a == [] {
      assert a + b == b;
    } else {
      assert (a + b)[1..] == a[1..] + b;
      DigitsAppend(a[1..], b);
      AppendAssociates(if IsDigit(a[0]) then [a[0]] else [], Digits(a[1..]), Digits(b));
    }
  }

  /** The ASCII letters and digits of `s`, in order: `re.sub(r"[^A-Za-z0-9]", "", s)`. */
  function Alnums(s: string): (r: string)
    ensures forall i :: 0 <= i < |r| ==> IsAlnum(r[i])
    ensures |r| <= |s|
  {
    if s == [] then []
    else (if IsAlnum(s[0]) then [s[0]] else []) + Alnums(s[1..])
  }

  function LowerChar(c: char): char {
    if 'A' <= c <= 'Z' then (c as int + 32) as char else c
  }

  /** `s.lower()` on ASCII letters; every other character is kept. */
  function Lower(s: string): (r: string)
    ensures |r| == |s|
    ensures forall i {:trigger r[i]} :: 0 <= i < |s| ==> r[i] == LowerChar(s[i])
  {
    seq(|s|, i requires 0 <= i < |s| => LowerChar(s[i]))
  }

  lemma LowerSlice(s: string, i: nat, j: nat)
    requires i <= j <= |s|
    ensures Lower(s)[i..j] == Lower(s[i..j])
  {
  }

  lemma LowerIdempotent(s: string)
    ensures Lower(Lower(s)) == Lower(s)
  {
  }

  /** `t` occurs in `s` starting at position `i`. */
  predicate OccursAt(s: string, t: string, i: int) {
    0 <= i <= |s| - |t| && s[i..i + |t|] == t
  }

  /** Python's `t in s` on strings. */
  predicate Contains(s: string, t: string) {
    exists i | 0 <= i <= |s| - |t| :: OccursAt(s, t, i)
  }

  /** Lower-casing a text keeps every word it contains, lower-cased: a case-insensitive
      search for `w` may look for `Lower(w)` in `Lower(t)`. */
  lemma {:induction false} ContainsLower(t: string, w: string)
    requires Contains(t, w)
    ensures Contains(Lower(t), Lower(w))
  {
    var i :| 0 <= i <= |t| - |w| && OccursAt(t, w, i);
    LowerSlice(t, i, i + |w|);
    assert OccursAt(Lower(t), Lower(w), i);
  }

  predicate StartsWith(s: string, p: string) {
    |p| <= |s| && s[..|p|] == p
  }

  /** `s.lstrip()` */
  function TrimStart(s: string): (r: string)
    ensures |r| <= |s| && r == s[|s| - |r|..]
    ensures r != [] ==> !IsSpace(r[0])
    ensures forall i :: 0 <= i < |s| - |r| ==> IsSpace(s[i])
  {
    if s != [] && IsSpace(s[0]) then TrimStart(s[1..]) else s
  }

  /** `s.rstrip()` */
  function TrimEnd(s: string): (r: string)
    ensures |r| <= |s| && r == s[..|r|]
    ensures r != [] ==> !IsSpace(r[|r| - 1])
    ensures forall i :: |r| <= i < |s| ==> IsSpace(s[i])
  {
    if s != [] && IsSpace(s[|s| - 1]) then TrimEnd(s[..|s| - 1]) else s
  }

  /** `s.strip()`: the text with its surrounding whitespace removed. */
  function Trim(s: string): (r: string)
    ensures |r| <= |s|
    ensures r != [] ==> !IsSpace(r[0]) && !IsSpace(r[|r| - 1])
  {
    TrimEnd(TrimStart(s))
  }

  /** Stripping is idempotent: the result of `strip()` has nothing left to strip. */
  lemma TrimIdempotent(s: string)
    ensures Trim(Trim(s)) == Trim(s)
  {
    var r := Trim(s);
    assert TrimStart(r) == r;
    assert TrimEnd(r) == r;
  }

  /** A text that neither starts nor ends with whitespace is its own `strip()`. */
  lemma TrimOfTrimmed(s: string)
    requires s != [] ==> !IsSpace(s[0]) && !IsSpace(s[|s| - 1])
    ensures Trim(s) == s
  {
    assert TrimStart(s) == s;
  }

  /** The position of the first occurrence of `c` in `s`. */
  function IndexOf(s: string, c: char): (r: Option<nat>)
    ensures r.Some? ==> r.value < |s| && s[r.value] == c
    ensures r.Some? ==> forall j :: 0 <= j < r.value ==> s[j] != c
    ensures r.None? ==> forall j :: 0 <= j < |s| ==> s[j] != c
  {
    if s == [] then None
    else if s[0] == c then Some(0)
    else match IndexOf(s[1..], c)
      case None => None
      case Some(k) => Some(k + 1)
  }

  /** `line.split(":", 1)[1]`: the text after the first colon; `None` where Python
      would raise `IndexError` because the line holds no colon. */
  function AfterFirstColon(line: string): (r: Option<string>)
    ensures r.None? <==> ':' !in line
    ensures r.Some? ==> exists k :: 0 <= k < |line| && line[k] == ':' && r.value == line[k + 1..] && ':' !in line[..k]
  {
    match IndexOf(line, ':')
    case None => None
    case Some(k) =>
      assert line[k] == ':';
      Some(line[k + 1..])
  }

  /** The text after a prefix that ends in a colon is exactly what follows the prefix. */
  lemma AfterPrefixWithColon(p: string, v: string)
    requires p != [] && p[|p| - 1] == ':' && ':' !in p[..|p| - 1]
    ensures AfterFirstColon(p + v) == Some(v)
  {
    var line := p + v;
    assert line[|p| - 1] == ':';
    assert forall j :: 0 <= j < |p| - 1 ==> line[j] == p[..|p| - 1][j];
    assert line[|p|..] == v;
  }

  /** Python's `a <= b` on strings: lexicographic by code point. */
  predicate StrLe(a: string, b: string) {
    if a == [] then true
    else if b == [] then false
    else if a[0] != b[0] then a[0] < b[0]
    else StrLe(a[1..], b[1..])
  }

  lemma {:induction false} StrLeTotal(a: string, b: string)
    ensures StrLe(a, b) || StrLe(b, a)
  {
    if a != [] && b != [] && a[0] == b[0] {
      StrLeTotal(a[1..], b[1..]);
    }
  }

  lemma {:induction false} StrLeAntisymmetric(a: string, b: string)
    requires StrLe(a, b) && StrLe(b, a)
    ensures a == b
  {
    if a != [] && b != [] {
      StrLeAntisymmetric(a[1..], b[1..]);
      assert a == [a[0]] + a[1..];
      assert b == [b[0]] + b[1..];
    }
  }

  lemma {:induction false} StrLeTransitive(a: string, b: string, c: string)
    requires StrLe(a, b) && StrLe(b, c)
    ensures StrLe(a, c)
  {
    if a != [] && b != [] && c != [] && a[0] == b[0] && b[0] == c[0] {
      StrLeTransitive(a[1..], b[1..], c[1..]);
    }
  }

  function DigitChar(d: nat): char
    requires d < 10
  {
    ('0' as int + d) as char
  }

  /** `str(n)` for a count. */
  function NatToDecimal(n: nat): (r: string)
    ensures r != [] && AllDigits(r)
  {
    if n < 10 then [DigitChar(n)] else NatToDecimal(n / 10) + [DigitChar(n % 10)]
  }

  /** `int(s)` for a string of ASCII digits. */
  function DecimalValue(s: string): nat
    requires AllDigits(s)
  {
    if s == [] then 0
    else DecimalValue(s[..|s| - 1]) * 10 + (s[|s| - 1] as int - '0' as int)
  }

  /** Reading back a rendered count gives the count. */
  lemma {:induction false} DecimalRoundTrip(n: nat)
    ensures DecimalValue(NatToDecimal(n)) == n
  {
    if n >= 10 {
      var s := NatToDecimal(n);
      assert s[..|s| - 1] == NatToDecimal(n / 10);
      DecimalRoundTrip(n / 10);
    }
  }
}

=== FILE: validate.dfy ===
/**
 * The half-day occupancy check run on a built calendar: every day of a month is cut
 * into an morning and an afternoon half; a stay occupies the afternoon of check-in
 * to the morning of check-out, and no half may be occupied twice.
 */
module Validate {
  import opened Common
  import opened Dates
  import opened CalendarBuild

  // ---------------------------------------------------------------------------
  // Months

  /** `month_start(d)`: the first day of `d`'s month. */
  function MonthStart(d: Date): (r: Date)
    requires IsCalendarDate(d)
    ensures IsCalendarDate(r) && OnOrBefore(r, d)
    ensures r.year == d.year && r.month == d.month && r.day == 1
  {
    d.(day := 1)
  }

  /** `d + timedelta(days=n)`. */
  function AddDays(d: Date, n: nat): (r: Date)
    requires IsCalendarDate(d)
    ensures IsCalendarDate(r)
    decreases n
  {
    if n == 0 then d else AddDays(NextDay(d), n - 1)
  }

  /** `month_end(d)`: the 28th of the month plus four days lies in the next month;
      the day before that month's first day is the last day of `d`'s month. */
  function MonthEnd(d: Date): (r: Date)
    requires IsCalendarDate(d)
    ensures IsCalendarDate(r)
    ensures r == Date(d.year, d.month, DaysInMonth(d.year, d.month))
  {
    var day28 := d.(day := 28);
    var next := AddDays(day28, 4);
    assert next == AddDays(NextDay(day28), 3);
    assert next == AddDays(NextDay(NextDay(day28)), 2);
    assert next == NextDay(NextDay(NextDay(NextDay(day28))));
    PrevDay(next.(day := 1))
  }

  /** The first and the last day of one month. */
  predicate MonthBounds(mStart: Date, mEnd: Date) {
    IsCalendarDate(mStart) && mStart.day == 1 && mEnd == Date(mStart.year, mStart.month, DaysInMonth(mStart.year, mStart.month))
  }

  /** Months counted from year 0: the twelve months of year `y` are `12 * y` to
      `12 * y + 11`. */
  function MonthIndex(d: Date): int {
    d.year * 12 + d.month - 1
  }

  /** The first day of the month with index `k`. */
  function FirstOfMonth(k: int): (r: Date)
    requires k >= 12
    ensures IsCalendarDate(r) && r.day == 1 && MonthIndex(r) == k
  {
    Date(k / 12, k % 12 + 1, 1)
  }

  /** The months from the month of `start` to the month of `end`, by their first
      days. */
  function Months(start: Date, end: Date): (r: seq<Date>)
    requires IsCalendarDate(start)
    ensures forall k :: 0 <= k < |r| ==> IsCalendarDate(r[k]) && r[k].day == 1
  {
    var n := MonthIndex(end) - MonthIndex(start) + 1;
    var months := seq(if n < 0 then 0 else n, i requires 0 <= i => FirstOfMonth(MonthIndex(start) + i));
    assert forall k :: 0 <= k < |months| ==> months[k] == FirstOfMonth(MonthIndex(start) + k);
    months
  }

  /** On first days of months, the order of dates is the order of month indices. */
  lemma FirstDayOrder(c: Date, e: Date)
    requires c.day == 1 && 1 <= c.month <= 12 && 1 <= e.month <= 12 && 1 <= e.day
    ensures OnOrBefore(c, e) <==> MonthIndex(c) <= MonthIndex(e)
  {
    if c.year < e.year {
      assert c.year * 12 + 12 <= e.year * 12;
    } else if c.year > e.year {
      assert e.year * 12 + 12 <= c.year * 12;
    }
  }

  /** The month after `c`, as `iter_months` steps to it. */
  lemma NextMonthIndex(c: Date)
    requires 1 <= c.month <= 12
    ensures MonthIndex(Date(c.year + c.month / 12, c.month % 12 + 1, 1)) == MonthIndex(c) + 1
  {
    if c.month == 12 {
      assert (c.year + 1) * 12 == c.year * 12 + 12;
    }
  }

  /** A first day is the first day of its month index. */
  lemma FirstOfMonthOfIndex(c: Date)
    requires IsCalendarDate(c) && c.day == 1
    ensures FirstOfMonth(MonthIndex(c)) == c
  {
    var k := MonthIndex(c);
    assert k == c.year * 12 + (c.month - 1) && 0 <= c.month - 1 < 12;
    assert k / 12 == c.year && k % 12 == c.month - 1;
  }

  /** `iter_months(start, end)`: the first days of the months from `start`'s month
      for as long as they are not after `end`. */
  method IterMonths(start: Date, end: Date) returns (months: seq<Date>)
    requires IsCalendarDate(start) && IsCalendarDate(end)
    ensures months == Months(start, end)
    ensures forall i :: 0 <= i < |months| ==> months[i].day == 1 && OnOrBefore(months[i], end)
    ensures months != [] ==> months[0] == MonthStart(start)
    ensures forall i :: 0 < i < |months| ==> MonthIndex(months[i]) == MonthIndex(months[i - 1]) + 1
  {
    months := [];
    var cursor := start.(day := 1);
    while OnOrBefore(cursor, end)
      invariant IsCalendarDate(cursor) && cursor.day == 1
      invariant MonthIndex(cursor) == MonthIndex(start) + |months|
      invariant months != [] ==> MonthIndex(cursor) <= MonthIndex(end) + 1
      invariant forall i :: 0 <= i < |months| ==> months[i] == FirstOfMonth(MonthIndex(start) + i)
      invariant forall i :: 0 <= i < |months| ==> OnOrBefore(months[i], end)
      decreases MonthIndex(end) - MonthIndex(cursor) + 1
    {
      FirstOfMonthOfIndex(cursor);
      FirstDayOrder(cursor, end);
      NextMonthIndex(cursor);
      months := months + [cursor];
      var year := cursor.year + cursor.month / 12;
      var month := cursor.month % 12 + 1;
      cursor := Date(year, month, 1);
    }
    FirstDayOrder(cursor, end);
  }

  // ---------------------------------------------------------------------------
  // Halves and spans

  /** `half_index(day, half)`: the morning of day `n` is half `2n - 1`, its
      afternoon half `2n`. */
  function HalfIndex(day: Date, half: string): int {
    (day.day - 1) * 2 + (if half == "pm" then 2 else 1)
  }

  /** Each half of a month has one index: two halves share an index exactly when they
      are the same half of the same day. */
  lemma HalvesAreDistinct(d: Date, e: Date, h1: string, h2: string)
    requires d.year == e.year && d.month == e.month
    ensures HalfIndex(d, h1) == HalfIndex(e, h2) <==> d == e && (h1 == "pm" <==> h2 == "pm")
  {
  }

  /** `compute_span(event, month_start, month_end, checkouts)`: the half-open range of
      halves the event occupies in the month, or nothing when it lies outside it. A
      closed period starts on the morning of its first day, or on the afternoon when
      a stay checks out that day; a stay starts on the afternoon of check-in, or on
      the first morning when it began before the month. Both end after the morning
      of their last day (a closed period before it), or at the end of the month. */
  function ComputeSpan(ev: Event, mStart: Date, mEnd: Date, checkouts: set<Date>): (r: Option<(int, int)>)
    requires MonthBounds(mStart, mEnd) && IsCalendarDate(ev.start) && IsCalendarDate(ev.end)
    ensures r.None? <==> OnOrBefore(ev.end, mStart) || OnOrBefore(NextDay(mEnd), ev.start)
    ensures r.Some? ==> 1 <= r.value.0 <= 2 * mEnd.day && r.value.1 <= 2 * mEnd.day + 1
    ensures r.Some? ==> (r.value.0 + 1) / 2 == Max(ev.start, mStart).day
    ensures r.Some? && ev.kind == Closed ==> (r.value.0 % 2 == 0 <==> ev.start in checkouts)
    ensures r.Some? && ev.kind == Reservation ==> (r.value.0 % 2 == 1 <==> Before(ev.start, mStart))
    ensures r.Some? ==> (r.value.1 == 2 * mEnd.day + 1 <==> OnOrBefore(NextDay(mEnd), ev.end))
    ensures r.Some? && Before(ev.end, NextDay(mEnd)) ==>
              r.value.1 == (if ev.kind == Closed then 2 * ev.end.day - 1 else 2 * ev.end.day)
  {
    var endExclusive := NextDay(mEnd);
    if OnOrBefore(ev.end, mStart) || OnOrBefore(endExclusive, ev.start) then None
    else
      var displayStart := Max(ev.start, mStart);
      var displayEnd := Min(ev.end, endExclusive);
      var days := mEnd.day;
      if ev.kind == Closed then
        var startHalf := HalfIndex(displayStart, if ev.start in checkouts then "pm" else "am");
        var endHalf := if OnOrBefore(endExclusive, ev.end) then days * 2 + 1 else HalfIndex(displayEnd, "am");
        Some((startHalf, endHalf))
      else
        var startHalf := if Before(ev.start, mStart) then HalfIndex(displayStart, "am") else HalfIndex(displayStart, "pm");
        var endHalf := if OnOrBefore(endExclusive, ev.end) then days * 2 + 1 else HalfIndex(displayEnd, "am") + 1;
        Some((startHalf, endHalf))
  }

  /** The checkout days of a property's stays: `{e["end"] for e in events if
      e.get("type") != "closed"}`. */
  function Checkouts(events: seq<Event>): (r: set<Date>)
    ensures forall i :: 0 <= i < |events| && events[i].kind == Reservation ==> events[i].end in r
  {
    set i | 0 <= i < |events| && events[i].kind == Reservation :: events[i].end
  }

  /** A stay that ends on or before the day another event starts leaves the halves
      of that event free, whatever kind the other is: back-to-back stays meet at the
      middle of the changeover day, and a closed period starting on a checkout day
      starts that afternoon. */
  lemma OrderedEventsDoNotClash(a: Event, b: Event, mStart: Date, mEnd: Date, checkouts: set<Date>)
    requires MonthBounds(mStart, mEnd)
    requires IsCalendarDate(a.start) && IsCalendarDate(a.end) && IsCalendarDate(b.start) && IsCalendarDate(b.end)
    requires a.kind == Reservation ==> a.end in checkouts
    requires OnOrBefore(a.end, b.start)
    requires ComputeSpan(a, mStart, mEnd, checkouts).Some? && ComputeSpan(b, mStart, mEnd, checkouts).Some?
    ensures ComputeSpan(a, mStart, mEnd, checkouts).value.1 <= ComputeSpan(b, mStart, mEnd, checkouts).value.0
  {
    var endExclusive := NextDay(mEnd);
    assert endExclusive.month != mStart.month || endExclusive.year != mStart.year;
  }

  /** An event of at least one night occupies at least one half. */
  lemma SpanIsValid(ev: Event, mStart: Date, mEnd: Date, checkouts: set<Date>)
    requires MonthBounds(mStart, mEnd) && IsCalendarDate(ev.start) && IsCalendarDate(ev.end)
    requires Before(ev.start, ev.end)
    requires ComputeSpan(ev, mStart, mEnd, checkouts).Some?
    ensures ComputeSpan(ev, mStart, mEnd, checkouts).value.0 < ComputeSpan(ev, mStart, mEnd, checkouts).value.1
  {
    var endExclusive := NextDay(mEnd);
    assert endExclusive.month != mStart.month || endExclusive.year != mStart.year;
  }

  // ---------------------------------------------------------------------------
  // Occupancy of one month

  /** The halves a span claims: those of the range that lie in the month. */
  function Halves(span: (int, int), days: int): set<int> {
    set h | span.0 <= h < span.1 && Covers(span, days, h)
  }

  predicate Covers(span: (int, int), days: int, h: int) {
    span.0 <= h < span.1 && 1 <= h <= 2 * days
  }

  /** The inner loop over `range(start_half, end_half)`: halves outside the month are
      passed over; the first half already taken stops the event; each free half is
      taken. */
  function Fill(occupancy: map<int, string>, h: int, end: int, days: int, uid: string): (r: (map<int, string>, Option<int>))
    ensures r.1.None? <==> Halves((h, end), days) !! occupancy.Keys
    ensures r.1.None? ==> r.0.Keys == occupancy.Keys + Halves((h, end), days)
    ensures r.1.Some? ==> r.1.value in occupancy && r.1.value in Halves((h, end), days)
    ensures r.1.Some? ==> forall k :: h <= k < r.1.value && 1 <= k <= 2 * days ==> k !in occupancy
    decreases end - h
  {
    if h >= end then (occupancy, None)
    else if h < 1 || h > days * 2 then
      assert Halves((h, end), days) == Halves((h + 1, end), days);
      Fill(occupancy, h + 1, end, days, uid)
    else if h in occupancy then
      assert h in Halves((h, end), days);
      (occupancy, Some(h))
    else
      assert Halves((h, end), days) == {h} + Halves((h + 1, end), days);
      var r := Fill(occupancy[h := uid], h + 1, end, days, uid);
      assert r.1.Some? ==> forall k :: h <= k < r.1.value && 1 <= k <= 2 * days ==> k !in occupancy by {
        if r.1.Some? {
          forall k | h <= k < r.1.value && 1 <= k <= 2 * days
            ensures k !in occupancy
          {
            if k > h {
              assert k !in occupancy[h := uid];
            }
          }
        }
      }
      r
  }

  /** An issue of the report. */
  datatype Issue = InvalidSpan(property: string, uid: string) | Overlap(property: string, month: Date, half: int)

  datatype MonthState = MonthState(occupancy: map<int, string>, issues: seq<Issue>)

  /** One turn of the event loop of a property-month, given the event's span: an
      event outside the month is passed over; an empty span is reported; an event
      whose halves meet an earlier one is reported once, at the first shared half,
      keeping the halves it took before that one. */
  function Step(name: string, st: MonthState, uid: string, span: Option<(int, int)>, month: Date, days: int): MonthState {
    match span
    case None => st
    case Some((startHalf, endHalf)) =>
      if endHalf <= startHalf then MonthState(st.occupancy, st.issues + [InvalidSpan(name, uid)])
      else
        var (occupancy, clash) := Fill(st.occupancy, startHalf, endHalf, days, uid);
        if clash.Some? then MonthState(occupancy, st.issues + [Overlap(name, month, clash.value)])
        else MonthState(occupancy, st.issues)
  }

  predicate CalendarDates(events: seq<Event>) {
    forall i :: 0 <= i < |events| ==> IsCalendarDate(events[i].start) && IsCalendarDate(events[i].end)
  }

  /** The event loop of one property-month, from an empty occupancy. */
  function ScanMonth(name: string, events: seq<Event>, mStart: Date, mEnd: Date, checkouts: set<Date>): (r: MonthState)
    requires MonthBounds(mStart, mEnd) && CalendarDates(events)
  {
    if events == [] then MonthState(map[], [])
    else
      var init := events[..|events| - 1];
      var ev := events[|events| - 1];
      Step(name, ScanMonth(name, init, mStart, mEnd, checkouts), ev.uid, ComputeSpan(ev, mStart, mEnd, checkouts), mStart, mEnd.day)
  }

  /** The spans of the events in the month, in order. */
  function SpansOf(events: seq<Event>, mStart: Date, mEnd: Date, checkouts: set<Date>): (r: seq<Option<(int, int)>>)
    requires MonthBounds(mStart, mEnd) && CalendarDates(events)
    ensures |r| == |events|
    ensures forall i {:trigger r[i]} :: 0 <= i < |events| ==> r[i] == ComputeSpan(events[i], mStart, mEnd, checkouts)
  {
    if events == [] then []
    else
      var init := events[..|events| - 1];
      assert forall i :: 0 <= i < |init| ==> init[i] == events[i];
      SpansOf(init, mStart, mEnd, checkouts) + [ComputeSpan(events[|events| - 1], mStart, mEnd, checkouts)]
  }

  /** The halves a span claims in the month. */
  function Claimed(span: Option<(int, int)>, days: int): set<int> {
    match span
    case None => {}
    case Some(range) => Halves(range, days)
  }

  /** A span in the month is a non-empty range of halves. */
  predicate SpanValid(span: Option<(int, int)>) {
    span.Some? ==> span.value.0 < span.value.1
  }

  /** Spans are clean when each is valid and no two claim the same half. */
  predicate SpansClean(spans: seq<Option<(int, int)>>, days: int) {
    (forall i :: 0 <= i < |spans| ==> SpanValid(spans[i]))
    && (forall i, j :: 0 <= i < j < |spans| ==> Claimed(spans[i], days) !! Claimed(spans[j], days))
  }

  /** A month is clean when every event in it occupies a non-empty range of halves
      and no two events claim the same half. */
  predicate MonthClean(events: seq<Event>, mStart: Date, mEnd: Date, checkouts: set<Date>)
    requires MonthBounds(mStart, mEnd) && CalendarDates(events)
  {
    SpansClean(SpansOf(events, mStart, mEnd, checkouts), mEnd.day)
  }

  /** The halves the spans claim together. */
  function ClaimedBy(spans: seq<Option<(int, int)>>, days: int): (r: set<int>)
    ensures forall i :: 0 <= i < |spans| ==> Claimed(spans[i], days) <= r
    ensures forall h :: h in r ==> exists i :: 0 <= i < |spans| && h in Claimed(spans[i], days)
  {
    if spans == [] then {}
    else
      var init := spans[..|spans| - 1];
      assert forall i :: 0 <= i < |init| ==> init[i] == spans[i];
      ClaimedBy(init, days) + Claimed(spans[|spans| - 1], days)
  }

  /** One turn reports nothing new exactly when the span is valid and its halves are
      free; it then occupies them all. */
  lemma StepReports(name: string, st: MonthState, uid: string, span: Option<(int, int)>, month: Date, days: int, before: set<int>)
    requires st.issues == [] ==> st.occupancy.Keys == before
    ensures Step(name, st, uid, span, month, days).issues == [] <==>
              st.issues == [] && SpanValid(span) && Claimed(span, days) !! before
    ensures Step(name, st, uid, span, month, days).issues == [] ==>
              Step(name, st, uid, span, month, days).occupancy.Keys == before + Claimed(span, days)
  {
  }

  /** Spans stay clean with one more exactly when it is valid and its halves are
      free. */
  lemma CleanSnoc(spans: seq<Option<(int, int)>>, span: Option<(int, int)>, days: int)
    ensures SpansClean(spans + [span], days) <==>
              SpansClean(spans, days) && SpanValid(span) && Claimed(span, days) !! ClaimedBy(spans, days)
  {
    var all := spans + [span];
    var n := |spans|;
    assert forall i :: 0 <= i < n ==> all[i] == spans[i];
    assert all[n] == span;
    var before := ClaimedBy(spans, days);
    if SpansClean(all, days) {
      forall h | h in before
        ensures h !in Claimed(span, days)
      {
        var i :| 0 <= i < n && h in Claimed(spans[i], days);
        assert Claimed(all[i], days) !! Claimed(all[n], days);
      }
    } else if SpansClean(spans, days) && SpanValid(span) && Claimed(span, days) !! before {
      forall i, j | 0 <= i < j < |all|
        ensures Claimed(all[i], days) !! Claimed(all[j], days)
      {
        if j < n {
          assert Claimed(spans[i], days) !! Claimed(spans[j], days);
        } else {
          assert Claimed(spans[i], days) <= before;
        }
      }
      assert forall i :: 0 <= i < |all| ==> SpanValid(all[i]);
    }
  }

  /** The check of a month reports nothing exactly when the month is clean; while it
      has reported nothing, the occupied halves are those the events claim. */
  lemma {:induction false} ScanMonthReportsExactly(name: string, events: seq<Event>, mStart: Date, mEnd: Date, checkouts: set<Date>)
    requires MonthBounds(mStart, mEnd) && CalendarDates(events)
    ensures ScanMonth(name, events, mStart, mEnd, checkouts).issues == [] <==> MonthClean(events, mStart, mEnd, checkouts)
    ensures ScanMonth(name, events, mStart, mEnd, checkouts).issues == [] ==>
              ScanMonth(name, events, mStart, mEnd, checkouts).occupancy.Keys == ClaimedBy(SpansOf(events, mStart, mEnd, checkouts), mEnd.day)
  {
    if events != [] {
      var init := events[..|events| - 1];
      var ev := events[|events| - 1];
      ScanMonthReportsExactly(name, init, mStart, mEnd, checkouts);
      var st := ScanMonth(name, init, mStart, mEnd, checkouts);
      var spans := SpansOf(init, mStart, mEnd, checkouts);
      var span := ComputeSpan(ev, mStart, mEnd, checkouts);
      assert SpansOf(events, mStart, mEnd, checkouts) == spans + [span];
      CleanSnoc(spans, span, mEnd.day);
      StepReports(name, st, ev.uid, span, mStart, mEnd.day, ClaimedBy(spans, mEnd.day));
      assert ClaimedBy(spans + [span], mEnd.day) == ClaimedBy(spans, mEnd.day) + Claimed(span, mEnd.day) by {
        assert (spans + [span])[..|spans|] == spans;
      }
    }
  }

  // ---------------------------------------------------------------------------
  // The check, imperatively

  /** The half loop of `main` for one event: halves outside the month are passed
      over, each free half is taken, and the first half already taken stops it. */
  method TakeHalves(occupancy: map<int, string>, startHalf: int, endHalf: int, days: int, uid: string)
    returns (filled: map<int, string>, clash: Option<int>)
    ensures (filled, clash) == Fill(occupancy, startHalf, endHalf, days, uid)
  {
    filled := occupancy;
    clash := None;
    var half := startHalf;
    while half < endHalf && clash.None?
      invariant clash.None? ==> Fill(filled, half, endHalf, days, uid) == Fill(occupancy, startHalf, endHalf, days, uid)
      invariant clash.Some? ==> Fill(occupancy, startHalf, endHalf, days, uid) == (filled, clash)
      decreases endHalf - half + (if clash.None? then 1 else 0)
    {
      if half < 1 || half > days * 2 {
        half := half + 1;
      } else if half in filled {
        clash := Some(half);
      } else {
        filled := filled[half := uid];
        half := half + 1;
      }
    }
  }

  /** The inner loops of `main` for one property-month. */
  method CheckMonth(name: string, events: seq<Event>, mStart: Date, mEnd: Date, checkouts: set<Date>)
    returns (issues: seq<Issue>)
    requires MonthBounds(mStart, mEnd)
    requires CalendarDates(events)
    ensures issues == ScanMonth(name, events, mStart, mEnd, checkouts).issues
  {
    var days := mEnd.day;
    var occupancy: map<int, string> := map[];
    issues := [];
    var i := 0;
    while i < |events|
      invariant 0 <= i <= |events|
      invariant ScanMonth(name, events[..i], mStart, mEnd, checkouts) == MonthState(occupancy, issues)
    {
      assert events[..i + 1][..i] == events[..i];
      var ev := events[i];
      var span := ComputeSpan(ev, mStart, mEnd, checkouts);
      if span.Some? {
        var (startHalf, endHalf) := span.value;
        if endHalf <= startHalf {
          issues := issues + [InvalidSpan(name, ev.uid)];
        } else {
          var filled, clash := TakeHalves(occupancy, startHalf, endHalf, days, ev.uid);
          occupancy := filled;
          if clash.Some? {
            issues := issues + [Overlap(name, mStart, clash.value)];
          }
        }
      }
      i := i + 1;
    }
    assert events[..|events|] == events;
  }

  /** The first and last of a list of dates. */
  function Earliest(ds: seq<Date>): (r: Date)
    requires ds != []
    ensures r in ds && forall i :: 0 <= i < |ds| ==> OnOrBefore(r, ds[i])
  {
    if |ds| == 1 then ds[0]
    else
      var rest := Earliest(ds[1..]);
      assert forall i :: 1 <= i < |ds| ==> ds[i] == ds[1..][i - 1];
      if Before(rest, ds[0]) then rest else ds[0]
  }

  function Latest(ds: seq<Date>): (r: Date)
    requires ds != []
    ensures r in ds && forall i :: 0 <= i < |ds| ==> OnOrBefore(ds[i], r)
  {
    if |ds| == 1 then ds[0]
    else
      var rest := Latest(ds[1..]);
      assert forall i :: 1 <= i < |ds| ==> ds[i] == ds[1..][i - 1];
      if Before(ds[0], rest) then rest else ds[0]
  }

  /** Every start and end date of the events. */
  function AllDates(events: seq<Event>): (r: seq<Date>)
    ensures |r| == 2 * |events|
    ensures forall i :: 0 <= i < |events| ==> r[i] == events[i].start && r[|events| + i] == events[i].end
  {
    seq(|events|, i requires 0 <= i < |events| => events[i].start)
      + seq(|events|, i requires 0 <= i < |events| => events[i].end)
  }

  lemma AllDatesAreCalendarDates(events: seq<Event>)
    requires CalendarDates(events)
    ensures forall d :: d in AllDates(events) ==> IsCalendarDate(d)
  {
    var all := AllDates(events);
    forall d | d in all
      ensures IsCalendarDate(d)
    {
      var i :| 0 <= i < |all| && all[i] == d;
      if i >= |events| {
        assert all[i] == events[i - |events|].end;
      }
    }
  }

  /** The months a property is checked over: from the month of its earliest date to
      the month of its latest. */
  function PropertyMonths(events: seq<Event>): (r: seq<Date>)
    requires events != [] && CalendarDates(events)
    ensures forall k :: 0 <= k < |r| ==> IsCalendarDate(r[k]) && r[k].day == 1
  {
    var all := AllDates(events);
    AllDatesAreCalendarDates(events);
    Months(Earliest(all), Latest(all))
  }

  /** The issues of one property, month after month. */
  function PropertyIssues(p: Property): seq<Issue>
    requires CalendarDates(p.events)
  {
    if p.events == [] then []
    else MonthsIssues(p.name, p.events, PropertyMonths(p.events), Checkouts(p.events))
  }

  function MonthsIssues(name: string, events: seq<Event>, months: seq<Date>, checkouts: set<Date>): seq<Issue>
    requires CalendarDates(events)
    requires forall k :: 0 <= k < |months| ==> IsCalendarDate(months[k]) && months[k].day == 1
  {
    if months == [] then []
    else
      var init := months[..|months| - 1];
      var m := months[|months| - 1];
      MonthsIssues(name, events, init, checkouts)
        + ScanMonth(name, events, MonthStart(m), MonthEnd(m), checkouts).issues
  }

  /** A property reports nothing exactly when the check of each of its months
      reports nothing. */
  lemma {:induction false} MonthsIssuesEmpty(name: string, events: seq<Event>, months: seq<Date>, checkouts: set<Date>)
    requires CalendarDates(events)
    requires forall k :: 0 <= k < |months| ==> IsCalendarDate(months[k]) && months[k].day == 1
    ensures MonthsIssues(name, events, months, checkouts) == [] <==>
              forall k :: 0 <= k < |months| ==> ScanMonth(name, events, MonthStart(months[k]), MonthEnd(months[k]), checkouts).issues == []
  {
    if months != [] {
      var init := months[..|months| - 1];
      var m := months[|months| - 1];
      MonthsIssuesEmpty(name, events, init, checkouts);
      assert forall k :: 0 <= k < |init| ==> init[k] == months[k];
      var last := ScanMonth(name, events, MonthStart(m), MonthEnd(m), checkouts).issues;
      assert MonthsIssues(name, events, months, checkouts) == MonthsIssues(name, events, init, checkouts) + last;
    }
  }

  /** `main`'s loop over one property: a property without events is passed over;
      otherwise each month from its earliest to its latest date is checked against
      the checkout days of its stays. */
  method CheckProperty(p: Property) returns (issues: seq<Issue>)
    requires CalendarDates(p.events)
    ensures issues == PropertyIssues(p)
  {
    if p.events == [] {
      return [];
    }
    var all := AllDates(p.events);
    var first := Earliest(all);
    var last := Latest(all);
    var checkouts := Checkouts(p.events);
    AllDatesAreCalendarDates(p.events);
    var months := IterMonths(first, last);
    issues := CheckMonths(p.name, p.events, months, checkouts);
  }

  /** The loop over the months of one property. */
  method CheckMonths(name: string, events: seq<Event>, months: seq<Date>, checkouts: set<Date>) returns (issues: seq<Issue>)
    requires CalendarDates(events)
    requires forall k :: 0 <= k < |months| ==> IsCalendarDate(months[k]) && months[k].day == 1
    ensures issues == MonthsIssues(name, events, months, checkouts)
  {
    issues := [];
    for k := 0 to |months|
      invariant issues == MonthsIssues(name, events, months[..k], checkouts)
    {
      assert months[..k + 1][..k] == months[..k];
      var month := months[k];
      var monthIssues := CheckMonth(name, events, MonthStart(month), MonthEnd(month), checkouts);
      issues := issues + monthIssues;
    }
    assert months[..|months|] == months;
  }

  /** The issues of every property, in order. */
  function ReportIssues(properties: seq<Property>): seq<Issue>
    requires forall i :: 0 <= i < |properties| ==> CalendarDates(properties[i].events)
  {
    if properties == [] then []
    else
      var init := properties[..|properties| - 1];
      ReportIssues(init) + PropertyIssues(properties[|properties| - 1])
  }

  /** `main`: the issues of the whole calendar, and the exit status, 1 exactly when
      there is an issue. */
  method ValidateCalendar(properties: seq<Property>) returns (issues: seq<Issue>, status: int)
    requires forall i :: 0 <= i < |properties| ==> CalendarDates(properties[i].events)
    ensures issues == ReportIssues(properties)
    ensures status == 0 <==> issues == []
    ensures status == 0 || status == 1
  {
    issues := [];
    for i := 0 to |properties|
      invariant issues == ReportIssues(properties[..i])
    {
      assert properties[..i + 1][..i] == properties[..i];
      var found := CheckProperty(properties[i]);
      issues := issues + found;
    }
    assert properties[..|properties|] == properties;
    status := if issues != [] then 1 else 0;
  }

  // ---------------------------------------------------------------------------
  // Calendars without double bookings pass

  /** Every event lasts at least one night. */
  predicate AtLeastOneNight(events: seq<Event>) {
    forall i :: 0 <= i < |events| ==> Before(events[i].start, events[i].end)
  }

  /** No two events share a night: of any two, one ends on or before the day the
      other starts. */
  predicate NoSharedNight(events: seq<Event>) {
    forall i, j :: 0 <= i < j < |events| ==>
      OnOrBefore(events[i].end, events[j].start) || OnOrBefore(events[j].end, events[i].start)
  }

  /** Two events of which one ends before the other starts claim different halves. */
  lemma OrderedClaimsDisjoint(a: Event, b: Event, mStart: Date, mEnd: Date, checkouts: set<Date>)
    requires MonthBounds(mStart, mEnd)
    requires IsCalendarDate(a.start) && IsCalendarDate(a.end) && IsCalendarDate(b.start) && IsCalendarDate(b.end)
    requires a.kind == Reservation ==> a.end in checkouts
    requires OnOrBefore(a.end, b.start)
    ensures Claimed(ComputeSpan(a, mStart, mEnd, checkouts), mEnd.day) !! Claimed(ComputeSpan(b, mStart, mEnd, checkouts), mEnd.day)
  {
    if ComputeSpan(a, mStart, mEnd, checkouts).Some? && ComputeSpan(b, mStart, mEnd, checkouts).Some? {
      OrderedEventsDoNotClash(a, b, mStart, mEnd, checkouts);
    }
  }

  /** In a month of a calendar whose events last a night or more and share no night,
      every span is valid and no half is claimed twice. */
  lemma DisjointStaysAreClean(events: seq<Event>, mStart: Date, mEnd: Date)
    requires MonthBounds(mStart, mEnd) && CalendarDates(events)
    requires AtLeastOneNight(events) && NoSharedNight(events)
    ensures MonthClean(events, mStart, mEnd, Checkouts(events))
  {
    var checkouts := Checkouts(events);
    var spans := SpansOf(events, mStart, mEnd, checkouts);
    forall i | 0 <= i < |spans|
      ensures SpanValid(spans[i])
    {
      if spans[i].Some? {
        SpanIsValid(events[i], mStart, mEnd, checkouts);
      }
    }
    forall i, j | 0 <= i < j < |spans|
      ensures Claimed(spans[i], mEnd.day) !! Claimed(spans[j], mEnd.day)
    {
      if OnOrBefore(events[i].end, events[j].start) {
        OrderedClaimsDisjoint(events[i], events[j], mStart, mEnd, checkouts);
      } else {
        OrderedClaimsDisjoint(events[j], events[i], mStart, mEnd, checkouts);
      }
    }
  }

  /** A property whose events last a night or more and share no night reports
      nothing, whatever their kinds and order. */
  lemma DisjointPropertyPasses(p: Property)
    requires CalendarDates(p.events) && AtLeastOneNight(p.events) && NoSharedNight(p.events)
    ensures PropertyIssues(p) == []
  {
    if p.events != [] {
      var months := PropertyMonths(p.events);
      forall k | 0 <= k < |months|
        ensures ScanMonth(p.name, p.events, MonthStart(months[k]), MonthEnd(months[k]), Checkouts(p.events)).issues == []
      {
        DisjointStaysAreClean(p.events, MonthStart(months[k]), MonthEnd(months[k]));
        ScanMonthReportsExactly(p.name, p.events, MonthStart(months[k]), MonthEnd(months[k]), Checkouts(p.events));
      }
      MonthsIssuesEmpty(p.name, p.events, months, Checkouts(p.events));
    }
  }

  /** A calendar whose every property has events of a night or more sharing no night
      passes: `main` returns 0. */
  lemma {:induction false} DisjointCalendarPasses(properties: seq<Property>)
    requires forall i :: 0 <= i < |properties| ==> CalendarDates(properties[i].events)
    requires forall i :: 0 <= i < |properties| ==> AtLeastOneNight(properties[i].events) && NoSharedNight(properties[i].events)
    ensures ReportIssues(properties) == []
  {
    if properties != [] {
      var init := properties[..|properties| - 1];
      assert forall i :: 0 <= i < |init| ==> init[i] == properties[i];
      DisjointCalendarPasses(init);
      DisjointPropertyPasses(properties[|properties| - 1]);
    }
  }
}
